=== FILE: README.md ===
# OpenMoverPlatform: a Dafny model of the host tools and the motor firmware

OpenMoverPlatform is a small tank-steered rover. An ESP32 firmware drives two
servo-style motor controllers and reads GPS and a magnetometer. Python host tools
talk to it over a serial line with newline-free JSON command documents. Each
document is an object whose first key is `intent`, an integer naming the command.
This project models both halves and proves properties of the model.

Host side (`PlatformCode/PlatformHelper`):

- **KML parsing** (`parsekml.py`). The `<LineString><coordinates>` block is found
  case-insensitively, falling back to a bare `<coordinates>` block. The block is
  stripped, split on commas and whitespace, and every token that `float()`
  accepts is kept (modules `Text`, `Kml`, `KmlLemmas`).
- **Waypoint uploads** (`intent0.py`, `intent5.py`, and the GUI's and CLI's upload
  actions). These build the coordinate documents. They differ only in the header
  put in front of the floats (module `Waypoints`).
- **Command documents** sent by both helpers, with a decoder that inverts them
  (module `Commands`).
- **Reading responses.** The helpers' `read_json` parses whole lines only.
  intent9's extractor tries the brace span first. intent6's tries the whole line
  first (modules `Reads`, `Extract`).
- **Magnetometer logging loops** of `intent9.py` and `helper_cli.py`, and the
  status poll of `intent6.py` (modules `Poll`, `Reads`).
- **The CLI** (`helper_cli.py`): its ten menu actions and its menu loop (module
  `Cli`).
- **The GUI** (`helper_gui.py`): the handlers' effect on the connection state, the
  documents written, the status labels and the logging session (module `Gui`).

Firmware side (`PlatformCode/OpenMoverplatform`):

- **Build constants** (`config.h`, module `Config`).
- **The speed-to-pulse mapping** (`motorSet.cpp`) and `endMotorTask` (module
  `Motors`).
- **Tank steering towards a target** (`goTo.cpp`, module `Steering`).
- **Magnetometer calibration**, which tracks the X/Y extremes while spinning in
  place (`compass.cpp`, module `Compass`).
- **The serial dispatcher.** There are two variants: serialManager.cpp, with its
  `motorHandled` busy guard, and the `loop` of main.cpp, without one. The model
  covers the emergency stop they fall into, the coordinate table they copy into,
  and the end of a waypoint task (wpManager.cpp) (module `Dispatch`).

Primitives outside the model enter as function parameters:

- `json.loads` is `loads: string -> Option<Json>`. `None` stands for a decode error.
- `json.dumps` is `dumps`.
- `float()` and `int()` are `parseFloat` and `parseInt`.
- ArduinoJson's conversion of a non-integer value to `int` is `toInt`.

Serial reads are finite sequences of arrivals, and the end of a sequence stands
for the timeout. Keyboard answers are strings. Doubles are reals.

Facts about the code that the model makes explicit:

- A command without an `intent` member is not rejected by the firmware. ArduinoJson
  reads the missing member as 0, so the document is treated as a coordinate store
  (`Dispatch.MissingIntentIsZero`).
- The firmware's `copyArray` into `int[99][2]` copies only array elements. The flat
  number list that intent0.py sends stores nothing (`Dispatch.HostIntent0StoresNothing`).
- The host tools write `json.dumps` output and nothing after it
  (helper_cli.py:37-38, helper_gui.py:351-352), while `deserializeJson` on the
  firmware reads one value from the stream. Nothing marks where a document ends
  on the wire (`Cli.WireAppend`).
- Only intents 0, 1 and 2 are dispatched by the firmware. Every other intent the
  tools send puts it into the emergency stop (`Dispatch.HostCommandsHalt`).

## Model

| member | source | states |
|---|---|---|
| Text.StripIsTrim | PlatformCode/PlatformHelper/parsekml.py:26 | `strip()` is trimming the left end and then the right end; each trim removes only whitespace, and the result neither begins nor ends with whitespace |
| Text.StripOfPadded | PlatformCode/PlatformHelper/parsekml.py:26 | whitespace around a text that neither begins nor ends in whitespace is exactly what `strip()` removes |
| Text.StripOfSpaces | PlatformCode/PlatformHelper/intent9.py:37 | a text made only of whitespace strips to the empty string |
| Text.FindExact | PlatformCode/PlatformHelper/parsekml.py:16 | the search returns the first position at or after the start where the tag occurs, and `None` exactly when there is none |
| Text.IndexOf | PlatformCode/PlatformHelper/intent9.py:14 | `str.find`: -1 exactly when the character is absent, otherwise its first position |
| Text.LastIndexOf | PlatformCode/PlatformHelper/intent9.py:15 | `str.rfind`: -1 exactly when the character is absent, otherwise its last position |
| Kml.LineStringMatchIsSearch | PlatformCode/PlatformHelper/parsekml.py:16 | the LineString regex match is a real match, the first in search order (earliest start, shortest lazy body), and absent exactly when no match exists |
| Kml.BareBlockMatch | PlatformCode/PlatformHelper/parsekml.py:19 | the fallback `<coordinates>` match is a real match, the first one, and absent exactly when there is none |
| Kml.BlockSpan | PlatformCode/PlatformHelper/parsekml.py:16-23 | a coordinate span lies inside the text, and there is none exactly when neither regex matches |
| Kml.BlockSpanChoice | PlatformCode/PlatformHelper/parsekml.py:16-21 | the LineString block is taken when it exists; only otherwise the bare block |
| Kml.BlockSpanFound | PlatformCode/PlatformHelper/parsekml.py:17-21 | a span is found exactly when some bare `<coordinates>…</coordinates>` block exists, since every LineString block contains one |
| Kml.BlockSpanContent | PlatformCode/PlatformHelper/parsekml.py:16-19 | the lazy match stops at the first closing tag: the content holds no `</coordinates>` |
| KmlLemmas.BlockSpanIgnoresCase | PlatformCode/PlatformHelper/parsekml.py:16-19 | `re.IGNORECASE`: two texts equal up to letter case give the same span |
| Kml.DropSeps | PlatformCode/PlatformHelper/parsekml.py:26 | drops exactly the leading run of commas and whitespace |
| Kml.NonEmpty | PlatformCode/PlatformHelper/parsekml.py:28 | the filter keeps exactly the non-empty pieces, in order |
| Kml.Numbers | PlatformCode/PlatformHelper/parsekml.py:31-37 | at most one float per token, each one the parse of some token |
| Kml.Parse | PlatformCode/PlatformHelper/parsekml.py:12-39 | an error exactly when no coordinates block exists; otherwise the floats of the tokens of that block that parse, in order, at most one per token |
| KmlLemmas.SplitPiecesHaveNoSep | PlatformCode/PlatformHelper/parsekml.py:26 | no piece of `re.split(r'[,\s]+', …)` holds a separator |
| KmlLemmas.FlattenSplit | PlatformCode/PlatformHelper/parsekml.py:26 | the pieces put together are the text's non-separator characters, in order |
| KmlLemmas.FlattenNonEmpty | PlatformCode/PlatformHelper/parsekml.py:28 | dropping empty pieces loses no character |
| KmlLemmas.KeepStrip | PlatformCode/PlatformHelper/parsekml.py:26 | stripping removes only separators: the non-separator characters survive it |
| KmlLemmas.TokensAreWords | PlatformCode/PlatformHelper/parsekml.py:26-28 | every token is non-empty and holds no separator |
| KmlLemmas.TokensKeepContent | PlatformCode/PlatformHelper/parsekml.py:26-28 | the tokens put together are exactly the block's non-separator characters |
| KmlLemmas.SplitJoin | PlatformCode/PlatformHelper/parsekml.py:26 | splitting words joined by one separator gives the words back |
| KmlLemmas.TokensOfJoin | PlatformCode/PlatformHelper/parsekml.py:26-28 | round trip: the tokens of non-empty words joined by a separator are those words |
| KmlLemmas.NumbersAppend | PlatformCode/PlatformHelper/parsekml.py:31-37 | the floats of two token runs are the floats of each run, in order |
| KmlLemmas.NumbersAllParse | PlatformCode/PlatformHelper/parsekml.py:34 | when every token parses, one float per token, in order |
| KmlLemmas.NumbersSkipUnparsable | PlatformCode/PlatformHelper/parsekml.py:35-37 | a token that does not parse contributes nothing |
| KmlLemmas.ParseReadsEveryWord | PlatformCode/PlatformHelper/parsekml.py:16-39 | a block holding parseable words joined by one separator parses to exactly one float per word, in order |
| Extract.BraceSpanIsOutermost | PlatformCode/PlatformHelper/intent9.py:14-17 | the brace span exists exactly when some `{` precedes some `}`; it runs from the first `{` to the last `}` |
| Extract.BraceFirst | PlatformCode/PlatformHelper/intent9.py:13-24 | with a brace span only the span is parsed; the whole text only when there is none |
| Extract.WholeFirst | PlatformCode/PlatformHelper/intent6.py:19-28 | the whole line first, then the brace span, and nothing when both fail |
| Extract.ReadJsonFromLines | PlatformCode/PlatformHelper/intent6.py:13-29 | the value of the first line that yields one, with no earlier line yielding one; `None` exactly when no line does |
| Extract.BraceSpanOfFramed | PlatformCode/PlatformHelper/intent9.py:14-18 | a document with no `{` before it and no `}` after it is the line's brace span |
| Extract.NoisyLine | PlatformCode/PlatformHelper/intent9.py:13-24 | a document with noise around it is extracted by the brace-first and whole-first decoders and lost by the whole-line one |
| Extract.WholeValidSpanInvalid | PlatformCode/PlatformHelper/intent9.py:16-20 | a line valid as a whole but not as its brace span is accepted whole-first and rejected brace-first |
| Extract.WholeFirstMostTolerant | PlatformCode/PlatformHelper/intent6.py:19-28 | whatever the other two decoders accept, the whole-first decoder accepts |
| Extract.DecodersAgree | PlatformCode/PlatformHelper/intent6.py:19-28 | on a line that is one brace span, or has none, the three decoders agree |
| Reads.HelperLineValue | PlatformCode/PlatformHelper/helper_gui.py:367-377 | a line counts exactly when it decodes strictly, is not blank, and parses whole after stripping |
| Reads.HelperReadJson | PlatformCode/PlatformHelper/helper_cli.py:41-55 | `read_json` returns the first accepted line's value and `None` exactly when no line in the window is accepted |
| Reads.Intent6ArrivalValue | PlatformCode/PlatformHelper/intent6.py:45-57 | an arrival yields a value exactly when it decodes to a non-blank line whose whole-first extraction succeeds and is not `null`, and that value is the extraction |
| Reads.OneLine | PlatformCode/PlatformHelper/intent6.py:56 | the one-line call to `_read_json_from_lines` is the whole-first decoder |
| Reads.Intent6SingleShot | PlatformCode/PlatformHelper/intent6.py:38-68 | one request is written; the response is the first accepted arrival, `None` exactly when none is accepted before the timeout |
| Reads.Intent6Interactive | PlatformCode/PlatformHelper/intent6.py:38-73 | one request per round, all of them intent 6; the session returns at the first `r`/`return`/`q`/`exit` and keeps requesting otherwise |
| Reads.Intent6AcceptsWhatHelperAccepts | PlatformCode/PlatformHelper/intent6.py:44-59 | every non-null response the helpers' reader gets, intent6 gets too |
| JsonData.Get | PlatformCode/PlatformHelper/helper_gui.py:408 | `dict.get`: absent exactly when no field has the key; otherwise the value of the last binding of the key |
| JsonData.GetLastBinding | PlatformCode/PlatformHelper/helper_gui.py:408 | a key bound at some position and never after it is found with that binding |
| JsonData.Command | PlatformCode/PlatformHelper/helper_cli.py:60 | a command document carries its intent; `get` finds that intent unless an extra field rebinds it, and finds every other key exactly as the extra fields bind it |
| JsonData.GetOrNA | PlatformCode/PlatformHelper/helper_cli.py:132-142 | `get(key, 'N/A')` as both helpers print status values: `N/A` exactly when no field has the key, otherwise the key's last binding, `null` included |
| Commands.Decode | PlatformCode/PlatformHelper/helper_cli.py:57-214 | whatever decodes re-encodes to the same document |
| Commands.DecodeEncode | PlatformCode/PlatformHelper/helper_cli.py:57-214 | every request the tools send survives the round trip through its document |
| Commands.EncodeInjective | PlatformCode/PlatformHelper/helper_cli.py:57-214 | distinct requests give distinct documents |
| Commands.EncodeIntent | PlatformCode/PlatformHelper/helper_cli.py:60 | every request's document carries its intent first, and no later key repeats it |
| Commands.UploadsAreRequests | PlatformCode/PlatformHelper/intent5.py:44-49 | the intent-0 and intent-5 uploads are the coordinate requests |
| Waypoints.ReadUpload | PlatformCode/PlatformHelper/intent5.py:44-49 | reading an upload array gives three header slots and the floats after them, and fails exactly on other shapes |
| Waypoints.ReadUploadItems | PlatformCode/PlatformHelper/intent5.py:44-49 | round trip: an upload array gives back its header, speed, range and coordinates unchanged and in order |
| Waypoints.ResolveParameter | PlatformCode/PlatformHelper/intent5.py:28-42 | a supplied speed or range is used without prompting; otherwise the first stripped answer that parses, with all earlier answers rejected |
| Waypoints.Intent5SkipsRejectedSpeed | PlatformCode/PlatformHelper/intent5.py:27-33 | an answer `float()` rejects at the speed prompt is asked again and changes nothing |
| Waypoints.Intent5PromptedAgreesWithGiven | PlatformCode/PlatformHelper/intent5.py:27-41 | prompting for speed and range gives the same upload as passing the parsed answers in |
| Waypoints.Intent0Process | PlatformCode/PlatformHelper/intent0.py:5-13 | a parse error writes nothing; otherwise one intent-0 document with the float count and then the floats |
| Waypoints.Intent5Process | PlatformCode/PlatformHelper/intent5.py:11-54 | a parse error or an empty parse writes nothing; otherwise one intent-5 document is written exactly when both speed and range are resolved, given or from the prompted answers, with header `len // 2`, the speed, the range and the floats |
| Waypoints.GuiUploadDocument | PlatformCode/PlatformHelper/helper_gui.py:485-503 | a document exactly when the file exists, the parse succeeds and both entries are numbers; an empty parse is still uploaded |
| Waypoints.CliUploadDocument | PlatformCode/PlatformHelper/helper_cli.py:102-122 | a document exactly when the file exists, the parse succeeds and both answers are floats; the header uses true division |
| Waypoints.HeaderOfPairs | PlatformCode/PlatformHelper/intent5.py:25-26 | for a list of pairs both headers count the pairs |
| Waypoints.HeaderOfOddLength | PlatformCode/PlatformHelper/helper_cli.py:113 | for an odd float count the CLI header is fractional while intent5 and the GUI round down |
| Waypoints.HeaderOfTriples | PlatformCode/PlatformHelper/parsekml.py:3 | for `lon,lat,alt` triples the floor header equals the waypoint count only for at most one waypoint |
| Waypoints.Intent0HeaderDiffers | PlatformCode/PlatformHelper/intent0.py:7 | intent 0's count header equals intent 5's header only for an empty parse |
| Poll.Accumulate | PlatformCode/PlatformHelper/intent9.py:41-67 | the loop that appends to an empty list computes the collected samples |
| Poll.CollectSnoc | PlatformCode/PlatformHelper/intent9.py:67 | one more iteration appends at most its own value |
| Poll.CollectAppend | PlatformCode/PlatformHelper/intent9.py:44-67 | the samples of two runs in sequence are the samples of each, in order |
| Poll.CollectMembers | PlatformCode/PlatformHelper/intent9.py:57-67 | a value is collected exactly when some iteration yields it |
| Poll.CollectCount | PlatformCode/PlatformHelper/intent9.py:57-67 | the number of records is the number of iterations that yield one |
| Poll.CollectAllAccepted | PlatformCode/PlatformHelper/intent9.py:67 | when every iteration yields a value, every one is recorded in order |
| Poll.LogFileName | PlatformCode/PlatformHelper/intent9.py:37-39 | a given non-blank name is used; a missing or blank one becomes `maglog_<stamp>.json` |
| Poll.Intent9Sample | PlatformCode/PlatformHelper/intent9.py:47-62 | an iteration keeps a value exactly when the read is non-empty and the brace-first extraction of its stripped text is neither a failure nor `null` |
| Poll.Intent9Process | PlatformCode/PlatformHelper/intent9.py:27-80 | one intent-9 request per iteration, plus one if interrupted after a write; no record is `null`; what is persisted once is the record list, and the count printed is its length |
| Poll.Intent9RecordsAreTheAcceptedReads | PlatformCode/PlatformHelper/intent9.py:47-67 | a value is recorded exactly when some non-empty read extracts to it |
| Poll.Intent9RecordsOnlyGrow | PlatformCode/PlatformHelper/intent9.py:67 | logging further only appends: a run's records extend those of its prefix |
| Poll.CliLogSample | PlatformCode/PlatformHelper/helper_cli.py:188-191 | an iteration keeps exactly a truthy response of `read_json` |
| Poll.CliLogMagData | PlatformCode/PlatformHelper/helper_cli.py:179-202 | one request per iteration; every record is truthy; the name is used as typed; the list is saved exactly when the file opens and no truthy response is a non-object; a truthy non-object response is the last record and ends the run after its own request |
| Poll.CliRecordsAreTheTruthyResponses | PlatformCode/PlatformHelper/helper_cli.py:188-193 | a value is recorded exactly when it is the truthy response of a window read no later than the first non-object one |
| Poll.FirstCrash | PlatformCode/PlatformHelper/helper_cli.py:190-193 | the first window whose truthy response is not an object, with none before it; none exactly when no window has one |
| Poll.CliCrashLosesTheLog | PlatformCode/PlatformHelper/helper_cli.py:190-201 | a truthy non-object response in any window means nothing is saved and no later window is requested |
| Poll.NoisySampleLoggedOnlyByIntent9 | PlatformCode/PlatformHelper/intent9.py:57 | a sample line with noise around the document is logged by intent9 and dropped by the CLI |
| Cli.WireAppend | PlatformCode/PlatformHelper/helper_cli.py:35-39 | writing two batches is writing their concatenation: nothing marks where a document ends |
| Cli.WireOne | PlatformCode/PlatformHelper/helper_cli.py:37-38 | one `send_json` writes exactly the dumped document |
| Cli.ConfirmedIsLowerY | PlatformCode/PlatformHelper/helper_cli.py:71 | `confirm.lower() == 'y'` holds exactly for `y` and `Y` |
| Cli.CliIntent1 | PlatformCode/PlatformHelper/helper_cli.py:57-65 | one intent-1 request; the response is shown exactly when it is truthy |
| Cli.CliIntent2 | PlatformCode/PlatformHelper/helper_cli.py:67-75 | intent 2 is sent exactly after a `y`/`Y` confirmation |
| Cli.CliIntent3 | PlatformCode/PlatformHelper/helper_cli.py:77-89 | `1` enables serial control, `2` disables it, anything else sends nothing |
| Cli.CliIntent4 | PlatformCode/PlatformHelper/helper_cli.py:91-100 | a motor command is sent exactly when both entries parse as integers, carrying them |
| Cli.CliIntent6 | PlatformCode/PlatformHelper/helper_cli.py:124-144 | one status request; a truthy object prints one value per status key in the printed order, a falsy or missing response prints nothing, and any other truthy response fails |
| Cli.CliIntent7 | PlatformCode/PlatformHelper/helper_cli.py:146-164 | a go-to command is sent exactly when all four answers parse, carrying them in order |
| Cli.CliIntent8 | PlatformCode/PlatformHelper/helper_cli.py:166-177 | intent 8 is sent exactly after a `y`/`Y` confirmation |
| Cli.CliIntent10 | PlatformCode/PlatformHelper/helper_cli.py:204-214 | a bias command is sent exactly when both answers parse as floats, carrying them |
| Cli.ChooseKey | PlatformCode/PlatformHelper/helper_cli.py:254-262 | `0` leaves; `1`..`10` select the action of that intent; anything else is invalid |
| Cli.Choose | PlatformCode/PlatformHelper/helper_cli.py:252-262 | the menu answer is stripped before the lookup |
| Cli.ChooseIgnoresSurroundingSpace | PlatformCode/PlatformHelper/helper_cli.py:252 | whitespace around a menu key does not change what it selects |
| Cli.StepOf | PlatformCode/PlatformHelper/helper_cli.py:250-267 | an answer selects its stripped menu choice; Ctrl-C at the prompt selects a leave; Ctrl-C during an action runs that action and then leaves, because one `try` wraps the prompt and the action; a leave is selected exactly when the prompt ends the loop, and only last |
| Cli.StepTrace | PlatformCode/PlatformHelper/helper_cli.py:250-267 | one prompt runs an action exactly when its answer names one, and closes the port exactly on Ctrl-C (at the prompt or in the action) or `0` |
| Cli.RunChoices | PlatformCode/PlatformHelper/helper_cli.py:249-269 | at most one action per prompt; the port closes exactly when some selection was `0` |
| Cli.Run | PlatformCode/PlatformHelper/helper_cli.py:234-269 | `run` over its prompts: at most one action each, and the port closes exactly when some prompt is `0` or is interrupted by Ctrl-C, at the prompt or inside the action |
| Cli.RunStopsAtLeave | PlatformCode/PlatformHelper/helper_cli.py:254-262 | the loop closes exactly when a leave is selected, runs the actions selected before the first leave in order, and reads nothing after it |
| Cli.RunIsRunChoices | PlatformCode/PlatformHelper/helper_cli.py:250-267 | the loop over the prompts equals the loop over the selections they contribute, so the leave-selection facts above hold for `run` |
| Cli.InterruptDuringActionCloses | PlatformCode/PlatformHelper/helper_cli.py:250-267 | Ctrl-C while a chosen action runs: the actions so far plus that started one are the whole trace, the port is closed, and no later prompt is read |
| Cli.RunInvokesMenuEntries | PlatformCode/PlatformHelper/helper_cli.py:236-260 | every action run is one of the ten menu entries |
| Cli.InvalidChoicesSendNothing | PlatformCode/PlatformHelper/helper_cli.py:261-262 | an invalid choice runs nothing: dropping it leaves the trace unchanged |
| Gui.SendJson | PlatformCode/PlatformHelper/helper_gui.py:344-358 | a document is written exactly when connected to an open port; a refused send changes nothing |
| Gui.ReadJson | PlatformCode/PlatformHelper/helper_gui.py:360-379 | nothing unless connected; otherwise the helpers' whole-line reader |
| Gui.ToggleConnection | PlatformCode/PlatformHelper/helper_gui.py:320-342 | disconnecting turns auto-status off; connecting succeeds only when the port opens, and a failure changes nothing |
| Gui.DisconnectedSendsNothing | PlatformCode/PlatformHelper/helper_gui.py:334-348 | after a disconnect no send gets through |
| Gui.ToggleMagLogging | PlatformCode/PlatformHelper/helper_gui.py:544-576 | starting clears the samples and sets the flag; stopping clears the flag, adds the samples as one save when the file opens, and changes nothing else |
| Gui.MagLogIteration | PlatformCode/PlatformHelper/helper_gui.py:558-565 | one pass writes one intent-9 request and appends a truthy response; without a port nothing changes |
| Gui.MagLoggingLoop | PlatformCode/PlatformHelper/helper_gui.py:558-565 | the loop changes neither flag nor the saves |
| Gui.MagLoggingLoopCollects | PlatformCode/PlatformHelper/helper_gui.py:558-565 | the loop appends the truthy response of every window, in order, whatever its shape |
| Gui.MagLoggingLoopWrites | PlatformCode/PlatformHelper/helper_gui.py:560-561 | the loop writes one request per window |
| Gui.MagLoggingLoopWithoutPort | PlatformCode/PlatformHelper/helper_gui.py:344-348 | without a port the loop sends and records nothing |
| Gui.LoggingSessionSavesOnce | PlatformCode/PlatformHelper/helper_gui.py:544-576 | start, loop, stop adds one save of the session's samples when the file opens and none otherwise |
| Gui.GuiAndCliLogAlike | PlatformCode/PlatformHelper/helper_gui.py:558-565 | the CLI logger saves exactly the GUI loop's samples when no truthy response is a non-object; when one is, the CLI saves nothing while the GUI keeps every truthy response |
| Gui.Numeric | PlatformCode/PlatformHelper/helper_gui.py:418-428 | shown exactly when the value is an int, float or bool |
| Gui.Range | PlatformCode/PlatformHelper/helper_gui.py:437-449 | shown exactly when both bounds are numeric |
| Gui.Battery | PlatformCode/PlatformHelper/helper_gui.py:408-410 | shown exactly when present and neither `null` nor `"N/A"` |
| Gui.UpdateStatusDisplay | PlatformCode/PlatformHelper/helper_gui.py:405-449 | latitude and heading are shown exactly when numeric |
| Gui.StatusDisplayFormatted | PlatformCode/PlatformHelper/helper_gui.py:421-449 | longitude and both magnetometer ranges are shown exactly when numeric |
| Gui.StatusDisplayPlain | PlatformCode/PlatformHelper/helper_gui.py:408-415 | plain labels show `N/A` exactly for a missing key; the battery also for `null` and `"N/A"` |
| Gui.NullShownOnlyByPlainLabels | PlatformCode/PlatformHelper/helper_gui.py:413-428 | a `null` heading reads `N/A` while a `null` fix is shown |
| Gui.CliAndGuiStatusAgree | PlatformCode/PlatformHelper/helper_cli.py:130-142 | against the GUI's labels for the same object: plain keys agree, `N/A` exactly when missing; the battery agrees unless the GUI hides a `null` or `"N/A"`; lat, lon and heading agree when numeric, and a `null` one is printed by the CLI and shown as `N/A` by the GUI |
| Gui.GetStatusOnce | PlatformCode/PlatformHelper/helper_gui.py:398-403 | one status request; the display is updated exactly for a truthy object response |
| Gui.SendRequest | PlatformCode/PlatformHelper/helper_gui.py:451-474 | each motor or go-to handler appends its one document when connected, changing nothing else, and changes nothing otherwise |
| Gui.StopMotors | PlatformCode/PlatformHelper/helper_gui.py:463-467 | the stop button appends direct motor speeds 0 and 0 when connected, changing nothing else, and changes nothing otherwise |
| Gui.SendIfConfirmed | PlatformCode/PlatformHelper/helper_gui.py:528-542 | execute and calibrate send only when the dialog is answered yes |
| Gui.GetCoordinates | PlatformCode/PlatformHelper/helper_gui.py:521-526 | one intent-1 request; a response is shown exactly when it is truthy |
| Gui.UploadKml | PlatformCode/PlatformHelper/helper_gui.py:485-503 | nothing changes when there is no document or the panel is not connected; otherwise the floor-header intent-5 document is appended and nothing else changes |
| Motors.PulseAsWritten | PlatformCode/OpenMoverplatform/src/motorSet.cpp:17-25 | the pulse as written: a reverse speed adds its magnitude to the centre and subtracts the deadband |
| Motors.ReverseGoesForwardAsWritten | PlatformCode/OpenMoverplatform/src/motorSet.cpp:20-21 | as written, a reverse command lands on the forward side of the centre exactly when its magnitude exceeds the deadband |
| Motors.CalibrationReverseInsideDeadbandAsWritten | PlatformCode/OpenMoverplatform/src/compass.cpp:62 | as written, the calibration spin's reverse wheel stays inside the deadband |
| Motors.Pulse | PlatformCode/OpenMoverplatform/src/motorSet.cpp:17-25 | zero is exactly the centre; forward speeds start past the upper deadband edge and reverse speeds past the lower one |
| Motors.PulseMonotone | PlatformCode/OpenMoverplatform/src/motorSet.cpp:18-21 | the corrected mapping is strictly increasing, and a sign change mirrors the pulse about the centre |
| Motors.PulseAgreesOnForward | PlatformCode/OpenMoverplatform/src/motorSet.cpp:18-19 | on non-negative speeds the corrected mapping is the written one |
| Motors.PulseNotClamped | PlatformCode/OpenMoverplatform/include/config.h:3-6 | nothing clamps the pulse: as written it stays within the servo range exactly for speeds in [-450, 350], and with the corrected mapping exactly for magnitudes at most 350 |
| Motors.MotorSetup | PlatformCode/OpenMoverplatform/src/motorSet.cpp:8-15 | both channels start at the centre pulse |
| Motors.SetMotorL | PlatformCode/OpenMoverplatform/src/motorSet.cpp:17-25 | the left setter writes the as-written pulse to channel 0 and leaves channel 1 alone; the pulse is the centre exactly for speeds 0 and minus the deadband |
| Motors.SetMotorR | PlatformCode/OpenMoverplatform/src/motorSet.cpp:27-35 | the right setter writes the as-written pulse to channel 1 and leaves channel 0 alone; the pulse is the centre exactly for speeds 0 and minus the deadband |
| Motors.SetMotors | PlatformCode/OpenMoverplatform/src/motorSet.cpp:17-35 | both setters together put the as-written pulses on the wheels, which are the corrected ones when neither speed is negative |
| Motors.SettersAgree | PlatformCode/OpenMoverplatform/src/motorSet.cpp:17-35 | both setters compute the same pulse for a speed |
| Motors.StoppedIsCentered | PlatformCode/OpenMoverplatform/src/motorSet.cpp:22-23 | zero on both wheels is the setup state |
| Motors.EndMotorTask | PlatformCode/OpenMoverplatform/src/endMotorTask.cpp:8-14 | both wheels end at the centre and the busy flag is cleared |
| Steering.Trunc | PlatformCode/OpenMoverplatform/src/goTo.cpp:15 | conversion to `int` truncates toward zero |
| Steering.Normalise | PlatformCode/OpenMoverplatform/src/goTo.cpp:46-48 | the error moves by at most one turn, lands in [-180, 180] from (-540, 540], and is unchanged inside [-180, 180] |
| Steering.CourseErrorBounded | PlatformCode/OpenMoverplatform/src/goTo.cpp:44-48 | the folded difference of two GPS courses lies in [-180, 180] |
| Steering.ReductionBounded | PlatformCode/OpenMoverplatform/src/goTo.cpp:57 | the inner wheel loses at most half the speed |
| Steering.Steer | PlatformCode/OpenMoverplatform/src/goTo.cpp:51-62 | a positive error slows the right wheel, a negative one the left, and zero slows neither |
| Steering.Clamp | PlatformCode/OpenMoverplatform/src/goTo.cpp:64-65 | `constrain(x, 0, 100)` |
| Steering.SteerWithinRange | PlatformCode/OpenMoverplatform/src/goTo.cpp:51-65 | for speeds in [0, 100] the clamp never bites: the outer wheel runs at the speed and the inner one at least at half |
| Steering.GoToStep | PlatformCode/OpenMoverplatform/src/goTo.cpp:25-68 | stops exactly without a fix or within range; otherwise drives with the clamped steering of the folded error |
| Steering.GoToStepUnclamped | PlatformCode/OpenMoverplatform/src/goTo.cpp:44-68 | with real GPS courses the applied commands are the steering rule's own |
| Steering.GoTo | PlatformCode/OpenMoverplatform/src/goTo.cpp:23-72 | each pass applies commands in [0, 100]; a return leaves both wheels stopped; otherwise the last command applied is on the wheels |
| Steering.GoToDrivesOnlyOutsideRange | PlatformCode/OpenMoverplatform/src/goTo.cpp:35-40 | every applied pass had a valid fix outside the range |
| Steering.ExecutePlainGoTo | PlatformCode/OpenMoverplatform/src/goTo.cpp:10-21 | the task runs `goTo` with the truncated speed, and when it ends both wheels stop and the busy flag is clear |
| Compass.StartBounds | PlatformCode/OpenMoverplatform/src/compass.cpp:56-59 | the first reading starts ordered bounds 0.1 wide that contain it |
| Compass.Update | PlatformCode/OpenMoverplatform/src/compass.cpp:65-76 | a pass only widens the bounds, and they then contain the reading and everything they contained |
| Compass.Track | PlatformCode/OpenMoverplatform/src/compass.cpp:63-78 | the loop only widens the bounds and keeps them ordered |
| Compass.TrackContainsAll | PlatformCode/OpenMoverplatform/src/compass.cpp:56-76 | every reading seen lies within the final bounds |
| Compass.TrackAttained | PlatformCode/OpenMoverplatform/src/compass.cpp:65-76 | each final bound is a starting bound or a reading's coordinate |
| Compass.Extremes | PlatformCode/OpenMoverplatform/src/compass.cpp:56-76 | the bounds are the least and greatest of the first reading (the maxima 0.1 above it) and the samples |
| Compass.AxesIndependent | PlatformCode/OpenMoverplatform/src/compass.cpp:65-70 | the X bounds depend only on the X readings |
| Compass.CalibrateMag | PlatformCode/OpenMoverplatform/src/compass.cpp:52-82 | the wheels get the as-written pulses of plus and minus the calibration speed, so the reverse wheel sits inside the deadband; the bounds contain every reading; the task ends exactly when the flag is cleared, with the wheels stopped and the flag clear |
| Compass.SpinIsLopsided | PlatformCode/OpenMoverplatform/src/compass.cpp:61-62 | as written the spin is 70 µs above the centre on one wheel and 30 µs below it on the other, while the corrected pulses mirror each other |
| Dispatch.AsInt | PlatformCode/OpenMoverplatform/src/serialManager.cpp:23 | an integer converts to itself and `null` to 0 |
| Dispatch.Member | PlatformCode/OpenMoverplatform/src/serialManager.cpp:23 | `doc[key]` is the member's value, or `null` for a missing key or a non-object |
| Dispatch.MissingIntentIsZero | PlatformCode/OpenMoverplatform/src/serialManager.cpp:23 | a document without `intent` reads as intent 0 |
| Dispatch.IntentOfIsWhatFirmwareReads | PlatformCode/OpenMoverplatform/src/serialManager.cpp:23 | an integer `intent` in first place that no later field rebinds is the intent the firmware switches on |
| Dispatch.CopyRow | PlatformCode/OpenMoverplatform/src/serialManager.cpp:27 | `copyArray` replaces the first entries the source has and keeps the rest |
| Dispatch.CopyTable | PlatformCode/OpenMoverplatform/src/serialManager.cpp:27 | a non-array copies nothing; array elements fill their rows; other rows are untouched |
| Dispatch.TableRoundTrip | PlatformCode/OpenMoverplatform/src/serialManager.cpp:27 | copying a full table document reproduces the table whatever was stored, for a document that fits the 200-byte `StaticJsonDocument` (serialManager.cpp:15) |
| Dispatch.FlatSourceCopiesNothing | PlatformCode/OpenMoverplatform/src/serialManager.cpp:27 | a list of scalars leaves the table as it was |
| Dispatch.EmergencyStop | PlatformCode/OpenMoverplatform/src/emerg.cpp:4-9 | appends `analogWrite(pwmCenter)` to both motor pins and halts; the PWM channels, table, flag and tasks are unchanged |
| Dispatch.Handle | PlatformCode/OpenMoverplatform/src/serialManager.cpp:14-48 | a pass keeps the table's shape and the invariant that a halted controller last wrote the centre pair to the motor pins; once halted no message changes anything; a pass without data changes nothing |
| Dispatch.HaltsIff | PlatformCode/OpenMoverplatform/src/serialManager.cpp:17-48 | halts exactly on a deserialization error or an intent other than 0, 1 and 2 |
| Dispatch.HostCommandsHalt | PlatformCode/OpenMoverplatform/src/serialManager.cpp:45-48 | of the host tools' commands, exactly those with intent above 2 halt the firmware |
| Dispatch.HaltedStaysHalted | PlatformCode/OpenMoverplatform/src/emerg.cpp:6-8 | once halted, nothing more is written to the pins or channels and the table stays as it was |
| Dispatch.Run | PlatformCode/OpenMoverplatform/src/serialManager.cpp:13-51 | a run of passes keeps the table's shape and the halted-after-centre-writes invariant |
| Dispatch.ManagerStart | PlatformCode/OpenMoverplatform/src/serialManager.cpp:8-12 | the dispatcher starts running, idle and with no task |
| Dispatch.GuardPreserved | PlatformCode/OpenMoverplatform/src/serialManager.cpp:35-43 | at most one waypoint task, and one exactly while `motorHandled` is set, after every event |
| Dispatch.Serve | PlatformCode/OpenMoverplatform/src/serialManager.cpp:10-52 | the task loop computes the run of its events and keeps the guard throughout |
| Dispatch.BusyChangesNothing | PlatformCode/OpenMoverplatform/src/serialManager.cpp:40-42 | intent 2 while busy prints the busy line and changes nothing else |
| Dispatch.SpawnsOnce | PlatformCode/OpenMoverplatform/src/serialManager.cpp:36-38 | intent 2 while idle sets the flag and spawns exactly one task |
| Dispatch.StoreAndQuery | PlatformCode/OpenMoverplatform/src/serialManager.cpp:25-33 | intent 0 overwrites only the table and logs the receipt; intent 1 changes nothing |
| Dispatch.HostIntent0StoresNothing | PlatformCode/OpenMoverplatform/src/serialManager.cpp:25-29 | intent0.py's flat document is acknowledged and leaves the table as it was, for a document that fits the 200-byte `StaticJsonDocument` (serialManager.cpp:15) |
| Dispatch.MainSetup | PlatformCode/OpenMoverplatform/src/main.cpp:7-14 | after setup the table is zeroed, `analogWrite(pwmCenter)` has gone to both motor pins, and nothing runs |
| Dispatch.MainSpawnsEveryTime | PlatformCode/OpenMoverplatform/src/main.cpp:39-42 | main.cpp spawns a task for every intent-2 message and never halts on one |
| Dispatch.MainLosesTrackOfTasks | PlatformCode/OpenMoverplatform/src/main.cpp:39-42 | two intent-2 messages and one task end leave main.cpp with a task running and the flag clear, while the guarded dispatcher ends idle |

## Left out

- Serial I/O, baud rates, port opening and closing, sleeps and timeouts. A read
  window is a finite sequence of arrivals, and its end stands for the timeout.
- Threads and FreeRTOS tasks. Each GUI handler is one state transition, and a
  waypoint task's end is one event. Interleavings, races between the logging
  thread and `save_mag_data`, and task priorities are not modelled.
- `json.loads`, `json.dumps`, `float()`, `int()` and ArduinoJson's non-integer
  conversion. These are uninterpreted parameters, so no property depends on
  their internals. UTF-8 encoding of the written bytes is folded into `dumps`.
- `StaticJsonDocument` capacity limits and overflow: a document is either
  deserialized or malformed.
- Floating point. Host floats are a `Float` datatype (finite real, NaN, infinity).
  Firmware doubles are reals, so rounding is not modelled.
- C `int` overflow: speeds and pulses are unbounded integers.
- The `uSecPWM` duty-cycle division before `ledcWrite`: pulses are kept in
  microseconds.
- TinyGPSPlus distance and course, and `getHeading`/`atan2`. The GPS readings are
  inputs to `goTo`, and the heading is not part of this model.
- Timestamps: the `_ts` field of intent9's `include_timestamp`, and the UTC stamp
  in the default log name, which is an input.
- Writing files. A save is the list it would write, and `canWrite` says whether
  the file opens.
- Tk widgets, dialogs, message boxes, labels' text formatting and the auto-status
  timer. The status labels are modelled as which value is shown.
- Case folding is ASCII-only (`Text.Fold`). Python's `re.IGNORECASE` also folds
  non-ASCII letters.
- `print` output of the host tools, and the firmware's debug prints other than the
  lines the dispatcher writes.
- helper.py is incomplete in the source: its methods break off mid-body, so it is
  not part of this model.
- wpManager.cpp's traversal of the coordinate table is not modelled, since it only
  prints. Its effect on the dispatcher (clearing `motorHandled` when it ends) is
  the `TaskEnded` event.
- Dispatch.EmergencyStop: records the two `analogWrite(motorNPin, pwmCenter)` calls
  as calls. What they do to pins already attached to LEDC channels is not
  interpreted, so the model does not claim the motors stop; the channels keep
  their last pulse. Dispatch.MainSetup records the same pair.
- Poll.CliLogMagData: the menu loop's report of the AttributeError after a crash
  is not modelled beyond the run ending unsaved.
- `MagCalibrationTime` and the calibration's start time are read by nothing in the
  firmware, so nothing depends on them.
- Compass.AxesIndependent: states the independence for the X bounds only. The Y
  statement is symmetric.
- Kml.Split: its own contract states only that there is at least one piece. Its
  content is stated by `KmlLemmas.SplitPiecesHaveNoSep`, `KmlLemmas.FlattenSplit`
  and `KmlLemmas.SplitJoin`.

## Findings

The setters, `SetMotors` and the calibration spin use the mapping as written;
the corrected `Motors.Pulse` is stated alongside it.

| source | as written | input that shows it | evidently intended | confidence | as-written member | corrected member |
|---|---|---|---|---|---|---|
| PlatformCode/OpenMoverplatform/src/motorSet.cpp:20-21 | a negative speed gives `pwmCenter - speed - pwmDeadband`, i.e. the centre plus the magnitude minus the deadband | speed -100 gives 1510 µs, above the centre 1460, so a full reverse command drives forward; -1 gives 1411 µs | `pwmCenter + speed - pwmDeadband`, the mirror of the forward branch, strictly increasing in the speed | not executed | Motors.ReverseGoesForwardAsWritten | Motors.PulseMonotone |

=== FILE: cli.dfy ===
/**
 * helper_cli.py: the menu-driven command-line tool. Each `intent_*` action
 * turns the user's answers into at most one command document; `run` picks the
 * action from the menu answer. Keyboard answers are strings, `float()` and
 * `int()` are the parameters `parseFloat` and `parseInt` (`None` for a
 * `ValueError`), and the port is the byte stream the documents are written to.
 */
module Cli {
  import opened Wrappers
  import opened Text
  import opened JsonData
  import opened Reads
  import opened Commands

  /**
   * The bytes that reach the port: `json.dumps` of each document, one after
   * another, with no terminator or separator. `dumps` stands for `json.dumps`.
   */
  function Wire(docs: seq<Json>, dumps: Json -> string): (r: string)
    ensures docs == [] ==> r == []
  {
    if docs == [] then [] else Wire(docs[..|docs| - 1], dumps) + dumps(docs[|docs| - 1])
  }

  /** Writing two batches is writing their concatenation: nothing marks where one document ends. */
  lemma {:induction false} WireAppend(a: seq<Json>, b: seq<Json>, dumps: Json -> string)
    ensures Wire(a + b, dumps) == Wire(a, dumps) + Wire(b, dumps)
    decreases |b|
  {
    if b == [] {
      assert a + b == a;
    } else {
      var init := b[..|b| - 1];
      assert b == init + [b[|b| - 1]];
      assert a + b == (a + init) + [b[|b| - 1]];
      assert (a + b)[..|a + b| - 1] == a + init;
      WireAppend(a, init, dumps);
    }
  }

  /** A single `send_json` writes exactly the encoded document. */
  lemma WireOne(doc: Json, dumps: Json -> string)
    ensures Wire([doc], dumps) == dumps(doc)
  {
    assert [doc][..0] == [];
  }

  /** `confirm.lower() == 'y'`: only `y` and `Y` lower-case to `y`. */
  predicate Confirmed(answer: string) {
    answer == "y" || answer == "Y"
  }

  /** The confirmation takes the answer as typed: it is not stripped, and `yes` does not count. */
  lemma ConfirmedIsLowerY(answer: string)
    ensures Confirmed(answer) <==> Fold(answer) == "y"
  {
    if Fold(answer) == "y" {
      assert |answer| == 1 && Lower(answer[0]) == 'y';
      assert answer == [answer[0]];
    }
  }

  /** What one action wrote: the documents, in order. */
  function SentIf(send: bool, req: Request): (r: seq<Json>)
    ensures |r| <= 1
    ensures r != [] <==> send
    ensures r != [] ==> r[0] == Encode(req)
  {
    if send then [Encode(req)] else []
  }

  /** intent_1: one request; the response is shown when it is truthy. */
  function CliIntent1(window: seq<Arrival>, loads: string -> Option<Json>): (r: (seq<Json>, Option<Json>))
    ensures r.0 == [Encode(GetCoordinates)]
    ensures r.1.Some? <==> HelperReadJson(window, loads).Some? && Truthy(HelperReadJson(window, loads).value)
    ensures r.1.Some? ==> r.1 == HelperReadJson(window, loads)
  {
    var response := HelperReadJson(window, loads);
    ([Encode(GetCoordinates)], if response.Some? && Truthy(response.value) then response else None)
  }

  /** intent_2: intent 2 only after a `y`/`Y` confirmation. */
  function CliIntent2(confirm: string): (r: seq<Json>)
    ensures r == [] || r == [Encode(ExecuteWaypoints)]
    ensures r != [] <==> Confirmed(confirm)
  {
    SentIf(Confirmed(confirm), ExecuteWaypoints)
  }

  /** intent_3: `1` enables, `2` disables, anything else sends nothing. */
  function CliIntent3(choice: string): (r: seq<Json>)
    ensures choice == "1" ==> r == [Encode(SetControl(true))]
    ensures choice == "2" ==> r == [Encode(SetControl(false))]
    ensures choice != "1" && choice != "2" ==> r == []
  {
    if choice == "1" then [Encode(SetControl(true))]
    else if choice == "2" then [Encode(SetControl(false))]
    else []
  }

  /** intent_4: both entries must parse as integers; otherwise nothing is sent. */
  function CliIntent4(leftAnswer: string, rightAnswer: string, parseInt: string -> Option<int>): (r: seq<Json>)
    ensures r != [] <==> parseInt(leftAnswer).Some? && parseInt(rightAnswer).Some?
    ensures r != [] ==> r == [Encode(DirectMotors(parseInt(leftAnswer).value, parseInt(rightAnswer).value))]
  {
    match (parseInt(leftAnswer), parseInt(rightAnswer))
    case (Some(l), Some(rt)) => [Encode(DirectMotors(l, rt))]
    case _ => []
  }

  /** intent_7: four floats, latitude, longitude, speed, range; any failure sends nothing. */
  function CliIntent7(answers: seq<string>, parseFloat: string -> Option<Float>): (r: seq<Json>)
    requires |answers| == 4
    ensures r != [] <==> forall i :: 0 <= i < 4 ==> parseFloat(answers[i]).Some?
    ensures r != [] ==> r == [Encode(GoToPoint(parseFloat(answers[0]).value, parseFloat(answers[1]).value,
                                               parseFloat(answers[2]).value, parseFloat(answers[3]).value))]
  {
    match (parseFloat(answers[0]), parseFloat(answers[1]), parseFloat(answers[2]), parseFloat(answers[3]))
    case (Some(lat), Some(lon), Some(speed), Some(range)) => [Encode(GoToPoint(lat, lon, speed, range))]
    case _ => []
  }

  /** intent_8: intent 8 only after a `y`/`Y` confirmation. */
  function CliIntent8(confirm: string): (r: seq<Json>)
    ensures r == [] || r == [Encode(Calibrate)]
    ensures r != [] <==> Confirmed(confirm)
  {
    SentIf(Confirmed(confirm), Calibrate)
  }

  /** intent_10: both biases must parse as floats; otherwise nothing is sent. */
  function CliIntent10(leftAnswer: string, rightAnswer: string, parseFloat: string -> Option<Float>): (r: seq<Json>)
    ensures r != [] <==> parseFloat(leftAnswer).Some? && parseFloat(rightAnswer).Some?
    ensures r != [] ==> r == [Encode(MotorBias(parseFloat(leftAnswer).value, parseFloat(rightAnswer).value))]
  {
    match (parseFloat(leftAnswer), parseFloat(rightAnswer))
    case (Some(l), Some(rt)) => [Encode(MotorBias(l, rt))]
    case _ => []
  }

  /** The keys intent_6 prints, in order. */
  const StatusKeys: seq<string> := ["batteryVoltage", "numSats", "fix", "locationAge", "lat", "lon", "heading",
                                    "serialControl", "motorHandled", "setPointL", "setPointR",
                                    "magXMin", "magXMax", "magYMin", "magYMax"]

  /** The values intent_6 prints for an object response, one per key of `StatusKeys`, in the printed order. */
  function StatusLines(fields: seq<(string, Json)>): (r: seq<Label>)
    ensures |r| == |StatusKeys|
  {
    seq(|StatusKeys|, i requires 0 <= i < |StatusKeys| => GetOrNA(fields, StatusKeys[i]))
  }

  /**
   * intent_6: one request; a truthy object response prints one value per
   * status key (the setpoints share a line, as do the four magnetometer
   * bounds). A truthy response that is not an object has no `.get`, so the action
   * fails (`None`) after the request was written; a falsy one prints nothing.
   */
  function CliIntent6(window: seq<Arrival>, loads: string -> Option<Json>): (r: (seq<Json>, Option<seq<Label>>))
    ensures r.0 == [Encode(GetStatus)]
    ensures var resp := HelperReadJson(window, loads);
      r.1.Some? <==> resp.None? || !Truthy(resp.value) || resp.value.JObject?
    ensures var resp := HelperReadJson(window, loads);
      resp.Some? && Truthy(resp.value) && resp.value.JObject? ==> r.1 == Some(StatusLines(resp.value.fields))
    ensures var resp := HelperReadJson(window, loads);
      resp.None? || !Truthy(resp.value) ==> r.1 == Some([])
  {
    var resp := HelperReadJson(window, loads);
    var shown :=
      if resp.None? || !Truthy(resp.value) then Some([])
      else if resp.value.JObject? then Some(StatusLines(resp.value.fields))
      else None;
    ([Encode(GetStatus)], shown)
  }

  /** The menu keys `'1'`..`'10'` of `run`, each naming the intent of its action. */
  const MenuKeys: seq<string> := ["1", "2", "3", "4", "5", "6", "7", "8", "9", "10"]

  /** What one menu answer selects, after stripping: leave, an action, or nothing. */
  datatype MenuChoice = Leave | Action(intent: int) | InvalidChoice

  /** The position of `c` among `keys`, or -1. */
  function KeyIndex(keys: seq<string>, c: string): (r: int)
    ensures -1 <= r < |keys|
    ensures r >= 0 ==> keys[r] == c
    ensures r == -1 <==> c !in keys
  {
    if keys == [] then -1
    else if keys[0] == c then 0
    else
      var k := KeyIndex(keys[1..], c);
      assert forall i :: 1 <= i < |keys| ==> keys[i] == keys[1..][i - 1];
      if k == -1 then -1 else k + 1
  }

  /** The choice an already stripped answer names. */
  function ChooseKey(c: string): (r: MenuChoice)
    ensures r == Leave <==> c == "0"
    ensures r.Action? <==> c in MenuKeys
    ensures r.Action? ==> 1 <= r.intent <= 10 && MenuKeys[r.intent - 1] == c
  {
    if c == "0" then Leave
    else
      var k := KeyIndex(MenuKeys, c);
      if k >= 0 then Action(k + 1) else InvalidChoice
  }

  /** `input(...).strip()`, then the menu lookup: what the answer selects is what its stripped text names. */
  function Choose(answer: string): (r: MenuChoice)
    ensures r == Leave <==> Strip(answer) == "0"
    ensures r.Action? <==> Strip(answer) in MenuKeys
    ensures r.Action? ==> 1 <= r.intent <= 10 && MenuKeys[r.intent - 1] == Strip(answer)
  {
    ChooseKey(Strip(answer))
  }

  /** Whitespace typed around a menu key does not change what it selects. */
  lemma ChooseIgnoresSurroundingSpace(pre: string, key: string, post: string)
    requires AllSpace(pre) && AllSpace(post) && key in MenuKeys + ["0"]
    ensures Choose(pre + key + post) == ChooseKey(key)
  {
    assert key != [] && !IsSpace(key[0]) && !IsSpace(key[|key| - 1]);
    StripOfPadded(pre, key, post);
  }

  /**
   * What happens at one menu prompt: an answer, Ctrl-C at the prompt itself,
   * or an answer after which Ctrl-C arrives before the loop is back at the
   * prompt (while the chosen action runs). The one `try` around the prompt and
   * the action catches the interrupt in either place.
   */
  datatype MenuInput = Answer(text: string) | Interrupt | InterruptedDuring(text: string)

  /** The inputs after which the loop closes the port: Ctrl-C anywhere in the iteration, or `0`. */
  predicate EndsLoop(input: MenuInput)
  {
    match input
    case Answer(t) => Strip(t) == "0"
    case _ => true
  }

  /**
   * The selections one prompt contributes: the stripped answer's choice, and
   * a `Leave` after it when Ctrl-C ends the iteration. An interrupted action
   * has been started, so it counts as run.
   */
  function StepOf(input: MenuInput): (r: seq<MenuChoice>)
    ensures 1 <= |r| <= 2
    ensures forall j :: 0 <= j < |r| && r[j].Action? ==> 1 <= r[j].intent <= 10
    ensures input.Answer? ==> r == [Choose(input.text)]
    ensures input.Interrupt? ==> r == [Leave]
    ensures input.InterruptedDuring? ==> r[|r| - 1] == Leave
    ensures input.InterruptedDuring? ==> (|r| == 2 <==> Choose(input.text).Action?)
    ensures |r| == 2 ==> r[0] == Choose(input.text)
    ensures forall j :: 0 <= j < |r| - 1 ==> r[j] != Leave
    ensures Leave in r <==> EndsLoop(input)
  {
    match input
    case Interrupt => [Leave]
    case Answer(t) => [Choose(t)]
    case InterruptedDuring(t) => if Choose(t).Action? then [Choose(t), Leave] else [Leave]
  }

  /** The selections a sequence of prompts contributes, in order. */
  function Selections(inputs: seq<MenuInput>): (r: seq<MenuChoice>)
    ensures forall j :: 0 <= j < |r| && r[j].Action? ==> 1 <= r[j].intent <= 10
    ensures Leave in r <==> exists i :: 0 <= i < |inputs| && EndsLoop(inputs[i])
  {
    if inputs == [] then []
    else
      var tail := Selections(inputs[1..]);
      assert forall i :: 1 <= i < |inputs| ==> inputs[i] == inputs[1..][i - 1];
      StepOf(inputs[0]) + tail
  }

  /** The menu loop's trace: the actions invoked in order, and whether the port was closed. */
  datatype RunTrace = RunTrace(invoked: seq<int>, closed: bool)

  /**
   * The loop over the selections: `Leave` closes the port and ends the loop;
   * an action runs; an invalid choice prints "Invalid choice" and runs nothing.
   * Running out of selections leaves the loop running with the port open.
   */
  function RunChoices(choices: seq<MenuChoice>): (r: RunTrace)
    ensures |r.invoked| <= |choices|
    ensures !r.closed ==> forall i :: 0 <= i < |choices| ==> choices[i] != Leave
    ensures r.closed ==> exists i :: 0 <= i < |choices| && choices[i] == Leave
  {
    if choices == [] then RunTrace([], false)
    else
      var tail := RunChoices(choices[1..]);
      assert forall i :: 1 <= i < |choices| ==> choices[i] == choices[1..][i - 1];
      match choices[0]
      case Leave => RunTrace([], true)
      case Action(k) => RunTrace([k] + tail.invoked, tail.closed)
      case InvalidChoice => tail
  }

  /** What one prompt does: the action it runs, if any, and whether it closes the port. */
  function StepTrace(input: MenuInput): (r: RunTrace)
    ensures r.closed <==> EndsLoop(input)
    ensures |r.invoked| <= 1
    ensures !input.Interrupt? ==> (|r.invoked| == 1 <==> Choose(input.text).Action?)
    ensures |r.invoked| == 1 ==> !input.Interrupt? && Choose(input.text) == Action(r.invoked[0])
  {
    match input
    case Interrupt => RunTrace([], true)
    case Answer(t) =>
      (match Choose(t)
       case Leave => RunTrace([], true)
       case Action(k) => RunTrace([k], false)
       case InvalidChoice => RunTrace([], false))
    case InterruptedDuring(t) =>
      if Choose(t).Action? then RunTrace([Choose(t).intent], true) else RunTrace([], true)
  }

  /** A prompt's own trace is the loop over the selections it contributes. */
  lemma StepTraceIsRunChoices(input: MenuInput)
    ensures StepTrace(input) == RunChoices(StepOf(input))
  {
    var s := StepOf(input);
    if |s| == 2 {
      assert s[1..] == [Leave];
    } else {
      assert s[1..] == [];
    }
  }

  /** Some prompt ends the loop exactly when the first does or a later one does. */
  lemma EndsLoopSplit(inputs: seq<MenuInput>)
    requires inputs != []
    ensures (exists i :: 0 <= i < |inputs| && EndsLoop(inputs[i]))
        <==> EndsLoop(inputs[0]) || exists i :: 0 <= i < |inputs[1..]| && EndsLoop(inputs[1..][i])
  {
    assert forall i :: 1 <= i < |inputs| ==> inputs[i] == inputs[1..][i - 1];
  }

  /**
   * `run` over what happens at its prompts: each prompt runs at most one
   * action, and the first prompt that ends the loop closes the port.
   */
  function Run(inputs: seq<MenuInput>): (r: RunTrace)
    ensures |r.invoked| <= |inputs|
    ensures r.closed <==> exists i :: 0 <= i < |inputs| && EndsLoop(inputs[i])
  {
    if inputs == [] then RunTrace([], false)
    else
      var here := StepTrace(inputs[0]);
      EndsLoopSplit(inputs);
      if here.closed then here
      else
        var tail := Run(inputs[1..]);
        RunTrace(here.invoked + tail.invoked, tail.closed)
  }

  /** The intents of the actions among some selections, in order. */
  function ActionIntents(choices: seq<MenuChoice>): (r: seq<int>)
    ensures |r| <= |choices|
    ensures forall i :: 0 <= i < |r| ==> exists j :: 0 <= j < |choices| && choices[j] == Action(r[i])
  {
    if choices == [] then []
    else
      var tail := ActionIntents(choices[1..]);
      assert forall j :: 1 <= j < |choices| ==> choices[j] == choices[1..][j - 1];
      if choices[0].Action? then [choices[0].intent] + tail else tail
  }

  /** The intents of the actions selected before the first `Leave`, in order. */
  function ActionsBeforeLeave(choices: seq<MenuChoice>): (r: seq<int>)
    ensures forall i :: 0 <= i < |r| ==> exists j :: 0 <= j < |choices| && choices[j] == Action(r[i])
  {
    var before := choices[..FirstLeave(choices)];
    assert forall j :: 0 <= j < |before| ==> before[j] == choices[j];
    ActionIntents(before)
  }

  /** The index of the first `Leave`; `|choices|` when there is none. */
  function FirstLeave(choices: seq<MenuChoice>): (n: nat)
    ensures n <= |choices|
    ensures forall i :: 0 <= i < n ==> choices[i] != Leave
    ensures n < |choices| ==> choices[n] == Leave
  {
    if choices == [] || choices[0] == Leave then 0
    else
      var n := FirstLeave(choices[1..]);
      assert forall i :: 1 <= i < |choices| ==> choices[i] == choices[1..][i - 1];
      n + 1
  }

  /**
   * The loop closes the port exactly when some selection is `Leave`, it runs
   * the actions selected before the first of them, in order, and what follows
   * that first `Leave` is never read.
   */
  lemma {:induction false} RunStopsAtLeave(choices: seq<MenuChoice>, later: seq<MenuChoice>)
    ensures RunChoices(choices).closed <==> FirstLeave(choices) < |choices|
    ensures RunChoices(choices).invoked == ActionsBeforeLeave(choices)
    ensures FirstLeave(choices) < |choices| ==> RunChoices(choices + later) == RunChoices(choices)
    decreases |choices|
  {
    if choices != [] {
      RunStopsAtLeave(choices[1..], later);
      assert (choices + later)[1..] == choices[1..] + later;
      assert (choices + later)[0] == choices[0];
      if choices[0] != Leave {
        var n := FirstLeave(choices[1..]);
        assert choices[..n + 1][1..] == choices[1..][..n];
      }
    }
  }

  /** The loop over the prompts is the loop over the selections they contribute. */
  lemma {:induction false} RunIsRunChoices(inputs: seq<MenuInput>)
    ensures Run(inputs) == RunChoices(Selections(inputs))
    decreases |inputs|
  {
    if inputs != [] {
      var s := StepOf(inputs[0]);
      var rest := Selections(inputs[1..]);
      assert Selections(inputs) == s + rest;
      RunIsRunChoices(inputs[1..]);
      StepTraceIsRunChoices(inputs[0]);
      RunStopsAtLeave(s, rest);
      if !StepTrace(inputs[0]).closed {
        assert s == [s[0]];
        assert (s + rest)[1..] == rest;
        assert (s + rest)[0] == s[0];
      }
    }
  }

  /**
   * Ctrl-C while a chosen action runs: that action has been started, the port
   * is closed, and no later prompt is read.
   */
  lemma {:induction false} InterruptDuringActionCloses(before: seq<MenuInput>, text: string, after: seq<MenuInput>)
    requires forall i :: 0 <= i < |before| ==> !EndsLoop(before[i])
    requires Choose(text).Action?
    ensures Run(before + [InterruptedDuring(text)] + after) == RunTrace(Run(before).invoked + [Choose(text).intent], true)
    decreases |before|
  {
    var inputs := before + [InterruptedDuring(text)] + after;
    if before == [] {
      assert inputs[0] == InterruptedDuring(text);
      RunFirstEnds(inputs);
    } else {
      InterruptDuringActionCloses(before[1..], text, after);
      SplitFirst(before, InterruptedDuring(text), after);
      RunFirstContinues(inputs);
      RunFirstContinues(before);
      AppendOneAssoc(StepTrace(before[0]).invoked, Run(before[1..]).invoked, Choose(text).intent);
    }
  }

  /** Taking the first prompt off a sequence with `x` in its middle. */
  lemma SplitFirst(before: seq<MenuInput>, x: MenuInput, after: seq<MenuInput>)
    requires before != []
    ensures (before + [x] + after)[0] == before[0]
    ensures (before + [x] + after)[1..] == before[1..] + [x] + after
  {
  }

  lemma AppendOneAssoc(a: seq<int>, b: seq<int>, k: int)
    ensures a + (b + [k]) == (a + b) + [k]
  {
  }

  /** A first prompt that ends the loop is all the loop does. */
  lemma RunFirstEnds(inputs: seq<MenuInput>)
    requires inputs != [] && EndsLoop(inputs[0])
    ensures Run(inputs) == StepTrace(inputs[0])
  {
  }

  /** A first prompt that does not end the loop runs its action, then the loop goes on. */
  lemma RunFirstContinues(inputs: seq<MenuInput>)
    requires inputs != [] && !EndsLoop(inputs[0])
    ensures Run(inputs) == RunTrace(StepTrace(inputs[0]).invoked + Run(inputs[1..]).invoked, Run(inputs[1..]).closed)
  {
  }

  /** Every action run is one of the ten menu entries. */
  lemma RunInvokesMenuEntries(inputs: seq<MenuInput>)
    ensures forall i :: 0 <= i < |Run(inputs).invoked| ==> 1 <= Run(inputs).invoked[i] <= 10
  {
    var choices := Selections(inputs);
    RunIsRunChoices(inputs);
    RunStopsAtLeave(choices, []);
    ActionsInRange(choices);
  }

  lemma ActionsInRange(choices: seq<MenuChoice>)
    requires forall j :: 0 <= j < |choices| && choices[j].Action? ==> 1 <= choices[j].intent <= 10
    ensures forall i :: 0 <= i < |ActionsBeforeLeave(choices)| ==> 1 <= ActionsBeforeLeave(choices)[i] <= 10
  {
    var r := ActionsBeforeLeave(choices);
    forall i | 0 <= i < |r|
      ensures 1 <= r[i] <= 10
    {
      var j :| 0 <= j < |choices| && choices[j] == Action(r[i]);
    }
  }

  /** An invalid choice runs nothing: dropping it does not change the trace. */
  lemma {:induction false} InvalidChoicesSendNothing(before: seq<MenuChoice>, after: seq<MenuChoice>)
    ensures RunChoices(before + [InvalidChoice] + after) == RunChoices(before + after)
    decreases |before|
  {
    if before == [] {
      assert before + [InvalidChoice] + after == [InvalidChoice] + after;
      assert ([InvalidChoice] + after)[1..] == after;
      assert before + after == after;
    } else {
      InvalidChoicesSendNothing(before[1..], after);
      assert (before + [InvalidChoice] + after)[1..] == before[1..] + [InvalidChoice] + after;
      assert (before + after)[1..] == before[1..] + after;
      assert (before + [InvalidChoice] + after)[0] == before[0];
      assert (before + after)[0] == before[0];
    }
  }
}

=== FILE: commands.dfy ===
/**
 * The command documents the host tools send. Every request is a JSON object
 * whose first key is `intent`; the keys after it and their value types are
 * fixed per intent. `Encode` builds the document, and `Decode` reads one back.
 */
module Commands {
  import opened Wrappers
  import opened JsonData
  import opened Waypoints

  datatype Request =
    | StoreCoordinates(items: seq<Json>)           // intent 0 (intent0.py)
    | GetCoordinates                               // intent 1
    | ExecuteWaypoints                             // intent 2
    | SetControl(enable: bool)                     // intent 3
    | DirectMotors(left: int, right: int)          // intent 4
    | UploadCoordinates(items: seq<Json>)          // intent 5
    | GetStatus                                    // intent 6
    | GoToPoint(lat: Float, lon: Float, speed: Float, range: Float)  // intent 7
    | Calibrate                                    // intent 8
    | LogMag                                       // intent 9
    | MotorBias(biasL: Float, biasR: Float)        // intent 10

  function IntentNumber(req: Request): (k: int)
    ensures 0 <= k <= 10
  {
    match req
    case StoreCoordinates(_) => 0
    case GetCoordinates => 1
    case ExecuteWaypoints => 2
    case SetControl(_) => 3
    case DirectMotors(_, _) => 4
    case UploadCoordinates(_) => 5
    case GetStatus => 6
    case GoToPoint(_, _, _, _) => 7
    case Calibrate => 8
    case LogMag => 9
    case MotorBias(_, _) => 10
  }

  /** The keys after `intent` and their values, in the order the tools write them. */
  function Payload(req: Request): seq<(string, Json)> {
    match req
    case StoreCoordinates(items) => [("coordinates", JArray(items))]
    case UploadCoordinates(items) => [("coordinates", JArray(items))]
    case SetControl(b) => [("setStatus", JBool(b))]
    case DirectMotors(l, r) => [("leftPWM", JInt(l)), ("rightPWM", JInt(r))]
    case GoToPoint(lat, lon, speed, range) =>
      [("lat", JFloat(lat)), ("lon", JFloat(lon)), ("speed", JFloat(speed)), ("range", JFloat(range))]
    case MotorBias(l, r) => [("biasL", JFloat(l)), ("biasR", JFloat(r))]
    case _ => []
  }

  function Encode(req: Request): Json {
    Command(IntentNumber(req), Payload(req))
  }

  /** Reads a command document back; `None` for anything `Encode` does not produce. */
  function Decode(doc: Json): (r: Option<Request>)
    ensures r.Some? ==> Encode(r.value) == doc
  {
    if !doc.JObject? || |doc.fields| == 0 || doc.fields[0].0 != "intent" || !doc.fields[0].1.JInt? then None
    else
      var k := doc.fields[0].1.i;
      var rest := doc.fields[1..];
      assert doc.fields == [doc.fields[0]] + rest;
      var r :=
        if rest == [] then
          if k == 1 then Some(GetCoordinates)
          else if k == 2 then Some(ExecuteWaypoints)
          else if k == 6 then Some(GetStatus)
          else if k == 8 then Some(Calibrate)
          else if k == 9 then Some(LogMag)
          else None
        else if |rest| == 1 then
          if (k == 0 || k == 5) && rest[0].0 == "coordinates" && rest[0].1.JArray? then
            if k == 0 then Some(StoreCoordinates(rest[0].1.items)) else Some(UploadCoordinates(rest[0].1.items))
          else if k == 3 && rest[0].0 == "setStatus" && rest[0].1.JBool? then Some(SetControl(rest[0].1.b))
          else None
        else if |rest| == 2 then
          if k == 4 && rest[0].0 == "leftPWM" && rest[0].1.JInt? && rest[1].0 == "rightPWM" && rest[1].1.JInt? then
            Some(DirectMotors(rest[0].1.i, rest[1].1.i))
          else if k == 10 && rest[0].0 == "biasL" && rest[0].1.JFloat? && rest[1].0 == "biasR" && rest[1].1.JFloat? then
            Some(MotorBias(rest[0].1.f, rest[1].1.f))
          else None
        else if |rest| == 4 then
          if k == 7 && rest[0].0 == "lat" && rest[0].1.JFloat? && rest[1].0 == "lon" && rest[1].1.JFloat? &&
             rest[2].0 == "speed" && rest[2].1.JFloat? && rest[3].0 == "range" && rest[3].1.JFloat? then
            Some(GoToPoint(rest[0].1.f, rest[1].1.f, rest[2].1.f, rest[3].1.f))
          else None
        else None;
      assert r.Some? ==> Payload(r.value) == rest;
      r
  }

  /** Every request survives the trip through its document. */
  lemma DecodeEncode(req: Request)
    ensures Decode(Encode(req)) == Some(req)
  {
    var doc := Encode(req);
    assert doc.fields[1..] == Payload(req);
  }

  /** Distinct requests give distinct documents. */
  lemma EncodeInjective(a: Request, b: Request)
    requires Encode(a) == Encode(b)
    ensures a == b
  {
    DecodeEncode(a);
    DecodeEncode(b);
  }

  /** The document carries its intent first, and no later key repeats `intent`. */
  lemma EncodeIntent(req: Request)
    ensures IntentOf(Encode(req)) == Some(IntentNumber(req))
    ensures Get(Encode(req).fields, "intent") == Some(JInt(IntentNumber(req)))
  {
    var fields := Encode(req).fields;
    assert forall i :: 1 <= i < |fields| ==> fields[i] == Payload(req)[i - 1];
  }

  /** The uploads of intent0.py and intent5.py are the coordinate requests. */
  lemma UploadsAreRequests(items: seq<Json>)
    ensures Encode(StoreCoordinates(items)) == CoordinatesCommand(0, items)
    ensures Encode(UploadCoordinates(items)) == CoordinatesCommand(5, items)
  {
  }
}

=== FILE: compass.dfy ===
/**
 * compass.cpp `calibrateMag`: while the wheels spin the platform in place,
 * the magnetometer's X and Y extremes are tracked. Sensor readings are
 * inputs; doubles are modelled as reals.
 */
module Compass {
  import opened Config
  import opened Motors

  datatype MagSample = MagSample(x: real, y: real)

  datatype Bounds = Bounds(xMin: real, xMax: real, yMin: real, yMax: real)

  /** A sample lies within the bounds on both axes. */
  predicate Within(b: Bounds, s: MagSample) {
    b.xMin <= s.x <= b.xMax && b.yMin <= s.y <= b.yMax
  }

  predicate Ordered(b: Bounds) {
    b.xMin < b.xMax && b.yMin < b.yMax
  }

  /** The bounds the first reading starts: each minimum at the reading, each maximum 0.1 above it. */
  function StartBounds(s0: MagSample): (b: Bounds)
    ensures Ordered(b) && Within(b, s0)
    ensures b.xMax - b.xMin == 0.1 && b.yMax - b.yMin == 0.1
  {
    Bounds(s0.x, s0.x + 0.1, s0.y, s0.y + 0.1)
  }

  /** One loop pass: four independent comparisons, each moving one bound outward. */
  function Update(b: Bounds, s: MagSample): (r: Bounds)
    ensures r.xMin <= b.xMin && r.yMin <= b.yMin && b.xMax <= r.xMax && b.yMax <= r.yMax
    ensures Within(r, s)
    ensures Ordered(b) ==> Ordered(r)
    ensures forall t :: Within(b, t) ==> Within(r, t)
  {
    var xMax := if s.x > b.xMax then s.x else b.xMax;
    var xMin := if s.x < b.xMin then s.x else b.xMin;
    var yMax := if s.y > b.yMax then s.y else b.yMax;
    var yMin := if s.y < b.yMin then s.y else b.yMin;
    Bounds(xMin, xMax, yMin, yMax)
  }

  /** The passes of the loop over the samples, in order. */
  function Track(b: Bounds, samples: seq<MagSample>): (r: Bounds)
    ensures r.xMin <= b.xMin && r.yMin <= b.yMin && b.xMax <= r.xMax && b.yMax <= r.yMax
    ensures Ordered(b) ==> Ordered(r)
    decreases |samples|
  {
    if samples == [] then b else Track(Update(b, samples[0]), samples[1..])
  }

  /** Every sample seen, and everything the starting bounds held, lies within the final bounds. */
  lemma {:induction false} TrackContainsAll(b: Bounds, samples: seq<MagSample>)
    ensures forall t :: Within(b, t) ==> Within(Track(b, samples), t)
    ensures forall i :: 0 <= i < |samples| ==> Within(Track(b, samples), samples[i])
    decreases |samples|
  {
    if samples != [] {
      var b1 := Update(b, samples[0]);
      var rest := samples[1..];
      TrackContainsAll(b1, rest);
      assert Track(b, samples) == Track(b1, rest);
      forall i | 1 <= i < |samples|
        ensures Within(Track(b, samples), samples[i])
      {
        assert samples[i] == rest[i - 1];
      }
    }
  }

  /** The reference extremes: the least and the greatest of a start value and a list. */
  function MinOf(start: real, xs: seq<real>): (m: real)
    ensures m <= start && forall i :: 0 <= i < |xs| ==> m <= xs[i]
    ensures m == start || exists i :: 0 <= i < |xs| && m == xs[i]
  {
    if xs == [] then start
    else
      var m := MinOf(start, xs[..|xs| - 1]);
      assert forall i :: 0 <= i < |xs| - 1 ==> xs[..|xs| - 1][i] == xs[i];
      if xs[|xs| - 1] < m then xs[|xs| - 1] else m
  }

  function MaxOf(start: real, xs: seq<real>): (m: real)
    ensures m >= start && forall i :: 0 <= i < |xs| ==> m >= xs[i]
    ensures m == start || exists i :: 0 <= i < |xs| && m == xs[i]
  {
    if xs == [] then start
    else
      var m := MaxOf(start, xs[..|xs| - 1]);
      assert forall i :: 0 <= i < |xs| - 1 ==> xs[..|xs| - 1][i] == xs[i];
      if xs[|xs| - 1] > m then xs[|xs| - 1] else m
  }

  function Xs(samples: seq<MagSample>): (r: seq<real>)
    ensures |r| == |samples| && forall i :: 0 <= i < |samples| ==> r[i] == samples[i].x
  {
    seq(|samples|, i requires 0 <= i < |samples| => samples[i].x)
  }

  function Ys(samples: seq<MagSample>): (r: seq<real>)
    ensures |r| == |samples| && forall i :: 0 <= i < |samples| ==> r[i] == samples[i].y
  {
    seq(|samples|, i requires 0 <= i < |samples| => samples[i].y)
  }

  /** A lower bound of the start and the list that is one of them is their least value; likewise for the greatest. */
  lemma {:induction false} MinOfUnique(start: real, xs: seq<real>, m: real)
    requires m <= start && forall i :: 0 <= i < |xs| ==> m <= xs[i]
    requires m == start || exists i :: 0 <= i < |xs| && m == xs[i]
    ensures m == MinOf(start, xs)
  {
    var n := MinOf(start, xs);
    if m != start {
      var i :| 0 <= i < |xs| && m == xs[i];
      assert n <= m;
    }
  }

  lemma {:induction false} MaxOfUnique(start: real, xs: seq<real>, m: real)
    requires m >= start && forall i :: 0 <= i < |xs| ==> m >= xs[i]
    requires m == start || exists i :: 0 <= i < |xs| && m == xs[i]
    ensures m == MaxOf(start, xs)
  {
    var n := MaxOf(start, xs);
    if m != start {
      var i :| 0 <= i < |xs| && m == xs[i];
      assert n >= m;
    }
  }

  /** Each tracked bound is a starting bound or one of the samples' coordinates. */
  lemma {:induction false} TrackAttained(b: Bounds, samples: seq<MagSample>)
    ensures var r := Track(b, samples);
      && (r.xMin == b.xMin || exists i :: 0 <= i < |samples| && r.xMin == samples[i].x)
      && (r.xMax == b.xMax || exists i :: 0 <= i < |samples| && r.xMax == samples[i].x)
      && (r.yMin == b.yMin || exists i :: 0 <= i < |samples| && r.yMin == samples[i].y)
      && (r.yMax == b.yMax || exists i :: 0 <= i < |samples| && r.yMax == samples[i].y)
    decreases |samples|
  {
    if samples != [] {
      var b1 := Update(b, samples[0]);
      var rest := samples[1..];
      TrackAttained(b1, rest);
      assert Track(b, samples) == Track(b1, rest);
      assert forall i :: 0 <= i < |rest| ==> rest[i] == samples[i + 1];
    }
  }

  /**
   * After the first reading `s0` and the samples, XMin is the least of `s0.x`
   * and the samples' x, XMax the greatest of `s0.x + 0.1` and the samples'
   * x, and likewise for Y.
   */
  lemma Extremes(s0: MagSample, samples: seq<MagSample>)
    ensures var r := Track(StartBounds(s0), samples);
      && r.xMin == MinOf(s0.x, Xs(samples)) && r.xMax == MaxOf(s0.x + 0.1, Xs(samples))
      && r.yMin == MinOf(s0.y, Ys(samples)) && r.yMax == MaxOf(s0.y + 0.1, Ys(samples))
  {
    var b := StartBounds(s0);
    var r := Track(b, samples);
    TrackContainsAll(b, samples);
    TrackAttained(b, samples);
    var xs := Xs(samples);
    var ys := Ys(samples);
    assert Within(b, s0);
    assert Within(b, MagSample(s0.x + 0.1, s0.y + 0.1));
    if r.xMin != b.xMin {
      var i :| 0 <= i < |samples| && r.xMin == samples[i].x;
      assert r.xMin == xs[i];
    }
    MinOfUnique(s0.x, xs, r.xMin);
    if r.xMax != b.xMax {
      var i :| 0 <= i < |samples| && r.xMax == samples[i].x;
      assert r.xMax == xs[i];
    }
    MaxOfUnique(s0.x + 0.1, xs, r.xMax);
    if r.yMin != b.yMin {
      var i :| 0 <= i < |samples| && r.yMin == samples[i].y;
      assert r.yMin == ys[i];
    }
    MinOfUnique(s0.y, ys, r.yMin);
    if r.yMax != b.yMax {
      var i :| 0 <= i < |samples| && r.yMax == samples[i].y;
      assert r.yMax == ys[i];
    }
    MaxOfUnique(s0.y + 0.1, ys, r.yMax);
  }

  /** The X bounds depend only on the starting X bounds and the x readings: the y readings never reach them. */
  lemma {:induction false} AxesIndependent(b: Bounds, c: Bounds, samples: seq<MagSample>, others: seq<MagSample>)
    requires b.xMin == c.xMin && b.xMax == c.xMax && |samples| == |others|
    requires forall i :: 0 <= i < |samples| ==> samples[i].x == others[i].x
    ensures Track(b, samples).xMin == Track(c, others).xMin && Track(b, samples).xMax == Track(c, others).xMax
    decreases |samples|
  {
    if samples != [] {
      AxesIndependent(Update(b, samples[0]), Update(c, others[0]), samples[1..], others[1..]);
    }
  }

  /** The calibration task's state when the loop is left or the samples run out. */
  datatype Calibration = Calibration(bounds: Bounds, spin: Outputs, outputs: Outputs, motorHandled: bool, finished: bool)

  /**
   * `calibrateMag`: the flag is set, the bounds start from the first reading,
   * the wheels spin at +MagCalibrationSpeed (left) and -MagCalibrationSpeed
   * (right), and each pass widens the bounds. The loop runs while the flag
   * is set, which only another task can clear (`flagCleared`); then both
   * wheels stop and `endMotorTask` clears the flag. `MagCalibrationTime` and
   * the start time are read by nothing.
   */
  function CalibrateMag(o: Outputs, s0: MagSample, samples: seq<MagSample>, flagCleared: bool): (r: Calibration)
    ensures r.spin == Outputs(PulseAsWritten(MagCalibrationSpeed), PulseAsWritten(-MagCalibrationSpeed))
    ensures r.spin.ch0 > PwmCenter + PwmDeadband && PwmCenter - PwmDeadband < r.spin.ch1 < PwmCenter
    ensures Ordered(r.bounds) && Within(r.bounds, s0)
    ensures forall i :: 0 <= i < |samples| ==> Within(r.bounds, samples[i])
    ensures r.finished <==> flagCleared
    ensures r.finished ==> r.outputs == Centered && !r.motorHandled
    ensures !r.finished ==> r.outputs == r.spin && r.motorHandled
  {
    var spin := SetMotors(o, MagCalibrationSpeed, -MagCalibrationSpeed);
    var bounds := Track(StartBounds(s0), samples);
    TrackContainsAll(StartBounds(s0), samples);
    if flagCleared then
      var (stopped, handled) := EndMotorTask(spin);
      Calibration(bounds, spin, stopped, handled, true)
    else Calibration(bounds, spin, spin, true, false)
  }

  /**
   * As written the spin is lopsided: the left wheel is 70 µs above the
   * centre, the right one 30 µs below it and inside the deadband, so the
   * platform does not turn in place. With the mirrored reverse branch the two
   * pulses would mirror each other about the centre.
   */
  lemma SpinIsLopsided(o: Outputs, s0: MagSample, samples: seq<MagSample>, flagCleared: bool)
    ensures var spin := CalibrateMag(o, s0, samples, flagCleared).spin;
      spin.ch0 - PwmCenter == 70 && PwmCenter - spin.ch1 == 30
    ensures Pulse(MagCalibrationSpeed) - PwmCenter == PwmCenter - Pulse(-MagCalibrationSpeed)
  {
    PulseMonotone(-MagCalibrationSpeed, MagCalibrationSpeed);
  }
}

=== FILE: config.dfy ===
/** The firmware's build constants (include/config.h). Pulse widths are in microseconds. */
module Config {
  const Motor1Pin: int := 13
  const Motor2Pin: int := 12
  const PwmCenter: int := 1460
  /** Named "max", it is the low end of the servo range: 400 µs below the centre. */
  const PwmMax: int := 1060
  /** Named "min", it is the high end of the servo range: 400 µs above the centre. */
  const PwmMin: int := 1860
  const PwmDeadband: int := 50
  const PwmChMotor1: int := 0
  const PwmChMotor2: int := 1
  const MagCalibrationTime: int := 20000
  const MagCalibrationSpeed: int := 20
}

=== FILE: dispatch.dfy ===
/**
 * The firmware's serial command dispatcher: serialManager.cpp (with the
 * `motorHandled` busy guard) and the `loop` of main.cpp (without it). A
 * controller state is a record; one event is one pass of the loop body or
 * the end of a waypoint task (wpManager.cpp). `deserializeJson` is not
 * modelled: a pass sees no data, a document that failed to deserialize, or
 * the deserialized document.
 */
module Dispatch {
  import opened Wrappers
  import opened JsonData
  import opened Config
  import opened Motors
  import opened Waypoints
  import opened Commands

  /** The coordinate table is `int[99][2]`. */
  const Rows: nat := 99
  const Cols: nat := 2

  predicate Shaped(table: seq<seq<int>>) {
    |table| == Rows && forall i :: 0 <= i < |table| ==> |table[i]| == Cols
  }

  /**
   * ArduinoJson's conversion of a value to `int`: an integer is itself, null
   * (which is what a missing key reads as) is 0, and any other value converts
   * by `toInt`, which is not modelled.
   */
  function AsInt(v: Json, toInt: Json -> int): (r: int)
    ensures v.JInt? ==> r == v.i
    ensures v == JNull ==> r == 0
  {
    match v
    case JInt(i) => i
    case JNull => 0
    case _ => toInt(v)
  }

  /** `doc[key]`: the member's value, or null for a missing key or a document that is not an object. */
  function Member(doc: Json, key: string): (r: Json)
    ensures doc.JObject? && Get(doc.fields, key).Some? ==> r == Get(doc.fields, key).value
    ensures !doc.JObject? || Get(doc.fields, key).None? ==> r == JNull
  {
    if doc.JObject? then Get(doc.fields, key).GetOr(JNull) else JNull
  }

  /** `int messageIntention = doc["intent"]`. */
  function IntentValue(doc: Json, toInt: Json -> int): int {
    AsInt(Member(doc, "intent"), toInt)
  }

  /**
   * What a host tool's document declares and what the firmware reads agree:
   * an `intent` integer in first place, not rebound by a later field, is the
   * `messageIntention` the dispatcher switches on.
   */
  lemma IntentOfIsWhatFirmwareReads(doc: Json, toInt: Json -> int, k: int)
    requires IntentOf(doc) == Some(k)
    requires forall i :: 1 <= i < |doc.fields| ==> doc.fields[i].0 != "intent"
    ensures IntentValue(doc, toInt) == k
  {
    GetLastBinding(doc.fields, "intent", 0, JInt(k));
  }

  /** A document without an `intent` member reads as intent 0. */
  lemma MissingIntentIsZero(doc: Json, toInt: Json -> int)
    requires !doc.JObject? || forall i :: 0 <= i < |doc.fields| ==> doc.fields[i].0 != "intent"
    ensures IntentValue(doc, toInt) == 0
  {
  }

  /** `copyArray` into one row: the first `min(|items|, 2)` entries are replaced, the rest kept. */
  function CopyRow(row: seq<int>, items: seq<Json>, toInt: Json -> int): (r: seq<int>)
    requires |row| == Cols
    ensures |r| == Cols
    ensures forall j :: 0 <= j < Cols && j >= |items| ==> r[j] == row[j]
    ensures forall j :: 0 <= j < Cols && j < |items| ==> r[j] == AsInt(items[j], toInt)
  {
    seq(Cols, j requires 0 <= j < Cols => if j < |items| then AsInt(items[j], toInt) else row[j])
  }

  /**
   * `copyArray(src, coordinateTable)`: a source that is not an array copies
   * nothing; otherwise row `i < min(|src|, 99)` takes the leading entries of
   * element `i` when that element is an array, and is untouched when it is
   * not. Rows past the source are untouched.
   */
  function CopyTable(table: seq<seq<int>>, src: Json, toInt: Json -> int): (r: seq<seq<int>>)
    requires Shaped(table)
    ensures Shaped(r)
    ensures !src.JArray? ==> r == table
    ensures src.JArray? ==> forall i :: 0 <= i < Rows && (i >= |src.items| || !src.items[i].JArray?) ==> r[i] == table[i]
    ensures src.JArray? ==> forall i :: 0 <= i < Rows && i < |src.items| && src.items[i].JArray? ==>
                              r[i] == CopyRow(table[i], src.items[i].items, toInt)
  {
    if !src.JArray? then table
    else
      seq(Rows, i requires 0 <= i < Rows =>
        if i < |src.items| && src.items[i].JArray? then CopyRow(table[i], src.items[i].items, toInt) else table[i])
  }

  /** A table written out as nested integer arrays, as a sender of a full table would. */
  function TableDoc(table: seq<seq<int>>): (d: Json)
    requires Shaped(table)
    ensures d.JArray? && |d.items| == Rows
  {
    JArray(seq(Rows, i requires 0 <= i < Rows => JArray([JInt(table[i][0]), JInt(table[i][1])])))
  }

  /**
   * Copying a full table document reproduces the table, whatever was stored
   * before. The round trip applies only to tables whose document fits the
   * 200-byte `StaticJsonDocument`; a full 99-row table does not, and the
   * capacity is not modelled.
   */
  lemma TableRoundTrip(table: seq<seq<int>>, before: seq<seq<int>>, toInt: Json -> int)
    requires Shaped(table) && Shaped(before)
    ensures CopyTable(before, TableDoc(table), toInt) == table
  {
    var r := CopyTable(before, TableDoc(table), toInt);
    forall i | 0 <= i < Rows
      ensures r[i] == table[i]
    {
      assert r[i] == CopyRow(before[i], TableDoc(table).items[i].items, toInt);
    }
  }

  /** A source whose elements are all scalars, as in a flat list of numbers, leaves the table as it was. */
  lemma FlatSourceCopiesNothing(table: seq<seq<int>>, items: seq<Json>, toInt: Json -> int)
    requires Shaped(table)
    requires forall i :: 0 <= i < |items| ==> !items[i].JArray?
    ensures CopyTable(table, JArray(items), toInt) == table
  {
  }

  datatype Controller = Controller(
    table: seq<seq<int>>,
    motorHandled: bool,
    tasks: nat,                // live waypoint tasks
    halted: bool,              // spinning in `emergencyStop`
    outputs: Outputs,          // the two PWM channels `setMotorL`/`setMotorR` drive
    pins: seq<(int, int)>,     // `analogWrite(pin, value)` calls, in order
    log: seq<string>)          // lines printed to the serial port

  /**
   * The `analogWrite(motorNPin, pwmCenter)` pair that `setup` and
   * `emergencyStop` issue. The value is written in `analogWrite`'s own duty
   * resolution, not as a pulse width, so it is recorded as a call.
   */
  const CentreWrites: seq<(int, int)> := [(Motor1Pin, PwmCenter), (Motor2Pin, PwmCenter)]

  /** The last calls written are the centre pair. */
  predicate EndsWithCentreWrites(pins: seq<(int, int)>) {
    |pins| >= 2 && pins[|pins| - 2..] == CentreWrites
  }

  /** The table has its declared shape, and a halted controller last wrote the centre pair to both motor pins. */
  predicate Valid(c: Controller) {
    Shaped(c.table) && (c.halted ==> EndsWithCentreWrites(c.pins))
  }

  /** What one pass of the loop reads. */
  datatype Incoming = NoData | Malformed | Received(doc: Json)

  datatype Event = Serial(m: Incoming) | TaskEnded

  /**
   * `emergencyStop`: `analogWrite(motorNPin, pwmCenter)` on both motor pins,
   * then an endless loop. The PWM channels are not written.
   */
  function EmergencyStop(c: Controller): (r: Controller)
    ensures r.halted && |r.pins| == |c.pins| + 2 && r.pins[..|c.pins|] == c.pins && EndsWithCentreWrites(r.pins)
    ensures r.outputs == c.outputs
    ensures r.table == c.table && r.motorHandled == c.motorHandled && r.tasks == c.tasks
  {
    c.(halted := true, pins := c.pins + CentreWrites, log := c.log + ["Emergency Stop"])
  }

  /**
   * One event. `guarded` selects serialManager.cpp (intent 2 is refused
   * while `motorHandled` is set) or main.cpp (a task is spawned every time).
   * The end of a waypoint task clears `motorHandled`, even once the
   * dispatcher has halted, since the task runs on its own.
   */
  function Handle(c: Controller, e: Event, toInt: Json -> int, guarded: bool): (r: Controller)
    requires Shaped(c.table)
    ensures Shaped(r.table)
    ensures Valid(c) ==> Valid(r)
    ensures c.halted ==> r.halted
    ensures c.halted && e.Serial? ==> r == c
    ensures e == Serial(NoData) ==> r == c
  {
    match e
    case TaskEnded =>
      if c.tasks == 0 then c else c.(motorHandled := false, tasks := c.tasks - 1)
    case Serial(m) =>
      if c.halted then c
      else match m
        case NoData => c
        case Malformed => EmergencyStop(c.(log := c.log + ["deserializeJson() failed: "]))
        case Received(doc) =>
          var k := IntentValue(doc, toInt);
          if k == 0 then
            c.(table := CopyTable(c.table, Member(doc, "coordinates"), toInt), log := c.log + ["recieved coordinates"])
          else if k == 1 then c
          else if k == 2 then
            if guarded && c.motorHandled then c.(log := c.log + ["Motor is currently busy"])
            else c.(motorHandled := true, tasks := c.tasks + 1)
          else EmergencyStop(c.(log := c.log + ["Invalid intent"]))
  }

  /** serialManager.cpp's dispatcher. */
  function ManagerStep(c: Controller, e: Event, toInt: Json -> int): (r: Controller)
    requires Shaped(c.table)
    ensures Shaped(r.table)
  {
    Handle(c, e, toInt, true)
  }

  /** One pass of main.cpp's `loop` (or the end of a task it spawned). */
  function MainLoopPass(c: Controller, e: Event, toInt: Json -> int): (r: Controller)
    requires Shaped(c.table)
    ensures Shaped(r.table)
  {
    Handle(c, e, toInt, false)
  }

  /**
   * A running dispatcher halts exactly on a document that failed to
   * deserialize or on an intent other than 0, 1 and 2; nothing else halts it.
   */
  lemma HaltsIff(c: Controller, m: Incoming, toInt: Json -> int, guarded: bool)
    requires Shaped(c.table) && !c.halted
    ensures Handle(c, Serial(m), toInt, guarded).halted <==>
            m.Malformed? || (m.Received? && !(0 <= IntentValue(m.doc, toInt) <= 2))
  {
  }

  /**
   * Every command the host tools send other than intents 0, 1 and 2 (motor
   * control, direct PWM, the intent-5 upload, status, go-to, calibration,
   * magnetometer logging, bias) halts both firmware variants; 0, 1 and 2 do not.
   */
  lemma HostCommandsHalt(c: Controller, req: Request, toInt: Json -> int, guarded: bool)
    requires Shaped(c.table) && !c.halted
    ensures Handle(c, Serial(Received(Encode(req))), toInt, guarded).halted <==> IntentNumber(req) > 2
  {
    EncodeIntent(req);
    assert IntentValue(Encode(req), toInt) == IntentNumber(req);
    HaltsIff(c, Received(Encode(req)), toInt, guarded);
  }

  /** Once halted, nothing more is written to the pins or channels and no message changes anything. */
  lemma {:induction false} HaltedStaysHalted(c: Controller, events: seq<Event>, toInt: Json -> int, guarded: bool)
    requires Valid(c) && c.halted
    ensures var r := Run(c, events, toInt, guarded);
      r.halted && EndsWithCentreWrites(r.pins) && r.pins == c.pins && r.outputs == c.outputs &&
      r.table == c.table && r.log == c.log
    decreases |events|
  {
    if events != [] {
      HaltedStaysHalted(c, events[..|events| - 1], toInt, guarded);
    }
  }

  /** Events in order. */
  function Run(c: Controller, events: seq<Event>, toInt: Json -> int, guarded: bool): (r: Controller)
    requires Shaped(c.table)
    ensures Shaped(r.table)
    ensures Valid(c) ==> Valid(r)
    decreases |events|
  {
    if events == [] then c
    else Handle(Run(c, events[..|events| - 1], toInt, guarded), events[|events| - 1], toInt, guarded)
  }

  /** serialManager.cpp's guard: at most one waypoint task, and one exactly while `motorHandled` is set. */
  predicate GuardHolds(c: Controller) {
    c.tasks <= 1 && (c.tasks == 1 <==> c.motorHandled)
  }

  /** The state serialManager.cpp starts in: `motorHandled` false, no task, whatever the table held. */
  function ManagerStart(table: seq<seq<int>>, o: Outputs): (c: Controller)
    requires Shaped(table)
    ensures GuardHolds(c) && Shaped(c.table) && !c.halted
  {
    Controller(table, false, 0, false, o, [], [])
  }

  /** Every event of the guarded dispatcher keeps the guard. */
  lemma GuardPreserved(c: Controller, e: Event, toInt: Json -> int)
    requires Shaped(c.table) && GuardHolds(c)
    ensures GuardHolds(ManagerStep(c, e, toInt))
  {
  }

  /**
   * serialManager.cpp's task, run over the events; the guard holds after
   * every one of them.
   */
  method Serve(c0: Controller, events: seq<Event>, toInt: Json -> int) returns (c: Controller)
    requires Valid(c0) && GuardHolds(c0)
    ensures c == Run(c0, events, toInt, true)
    ensures Valid(c) && GuardHolds(c)
  {
    c := c0;
    var i := 0;
    while i < |events|
      invariant 0 <= i <= |events|
      invariant Shaped(c.table)
      invariant c == Run(c0, events[..i], toInt, true)
      invariant Valid(c) && GuardHolds(c)
    {
      GuardPreserved(c, events[i], toInt);
      assert events[..i + 1][..i] == events[..i];
      c := ManagerStep(c, events[i], toInt);
      i := i + 1;
    }
    assert events[..|events|] == events;
  }

  /** Intent 2 while a task runs: "busy" is printed and nothing else changes. */
  lemma BusyChangesNothing(c: Controller, doc: Json, toInt: Json -> int)
    requires Shaped(c.table) && !c.halted && c.motorHandled && IntentValue(doc, toInt) == 2
    ensures ManagerStep(c, Serial(Received(doc)), toInt) == c.(log := c.log + ["Motor is currently busy"])
  {
  }

  /** Intent 2 while idle: `motorHandled` is set and exactly one task is spawned. */
  lemma SpawnsOnce(c: Controller, doc: Json, toInt: Json -> int)
    requires Shaped(c.table) && !c.halted && !c.motorHandled && IntentValue(doc, toInt) == 2
    ensures ManagerStep(c, Serial(Received(doc)), toInt) == c.(motorHandled := true, tasks := c.tasks + 1)
  {
  }

  /** Intent 0 overwrites only the table; intent 1 changes nothing. */
  lemma StoreAndQuery(c: Controller, doc: Json, toInt: Json -> int, guarded: bool)
    requires Shaped(c.table) && !c.halted
    ensures IntentValue(doc, toInt) == 0 ==>
      Handle(c, Serial(Received(doc)), toInt, guarded) ==
        c.(table := CopyTable(c.table, Member(doc, "coordinates"), toInt), log := c.log + ["recieved coordinates"])
    ensures IntentValue(doc, toInt) == 1 ==> Handle(c, Serial(Received(doc)), toInt, guarded) == c
  {
  }

  /**
   * intent0.py's document is a flat list of numbers, so the firmware prints
   * "recieved coordinates" and leaves its table as it was.
   */
  lemma HostIntent0StoresNothing(c: Controller, parsed: seq<Float>, toInt: Json -> int, guarded: bool)
    requires Shaped(c.table) && !c.halted
    ensures Handle(c, Serial(Received(CoordinatesCommand(0, Intent0Items(parsed)))), toInt, guarded) ==
            c.(log := c.log + ["recieved coordinates"])
  {
    var items := Intent0Items(parsed);
    var doc := CoordinatesCommand(0, items);
    UploadsAreRequests(items);
    EncodeIntent(StoreCoordinates(items));
    assert IntentValue(doc, toInt) == 0;
    assert doc.fields[|doc.fields| - 1] == ("coordinates", JArray(items));
    assert Member(doc, "coordinates") == JArray(items);
    assert forall i :: 1 <= i < |items| ==> items[i] == JFloat(parsed[i - 1]);
    FlatSourceCopiesNothing(c.table, items, toInt);
    StoreAndQuery(c, doc, toInt, guarded);
  }

  /** main.cpp's state after `setup`: the global table zeroed, both motor pins at the centre. */
  function MainSetup(o: Outputs): (c: Controller)
    ensures Valid(c) && !c.halted && c.tasks == 0 && !c.motorHandled
    ensures c.pins == CentreWrites && c.outputs == o
    ensures forall i :: 0 <= i < Rows ==> c.table[i] == [0, 0]
  {
    Controller(seq(Rows, _ => [0, 0]), false, 0, false, o, CentreWrites, ["Starting"])
  }

  /** `n` copies of an event. */
  function Repeat(e: Event, n: nat): (r: seq<Event>)
    ensures |r| == n && forall i :: 0 <= i < n ==> r[i] == e
  {
    seq(n, _ => e)
  }

  const ExecuteDoc: Event := Serial(Received(Encode(ExecuteWaypoints)))

  /** main.cpp spawns a task for every intent-2 message. */
  lemma {:induction false} MainSpawnsEveryTime(c: Controller, n: nat, toInt: Json -> int)
    requires Shaped(c.table) && !c.halted
    ensures Run(c, Repeat(ExecuteDoc, n), toInt, false).tasks == c.tasks + n
    ensures !Run(c, Repeat(ExecuteDoc, n), toInt, false).halted
  {
    if n > 0 {
      MainSpawnsEveryTime(c, n - 1, toInt);
      assert Repeat(ExecuteDoc, n)[..n - 1] == Repeat(ExecuteDoc, n - 1);
      var before := Run(c, Repeat(ExecuteDoc, n - 1), toInt, false);
      EncodeIntent(ExecuteWaypoints);
      assert IntentValue(Encode(ExecuteWaypoints), toInt) == 2;
    }
  }

  /**
   * Without the guard the flag no longer tracks the tasks: two intent-2
   * messages and the end of one task leave a task running with
   * `motorHandled` clear. The guarded dispatcher spawns once, refuses the
   * second, and is idle after the task ends.
   */
  lemma MainLosesTrackOfTasks(toInt: Json -> int, table: seq<seq<int>>, o: Outputs)
    requires Shaped(table)
    ensures var r := Run(MainSetup(o), [ExecuteDoc, ExecuteDoc, TaskEnded], toInt, false);
      r.tasks == 1 && !r.motorHandled
    ensures var r := Run(ManagerStart(table, o), [ExecuteDoc, ExecuteDoc, TaskEnded], toInt, true);
      r.tasks == 0 && !r.motorHandled && r.log == ["Motor is currently busy"]
  {
    EncodeIntent(ExecuteWaypoints);
    assert IntentValue(Encode(ExecuteWaypoints), toInt) == 2;
    RunThree(MainSetup(o), ExecuteDoc, ExecuteDoc, TaskEnded, toInt, false);
    RunThree(ManagerStart(table, o), ExecuteDoc, ExecuteDoc, TaskEnded, toInt, true);
    var c1 := Handle(ManagerStart(table, o), ExecuteDoc, toInt, true);
    assert c1.motorHandled && c1.log == [];
  }

  lemma RunThree(c: Controller, a: Event, b: Event, d: Event, toInt: Json -> int, guarded: bool)
    requires Shaped(c.table)
    ensures Run(c, [a, b, d], toInt, guarded) ==
            Handle(Handle(Handle(c, a, toInt, guarded), b, toInt, guarded), d, toInt, guarded)
  {
    var evs := [a, b, d];
    assert [a][..0] == [];
    assert Run(c, [a], toInt, guarded) == Handle(c, a, toInt, guarded);
    assert [a, b][..1] == [a];
    assert Run(c, [a, b], toInt, guarded) == Handle(Run(c, [a], toInt, guarded), b, toInt, guarded);
    assert evs[..2] == [a, b];
  }
}

=== FILE: extract.dfy ===
/**
 * Response extraction on the host: the three ways the tools turn one line of
 * controller output into a JSON value. They differ in fallback order:
 *  - `WholeLine` (helper_gui / helper_cli `read_json`): parse the whole line only;
 *  - `BraceFirst` (intent9 `_extract_json_from_text`): parse the brace span if
 *    there is one, the whole text only when there is none;
 *  - `WholeFirst` (intent6 `_read_json_from_lines`, one line): parse the whole
 *    text, and the brace span only if that fails.
 * `loads` stands for `json.loads`: `None` is a `JSONDecodeError`.
 */
module Extract {
  import opened Wrappers
  import opened Text
  import opened JsonData

  /** The text from its first `{` to its last `}`, when the first comes before the last. */
  function BraceSpan(text: string): Option<string> {
    var s := IndexOf(text, '{');
    var e := LastIndexOf(text, '}');
    if s != -1 && e != -1 && e > s then Some(text[s..e + 1]) else None
  }

  /**
   * The brace span exists exactly when some `{` precedes some `}`; it then
   * starts with `{`, ends with `}`, and has no `{` before it and no `}` after it.
   */
  lemma BraceSpanIsOutermost(text: string)
    ensures var r := BraceSpan(text);
      && (r.Some? <==> exists a, b :: 0 <= a < b < |text| && text[a] == '{' && text[b] == '}')
      && (r.Some? ==> |r.value| >= 2 && r.value[0] == '{' && r.value[|r.value| - 1] == '}')
      && (r.Some? ==> exists i :: 0 <= i && i + |r.value| <= |text| && text[i..i + |r.value|] == r.value &&
                                 '{' !in text[..i] && '}' !in text[i + |r.value|..])
  {
    var s := IndexOf(text, '{');
    var e := LastIndexOf(text, '}');
    if s != -1 && e != -1 && e > s {
      assert text[s..e + 1][0] == text[s];
    }
  }

  /** helper_gui.py / helper_cli.py: the line is parsed whole, and noise around a document makes it fail. */
  function WholeLine(text: string, loads: string -> Option<Json>): Option<Json> {
    loads(text)
  }

  /** intent9.py: with a brace span only the span is parsed; the whole text only when there is no span. */
  function BraceFirst(text: string, loads: string -> Option<Json>): (r: Option<Json>)
    ensures BraceSpan(text).Some? ==> r == loads(BraceSpan(text).value)
    ensures BraceSpan(text).None? ==> r == loads(text)
  {
    match BraceSpan(text)
    case Some(span) => loads(span)
    case None => loads(text)
  }

  /** intent6.py, for one line: the whole text first, then the brace span; `None` moves on to the next line. */
  function WholeFirst(text: string, loads: string -> Option<Json>): (r: Option<Json>)
    ensures loads(text).Some? ==> r == loads(text)
    ensures loads(text).None? && BraceSpan(text).Some? ==> r == loads(BraceSpan(text).value)
    ensures loads(text).None? && BraceSpan(text).None? ==> r.None?
  {
    match loads(text)
    case Some(v) => Some(v)
    case None =>
      match BraceSpan(text)
      case Some(span) => loads(span)
      case None => None
  }

  /** `_read_json_from_lines`: the value of the first line that yields one; later lines are not examined. */
  function ReadJsonFromLines(lines: seq<string>, loads: string -> Option<Json>): (r: Option<Json>)
    ensures r.Some? ==> exists i :: 0 <= i < |lines| && WholeFirst(lines[i], loads) == r &&
                                   forall j :: 0 <= j < i ==> WholeFirst(lines[j], loads).None?
    ensures r.None? <==> forall i :: 0 <= i < |lines| ==> WholeFirst(lines[i], loads).None?
  {
    if lines == [] then None
    else match WholeFirst(lines[0], loads)
      case Some(v) => Some(v)
      case None =>
        var r := ReadJsonFromLines(lines[1..], loads);
        assert forall i :: 1 <= i < |lines| ==> lines[i] == lines[1..][i - 1];
        if r.Some? then
          var i :| 0 <= i < |lines| - 1 && WholeFirst(lines[1..][i], loads) == r &&
                   forall j :: 0 <= j < i ==> WholeFirst(lines[1..][j], loads).None?;
          assert WholeFirst(lines[i + 1], loads) == r;
          r
        else r
  }

  lemma IndexOfAfterPrefix(pre: string, rest: string, c: char)
    requires c !in pre && rest != [] && rest[0] == c
    ensures IndexOf(pre + rest, c) == |pre|
  {
    var t := pre + rest;
    assert t[..|pre|] == pre;
    assert t[|pre|] == c;
    assert c in t[..|pre| + 1];
  }

  lemma LastIndexOfBeforeSuffix(body: string, post: string, c: char)
    requires c !in post && body != [] && body[|body| - 1] == c
    ensures LastIndexOf(body + post, c) == |body| - 1
  {
    var t := body + post;
    assert t[|body|..] == post;
    assert t[|body| - 1] == c;
    assert c in t[|body| - 1..];
  }

  /** A document with no `{` before it and no `}` after it is exactly the line's brace span. */
  lemma BraceSpanOfFramed(pre: string, doc: string, post: string)
    requires '{' !in pre && '}' !in post
    requires |doc| >= 2 && doc[0] == '{' && doc[|doc| - 1] == '}'
    ensures BraceSpan(pre + doc + post) == Some(doc)
  {
    var t := pre + doc + post;
    assert t == pre + (doc + post);
    IndexOfAfterPrefix(pre, doc + post, '{');
    assert t == (pre + doc) + post;
    LastIndexOfBeforeSuffix(pre + doc, post, '}');
    assert t[|pre|..|pre| + |doc|] == doc;
  }

  /**
   * One valid document surrounded by noise on the same line: the brace-first
   * and whole-first decoders both extract exactly that document, while the
   * whole-line decoder finds nothing.
   */
  lemma NoisyLine(pre: string, doc: string, post: string, loads: string -> Option<Json>)
    requires '{' !in pre && '}' !in post
    requires |doc| >= 2 && doc[0] == '{' && doc[|doc| - 1] == '}'
    requires loads(pre + doc + post).None? && loads(doc).Some?
    ensures BraceFirst(pre + doc + post, loads) == loads(doc)
    ensures WholeFirst(pre + doc + post, loads) == loads(doc)
    ensures WholeLine(pre + doc + post, loads).None?
  {
    BraceSpanOfFramed(pre, doc, post);
  }

  /**
   * A line that parses whole but whose brace span does not (a JSON array of two
   * objects, say): the whole-first decoder returns it and the brace-first
   * decoder returns nothing.
   */
  lemma WholeValidSpanInvalid(text: string, loads: string -> Option<Json>)
    requires loads(text).Some? && BraceSpan(text).Some? && loads(BraceSpan(text).value).None?
    ensures WholeFirst(text, loads) == loads(text)
    ensures BraceFirst(text, loads).None?
  {
  }

  /** Whatever the whole-line or the brace-first decoder accepts, the whole-first decoder accepts too. */
  lemma WholeFirstMostTolerant(text: string, loads: string -> Option<Json>)
    ensures WholeLine(text, loads).Some? ==> WholeFirst(text, loads) == WholeLine(text, loads)
    ensures BraceFirst(text, loads).Some? ==> WholeFirst(text, loads).Some?
  {
  }

  /** When the line is itself one brace-delimited span, or holds no span at all, the three decoders agree. */
  lemma DecodersAgree(text: string, loads: string -> Option<Json>)
    requires BraceSpan(text).None? || BraceSpan(text) == Some(text)
    ensures BraceFirst(text, loads) == WholeLine(text, loads)
    ensures WholeFirst(text, loads) == WholeLine(text, loads)
  {
  }
}

=== FILE: gui.dfy ===
/**
 * helper_gui.py: the Tk control panel. Its state is reduced to the flags and
 * lists the modelled handlers read and write; widgets, dialogs and threads are
 * gone, and a handler runs as one state transition. `written` is the sequence
 * of documents handed to the port.
 */
module Gui {
  import opened Wrappers
  import opened JsonData
  import opened Kml
  import opened Waypoints
  import opened Reads
  import opened Commands
  import opened Poll
  import Cli

  datatype GuiState = GuiState(
    connected: bool,
    hasPort: bool,               // `self.ser` is set
    autoStatus: bool,            // `auto_status_running`
    magLogging: bool,
    magData: seq<Json>,
    saves: seq<seq<Json>>,       // what each `save_mag_data` wrote, in order
    written: seq<Json>)

  /** The panel as `__init__` leaves it: no port, nothing running. */
  const Initial: GuiState := GuiState(false, false, false, false, [], [], [])

  /** `send_json`: refused, with nothing written, unless connected to an open port. */
  function SendJson(st: GuiState, doc: Json): (r: (GuiState, bool))
    ensures r.1 <==> st.connected && st.hasPort
    ensures r.1 ==> r.0 == st.(written := st.written + [doc])
    ensures !r.1 ==> r.0 == st
  {
    if !st.connected || !st.hasPort then (st, false)
    else (st.(written := st.written + [doc]), true)
  }

  /** `read_json`: `None` when not connected; otherwise the helpers' whole-line reader. */
  function ReadJson(st: GuiState, window: seq<Arrival>, loads: string -> Option<Json>): (r: Option<Json>)
    ensures !st.connected || !st.hasPort ==> r.None?
    ensures st.connected && st.hasPort ==> r == HelperReadJson(window, loads)
  {
    if !st.connected || !st.hasPort then None else HelperReadJson(window, loads)
  }

  /**
   * `toggle_connection`. Connecting succeeds when the port opens (`portOpens`);
   * a failure leaves everything as it was. Disconnecting closes the port and
   * turns auto-status off; `self.ser` stays set.
   */
  function ToggleConnection(st: GuiState, portOpens: bool): (r: GuiState)
    ensures st.connected ==> r == st.(connected := false, autoStatus := false)
    ensures !st.connected && portOpens ==> r == st.(connected := true, hasPort := true)
    ensures !st.connected && !portOpens ==> r == st
  {
    if !st.connected then
      if portOpens then st.(connected := true, hasPort := true) else st
    else st.(connected := false, autoStatus := false)
  }

  /** After a disconnect nothing more can be sent until the next connect. */
  lemma DisconnectedSendsNothing(st: GuiState, portOpens: bool, doc: Json)
    requires st.connected
    ensures var off := ToggleConnection(st, portOpens);
      !SendJson(off, doc).1 && SendJson(off, doc).0 == off && !off.autoStatus
  {
  }

  /**
   * `toggle_mag_logging`: starting clears the samples and sets the flag;
   * stopping clears it and calls `save_mag_data`, which writes the samples
   * when the file opens (`canWrite`) and otherwise only shows an error.
   */
  function ToggleMagLogging(st: GuiState, canWrite: bool): (r: GuiState)
    ensures r.magLogging != st.magLogging
    ensures !st.magLogging ==> r == st.(magLogging := true, magData := [])
    ensures st.magLogging ==> r.magData == st.magData && r.written == st.written && r.connected == st.connected
    ensures st.magLogging && canWrite ==> r == st.(magLogging := false, saves := st.saves + [st.magData])
    ensures st.magLogging && !canWrite ==> r == st.(magLogging := false)
  {
    if !st.magLogging then st.(magLogging := true, magData := [])
    else st.(magLogging := false, saves := if canWrite then st.saves + [st.magData] else st.saves)
  }

  /** One pass of `mag_logging_loop`: a request, then a truthy response is appended. */
  function MagLogIteration(st: GuiState, window: seq<Arrival>, loads: string -> Option<Json>): (r: GuiState)
    ensures r.connected == st.connected && r.hasPort == st.hasPort && r.magLogging == st.magLogging
    ensures r.saves == st.saves && r.autoStatus == st.autoStatus
    ensures st.connected && st.hasPort ==> r.written == st.written + [MagRequest]
    ensures !(st.connected && st.hasPort) ==> r == st
    ensures st.connected && st.hasPort ==>
      r.magData == st.magData + Listed(CliKeep(loads)(window))
  {
    var (s1, ok) := SendJson(st, MagRequest);
    if !ok then s1
    else
      var response := ReadJson(s1, window, loads);
      if response.Some? && Truthy(response.value) then s1.(magData := s1.magData + [response.value]) else s1
  }

  /**
   * `mag_logging_loop`, one iteration per window while logging and connected.
   * Nothing in the loop changes either flag, so it runs through every window.
   */
  function MagLoggingLoop(st: GuiState, windows: seq<seq<Arrival>>, loads: string -> Option<Json>): (r: GuiState)
    ensures r.connected == st.connected && r.hasPort == st.hasPort && r.magLogging == st.magLogging
    ensures r.saves == st.saves && r.autoStatus == st.autoStatus
    decreases |windows|
  {
    if windows == [] || !(st.magLogging && st.connected) then st
    else MagLoggingLoop(MagLogIteration(st, windows[0], loads), windows[1..], loads)
  }

  lemma LoopStep(st: GuiState, windows: seq<seq<Arrival>>, loads: string -> Option<Json>)
    requires windows != [] && st.magLogging && st.connected
    ensures MagLoggingLoop(st, windows, loads) == MagLoggingLoop(MagLogIteration(st, windows[0], loads), windows[1..], loads)
  {
  }

  /** The loop appends the truthy response of every window, in order. */
  lemma {:induction false} MagLoggingLoopCollects(st: GuiState, windows: seq<seq<Arrival>>, loads: string -> Option<Json>)
    requires st.magLogging && st.connected && st.hasPort
    ensures MagLoggingLoop(st, windows, loads).magData == st.magData + Collect(windows, CliKeep(loads))
    decreases |windows|
  {
    if windows == [] {
      assert st.magData + [] == st.magData;
    } else {
      MagLoggingLoopCollects(MagLogIteration(st, windows[0], loads), windows[1..], loads);
      CollectsStep(st, windows, loads);
    }
  }

  /** The inductive step of `MagLoggingLoopCollects`: the first window's sample goes in front of the rest. */
  lemma CollectsStep(st: GuiState, windows: seq<seq<Arrival>>, loads: string -> Option<Json>)
    requires st.magLogging && st.connected && st.hasPort && windows != []
    requires var s1 := MagLogIteration(st, windows[0], loads);
      MagLoggingLoop(s1, windows[1..], loads).magData == s1.magData + Collect(windows[1..], CliKeep(loads))
    ensures MagLoggingLoop(st, windows, loads).magData == st.magData + Collect(windows, CliKeep(loads))
  {
    LoopStep(st, windows, loads);
    FirstSampleInFront(st, windows, loads);
  }

  lemma FirstSampleInFront(st: GuiState, windows: seq<seq<Arrival>>, loads: string -> Option<Json>)
    requires st.connected && st.hasPort && windows != []
    ensures MagLogIteration(st, windows[0], loads).magData + Collect(windows[1..], CliKeep(loads)) ==
            st.magData + Collect(windows, CliKeep(loads))
  {
    var keep := CliKeep(loads);
    CollectFront(windows, keep);
    AppendAssoc(st.magData, Listed(keep(windows[0])), Collect(windows[1..], keep));
  }

  lemma AppendAssoc<T>(a: seq<T>, b: seq<T>, c: seq<T>)
    ensures a + b + c == a + (b + c)
  {
  }

  /** `n` logging requests. */
  function MagRequests(n: nat): (r: seq<Json>)
    ensures |r| == n && forall i :: 0 <= i < n ==> r[i] == MagRequest
  {
    if n == 0 then [] else [MagRequest] + MagRequests(n - 1)
  }

  /** The loop writes one request per window. */
  lemma {:induction false} MagLoggingLoopWrites(st: GuiState, windows: seq<seq<Arrival>>, loads: string -> Option<Json>)
    requires st.magLogging && st.connected && st.hasPort
    ensures MagLoggingLoop(st, windows, loads).written == st.written + MagRequests(|windows|)
    decreases |windows|
  {
    if windows == [] {
      assert st.written + [] == st.written;
    } else {
      var s1 := MagLogIteration(st, windows[0], loads);
      MagLoggingLoopWrites(s1, windows[1..], loads);
      assert MagLoggingLoop(st, windows, loads) == MagLoggingLoop(s1, windows[1..], loads);
    }
  }

  /** Without a port the loop sends and records nothing. */
  lemma {:induction false} MagLoggingLoopWithoutPort(st: GuiState, windows: seq<seq<Arrival>>, loads: string -> Option<Json>)
    requires !st.hasPort
    ensures MagLoggingLoop(st, windows, loads) == st
    decreases |windows|
  {
    if windows != [] && st.magLogging && st.connected {
      MagLoggingLoopWithoutPort(MagLogIteration(st, windows[0], loads), windows[1..], loads);
    }
  }

  /**
   * A whole logging session: start, the loop over the windows, stop. When the
   * file opens exactly one save is added, holding the session's samples;
   * otherwise none is.
   */
  lemma LoggingSessionSavesOnce(st: GuiState, windows: seq<seq<Arrival>>, loads: string -> Option<Json>,
                                startWrite: bool, canWrite: bool)
    requires !st.magLogging && st.connected && st.hasPort
    ensures var done := ToggleMagLogging(MagLoggingLoop(ToggleMagLogging(st, startWrite), windows, loads), canWrite);
      && done.saves == st.saves + (if canWrite then [Collect(windows, CliKeep(loads))] else [])
      && !done.magLogging
  {
    var started := ToggleMagLogging(st, startWrite);
    MagLoggingLoopCollects(started, windows, loads);
    assert [] + Collect(windows, CliKeep(loads)) == Collect(windows, CliKeep(loads));
  }

  /**
   * The GUI's session samples against the CLI logger's: the same list, saved
   * by both, as long as every truthy response is an object. The GUI never
   * inspects a response, so on a non-object one it keeps logging while the
   * CLI logger ends with nothing saved.
   */
  lemma GuiAndCliLogAlike(st: GuiState, windows: seq<seq<Arrival>>, loads: string -> Option<Json>)
    requires st.magLogging && st.connected && st.hasPort && st.magData == []
    ensures FirstCrash(windows, loads).None? ==>
      var cli := CliLogMagData("", windows, false, true, loads);
      cli.saved == Some(MagLoggingLoop(st, windows, loads).magData)
    ensures FirstCrash(windows, loads).Some? ==>
      && CliLogMagData("", windows, false, true, loads).saved.None?
      && MagLoggingLoop(st, windows, loads).magData == Collect(windows, CliKeep(loads))
  {
    MagLoggingLoopCollects(st, windows, loads);
    assert [] + Collect(windows, CliKeep(loads)) == Collect(windows, CliKeep(loads));
  }

  /** A magnetometer range label: both bounds, or `N/A`. */
  datatype RangeLabel = RangeShows(lo: Json, hi: Json) | RangeNA

  datatype StatusView = StatusView(
    battery: Label, numSats: Label, fix: Label, locationAge: Label,
    lat: Label, lon: Label, heading: Label,
    serialControl: Label, motorHandled: Label, setPointL: Label, setPointR: Label,
    magXRange: RangeLabel, magYRange: RangeLabel)

  /** A formatted number: shown only when `isinstance(value, (int, float))`. */
  function Numeric(fields: seq<(string, Json)>, key: string): (r: Label)
    ensures r.Shows? <==> Get(fields, key).Some? && IsNumeric(Get(fields, key).value)
    ensures r.Shows? ==> Some(r.v) == Get(fields, key)
  {
    match Get(fields, key)
    case Some(v) => if IsNumeric(v) then Shows(v) else NA
    case None => NA
  }

  /** A range: shown only when both bounds are numeric. */
  function Range(fields: seq<(string, Json)>, loKey: string, hiKey: string): (r: RangeLabel)
    ensures r.RangeShows? <==> Numeric(fields, loKey).Shows? && Numeric(fields, hiKey).Shows?
    ensures r.RangeShows? ==> Some(r.lo) == Get(fields, loKey) && Some(r.hi) == Get(fields, hiKey)
  {
    match (Numeric(fields, loKey), Numeric(fields, hiKey))
    case (Shows(lo), Shows(hi)) => RangeShows(lo, hi)
    case _ => RangeNA
  }

  /** The battery: `N/A` when missing, `null`, or the string `N/A`. */
  function Battery(fields: seq<(string, Json)>): (r: Label)
    ensures r.Shows? <==> Get(fields, "batteryVoltage").Some? &&
                          Get(fields, "batteryVoltage").value != JNull && Get(fields, "batteryVoltage").value != JStr("N/A")
    ensures r.Shows? ==> Some(r.v) == Get(fields, "batteryVoltage")
  {
    match Get(fields, "batteryVoltage")
    case Some(v) => if v != JNull && v != JStr("N/A") then Shows(v) else NA
    case None => NA
  }

  /** `update_status_display` on an object response. */
  function UpdateStatusDisplay(fields: seq<(string, Json)>): (r: StatusView)
    ensures r.lat.Shows? <==> Get(fields, "lat").Some? && IsNumeric(Get(fields, "lat").value)
    ensures r.heading.Shows? <==> Get(fields, "heading").Some? && IsNumeric(Get(fields, "heading").value)
  {
    StatusView(
      Battery(fields), GetOrNA(fields, "numSats"), GetOrNA(fields, "fix"), GetOrNA(fields, "locationAge"),
      Numeric(fields, "lat"), Numeric(fields, "lon"), Numeric(fields, "heading"),
      GetOrNA(fields, "serialControl"), GetOrNA(fields, "motorHandled"), GetOrNA(fields, "setPointL"), GetOrNA(fields, "setPointR"),
      Range(fields, "magXMin", "magXMax"), Range(fields, "magYMin", "magYMax"))
  }

  /** The longitude and both magnetometer ranges are shown only when numeric. */
  lemma StatusDisplayFormatted(fields: seq<(string, Json)>)
    ensures var r := UpdateStatusDisplay(fields);
      && (r.lon.Shows? <==> Get(fields, "lon").Some? && IsNumeric(Get(fields, "lon").value))
      && (r.magXRange.RangeShows? <==> Numeric(fields, "magXMin").Shows? && Numeric(fields, "magXMax").Shows?)
      && (r.magYRange.RangeShows? <==> Numeric(fields, "magYMin").Shows? && Numeric(fields, "magYMax").Shows?)
  {
  }

  /** Plain labels show `N/A` only for a missing key; the battery also for `null` and `"N/A"`. */
  lemma StatusDisplayPlain(fields: seq<(string, Json)>)
    ensures var r := UpdateStatusDisplay(fields);
      && (r.numSats == NA <==> Get(fields, "numSats").None?)
      && (r.fix == NA <==> Get(fields, "fix").None?)
      && (r.battery.NA? <==> Get(fields, "batteryVoltage").None? || Get(fields, "batteryVoltage").value in [JNull, JStr("N/A")])
  {
    var r := UpdateStatusDisplay(fields);
    assert r.numSats == GetOrNA(fields, "numSats") && r.fix == GetOrNA(fields, "fix");
    assert r.battery == Battery(fields);
    var b := Get(fields, "batteryVoltage");
    if b.Some? {
      assert b.value in [JNull, JStr("N/A")] <==> b.value == JNull || b.value == JStr("N/A");
    }
  }

  /**
   * A value present but not numeric is shown by the plain labels and as `N/A`
   * by the formatted ones: a `null` heading reads `N/A`, a `null` fix reads `None`.
   */
  lemma NullShownOnlyByPlainLabels(fields: seq<(string, Json)>)
    requires Get(fields, "heading") == Some(JNull) && Get(fields, "fix") == Some(JNull)
    ensures UpdateStatusDisplay(fields).heading == NA
    ensures UpdateStatusDisplay(fields).fix == Shows(JNull)
  {
  }

  /** The value the CLI prints for the status key in position `i`. */
  lemma CliLine(fields: seq<(string, Json)>, i: nat, key: string)
    requires i < |Cli.StatusKeys| && Cli.StatusKeys[i] == key
    ensures i < |Cli.StatusLines(fields)| && Cli.StatusLines(fields)[i] == GetOrNA(fields, key)
  {
  }

  /**
   * The CLI's status printout against the GUI's labels for the same object.
   * The plain keys read the same in both, `N/A` exactly when missing. The
   * battery agrees unless it is `null` or the string `N/A`, which only the GUI
   * hides. Latitude, longitude and heading agree when numeric; a `null` one is
   * printed by the CLI and shown as `N/A` by the GUI.
   */
  lemma CliAndGuiStatusAgree(fields: seq<(string, Json)>)
    ensures var lines := Cli.StatusLines(fields);
      var view := UpdateStatusDisplay(fields);
      && lines[1] == view.numSats && lines[2] == view.fix && lines[3] == view.locationAge
      && lines[7] == view.serialControl && lines[8] == view.motorHandled
      && lines[9] == view.setPointL && lines[10] == view.setPointR
      && (lines[0] == view.battery <==> Get(fields, "batteryVoltage").None? || Battery(fields).Shows?)
    ensures var lines := Cli.StatusLines(fields);
      var view := UpdateStatusDisplay(fields);
      && (view.lat.Shows? ==> lines[4] == view.lat)
      && (view.lon.Shows? ==> lines[5] == view.lon)
      && (view.heading.Shows? ==> lines[6] == view.heading)
      && (Get(fields, "lat") == Some(JNull) ==> lines[4] == Shows(JNull) && view.lat == NA)
      && (Get(fields, "lon") == Some(JNull) ==> lines[5] == Shows(JNull) && view.lon == NA)
      && (Get(fields, "heading") == Some(JNull) ==> lines[6] == Shows(JNull) && view.heading == NA)
  {
    PlainLinesAgree(fields);
    FormattedLinesAgree(fields);
  }

  lemma PlainLinesAgree(fields: seq<(string, Json)>)
    ensures var lines := Cli.StatusLines(fields);
      var view := UpdateStatusDisplay(fields);
      && lines[1] == view.numSats && lines[2] == view.fix && lines[3] == view.locationAge
      && lines[7] == view.serialControl && lines[8] == view.motorHandled
      && lines[9] == view.setPointL && lines[10] == view.setPointR
      && (lines[0] == view.battery <==> Get(fields, "batteryVoltage").None? || Battery(fields).Shows?)
  {
    GpsLinesAgree(fields);
    FlagLinesAgree(fields);
    BatteryLineAgrees(fields);
  }

  lemma FormattedLinesAgree(fields: seq<(string, Json)>)
    ensures var lines := Cli.StatusLines(fields);
      var view := UpdateStatusDisplay(fields);
      && (view.lat.Shows? ==> lines[4] == view.lat)
      && (view.lon.Shows? ==> lines[5] == view.lon)
      && (view.heading.Shows? ==> lines[6] == view.heading)
      && (Get(fields, "lat") == Some(JNull) ==> lines[4] == Shows(JNull) && view.lat == NA)
      && (Get(fields, "lon") == Some(JNull) ==> lines[5] == Shows(JNull) && view.lon == NA)
      && (Get(fields, "heading") == Some(JNull) ==> lines[6] == Shows(JNull) && view.heading == NA)
  {
    FormattedLineAgrees(fields, 4, "lat");
    FormattedLineAgrees(fields, 5, "lon");
    FormattedLineAgrees(fields, 6, "heading");
  }

  lemma GpsLinesAgree(fields: seq<(string, Json)>)
    ensures var lines := Cli.StatusLines(fields);
      var view := UpdateStatusDisplay(fields);
      lines[1] == view.numSats && lines[2] == view.fix && lines[3] == view.locationAge
  {
    CliLine(fields, 1, "numSats");
    CliLine(fields, 2, "fix");
    CliLine(fields, 3, "locationAge");
  }

  lemma FlagLinesAgree(fields: seq<(string, Json)>)
    ensures var lines := Cli.StatusLines(fields);
      var view := UpdateStatusDisplay(fields);
      && lines[7] == view.serialControl && lines[8] == view.motorHandled
      && lines[9] == view.setPointL && lines[10] == view.setPointR
  {
    CliLine(fields, 7, "serialControl");
    CliLine(fields, 8, "motorHandled");
    CliLine(fields, 9, "setPointL");
    CliLine(fields, 10, "setPointR");
  }

  lemma BatteryLineAgrees(fields: seq<(string, Json)>)
    ensures Cli.StatusLines(fields)[0] == UpdateStatusDisplay(fields).battery <==>
            Get(fields, "batteryVoltage").None? || Battery(fields).Shows?
  {
    CliLine(fields, 0, "batteryVoltage");
  }

  /** A formatted label against the CLI's value for the same key. */
  lemma FormattedLineAgrees(fields: seq<(string, Json)>, i: nat, key: string)
    requires i < |Cli.StatusKeys| && Cli.StatusKeys[i] == key
    ensures i < |Cli.StatusLines(fields)|
    ensures Numeric(fields, key).Shows? ==> Cli.StatusLines(fields)[i] == Numeric(fields, key)
    ensures Get(fields, key) == Some(JNull) ==> Cli.StatusLines(fields)[i] == Shows(JNull) && Numeric(fields, key) == NA
  {
    CliLine(fields, i, key);
  }

  /** What one status poll does to the display. */
  datatype StatusUpdate = NoUpdate | Updated(view: StatusView) | DisplayFailed

  /**
   * `get_status_once`: a request, then a truthy response updates the display;
   * a truthy response that is not an object makes the update raise.
   */
  function GetStatusOnce(st: GuiState, window: seq<Arrival>, loads: string -> Option<Json>): (r: (GuiState, StatusUpdate))
    ensures r.0 == SendJson(st, Encode(GetStatus)).0
    ensures !(st.connected && st.hasPort) ==> r.1 == NoUpdate
    ensures r.1.Updated? <==> st.connected && st.hasPort && HelperReadJson(window, loads).Some? &&
                              Truthy(HelperReadJson(window, loads).value) && HelperReadJson(window, loads).value.JObject?
    ensures r.1.Updated? ==> r.1.view == UpdateStatusDisplay(HelperReadJson(window, loads).value.fields)
  {
    var (s1, ok) := SendJson(st, Encode(GetStatus));
    if !ok then (s1, NoUpdate)
    else
      var response := ReadJson(s1, window, loads);
      if response.None? || !Truthy(response.value) then (s1, NoUpdate)
      else if response.value.JObject? then (s1, Updated(UpdateStatusDisplay(response.value.fields)))
      else (s1, DisplayFailed)
  }

  /** `set_motor_mode`, `set_motors`, `stop_motors`, `set_motor_bias`, `goto_coordinate`: one send of the request. */
  function SendRequest(st: GuiState, req: Request): (r: GuiState)
    ensures st.connected && st.hasPort ==> r == st.(written := st.written + [Encode(req)])
    ensures !(st.connected && st.hasPort) ==> r == st
  {
    SendJson(st, Encode(req)).0
  }

  /** `stop_motors`: both motor entries are set to 0 and sent. */
  function StopMotors(st: GuiState): (r: GuiState)
    ensures st.connected && st.hasPort ==> r == st.(written := st.written + [Encode(DirectMotors(0, 0))])
    ensures !(st.connected && st.hasPort) ==> r == st
  {
    SendRequest(st, DirectMotors(0, 0))
  }

  /** `execute_waypoints` and `start_calibration`: sent only when the dialog is answered yes. */
  function SendIfConfirmed(st: GuiState, yes: bool, req: Request): (r: GuiState)
    ensures !yes ==> r == st
    ensures yes ==> r == SendRequest(st, req)
  {
    if yes then SendRequest(st, req) else st
  }

  /** `get_coordinates`: intent 1, then the response is shown when it is truthy. */
  function GetCoordinates(st: GuiState, window: seq<Arrival>, loads: string -> Option<Json>): (r: (GuiState, Option<Json>))
    ensures r.0 == SendRequest(st, Commands.GetCoordinates)
    ensures r.1.Some? <==> st.connected && st.hasPort && CliLogSample(window, loads).Some?
    ensures r.1.Some? ==> r.1 == HelperReadJson(window, loads)
  {
    var (s1, ok) := SendJson(st, Encode(Commands.GetCoordinates));
    var response := if ok then ReadJson(s1, window, loads) else None;
    (s1, if response.Some? && Truthy(response.value) then response else None)
  }

  /**
   * `upload_kml`: nothing when the file is missing, parsing fails or a field
   * is not a number; otherwise one intent-5 document with the floor-half header.
   */
  function UploadKml(st: GuiState, fileExists: bool, text: string, speed: Option<Float>, range: Option<Float>,
                     parseFloat: string -> Option<Float>): (r: GuiState)
    ensures GuiUploadDocument(fileExists, text, speed, range, parseFloat).None? ==> r == st
    ensures GuiUploadDocument(fileExists, text, speed, range, parseFloat).Some? && !(st.connected && st.hasPort) ==> r == st
    ensures GuiUploadDocument(fileExists, text, speed, range, parseFloat).Some? && st.connected && st.hasPort ==>
      r == st.(written := st.written + [CoordinatesCommand(5, UploadItems(FloorHalfHeader(Parse(text, parseFloat).value),
                                                                   speed.value, range.value, Parse(text, parseFloat).value))])
  {
    match GuiUploadDocument(fileExists, text, speed, range, parseFloat)
    case None => st
    case Some(doc) => SendJson(st, doc).0
  }
}

=== FILE: jsondata.dfy ===
/**
 * The structured values exchanged over the link: what `json.loads` returns on
 * the host and what `json.dumps` serialises. Encoding and decoding themselves
 * are never modelled; they enter the model as function parameters.
 */
module JsonData {
  import opened Wrappers

  /** A Python float: a finite value, NaN, or an infinity. */
  datatype Float = Finite(value: real) | NaN | Infinity(negative: bool)

  /**
   * A JSON value as Python holds it. `JNull` is Python's `None`. Objects keep
   * their keys in insertion order, as `json.dumps` writes them.
   */
  datatype Json =
    | JNull
    | JBool(b: bool)
    | JInt(i: int)
    | JFloat(f: Float)
    | JStr(s: string)
    | JArray(items: seq<Json>)
    | JObject(fields: seq<(string, Json)>)

  /** Python truthiness (`if response:`): null, false, zero and empty containers are false. */
  predicate Truthy(v: Json) {
    match v
    case JNull => false
    case JBool(b) => b
    case JInt(i) => i != 0
    case JFloat(f) => f != Finite(0.0)
    case JStr(s) => s != []
    case JArray(items) => items != []
    case JObject(fields) => fields != []
  }

  /** `isinstance(v, (int, float))`; Python's bool is a subclass of int, so booleans count. */
  predicate IsNumeric(v: Json) {
    v.JBool? || v.JInt? || v.JFloat?
  }

  /** `d.get(key)` on a decoded object: with a repeated key the last binding wins, as in `json.loads`. */
  function Get(fields: seq<(string, Json)>, key: string): (r: Option<Json>)
    ensures r.None? <==> forall i :: 0 <= i < |fields| ==> fields[i].0 != key
    ensures r.Some? ==> exists i :: 0 <= i < |fields| && fields[i] == (key, r.value) &&
                          forall j :: i < j < |fields| ==> fields[j].0 != key
  {
    if fields == [] then None
    else if fields[|fields| - 1].0 == key then
      assert fields[|fields| - 1] == (key, fields[|fields| - 1].1);
      Some(fields[|fields| - 1].1)
    else
      var init := fields[..|fields| - 1];
      var r := Get(init, key);
      assert forall i :: 0 <= i < |init| ==> fields[i] == init[i];
      if r.None? then r
      else
        var i :| 0 <= i < |init| && init[i] == (key, r.value) && forall j :: i < j < |init| ==> init[j].0 != key;
        assert forall j :: i < j < |fields| ==> fields[j].0 != key;
        r
  }

  /** A key's last binding is what `Get` returns. */
  lemma GetLastBinding(fields: seq<(string, Json)>, key: string, i: int, v: Json)
    requires 0 <= i < |fields| && fields[i] == (key, v)
    requires forall j :: i < j < |fields| ==> fields[j].0 != key
    ensures Get(fields, key) == Some(v)
  {
    var r := Get(fields, key);
    var i' :| 0 <= i' < |fields| && fields[i'] == (key, r.value) && forall j :: i' < j < |fields| ==> fields[j].0 != key;
    assert i' == i;
  }

  /**
   * A command document: `{"intent": k, ...extra}` with `intent` written first.
   * Looking up `intent` gives `k` unless `extra` rebinds it, and every other
   * key reads as it does in `extra`.
   */
  function Command(intent: int, extra: seq<(string, Json)>): (doc: Json)
    ensures doc.JObject? && |doc.fields| == |extra| + 1
    ensures doc.fields[0] == ("intent", JInt(intent)) && doc.fields[1..] == extra
    ensures IntentOf(doc) == Some(intent)
    ensures (forall i :: 0 <= i < |extra| ==> extra[i].0 != "intent") ==> Get(doc.fields, "intent") == Some(JInt(intent))
    ensures forall k :: k != "intent" ==> Get(doc.fields, k) == Get(extra, k)
  {
    CommandLookup(intent, extra);
    JObject([("intent", JInt(intent))] + extra)
  }

  lemma CommandLookup(intent: int, extra: seq<(string, Json)>)
    ensures var fields := [("intent", JInt(intent))] + extra;
      && ((forall i :: 0 <= i < |extra| ==> extra[i].0 != "intent") ==> Get(fields, "intent") == Some(JInt(intent)))
      && (forall k :: k != "intent" ==> Get(fields, k) == Get(extra, k))
  {
    var fields := [("intent", JInt(intent))] + extra;
    if forall i :: 0 <= i < |extra| ==> extra[i].0 != "intent" {
      GetLastBinding(fields, "intent", 0, JInt(intent));
    }
    forall k | k != "intent"
      ensures Get(fields, k) == Get(extra, k)
    {
      var g := Get(extra, k);
      if g.Some? {
        var i :| 0 <= i < |extra| && extra[i] == (k, g.value) && forall j :: i < j < |extra| ==> extra[j].0 != k;
        GetLastBinding(fields, k, i + 1, g.value);
      }
    }
  }

  /** A displayed status value: the value itself, or `N/A`. */
  datatype Label = Shows(v: Json) | NA

  /**
   * `d.get(key, 'N/A')`, as both helpers print a status value: `N/A` exactly
   * for a missing key; a present value, `null` included, is shown.
   */
  function GetOrNA(fields: seq<(string, Json)>, key: string): (r: Label)
    ensures r == NA <==> forall i :: 0 <= i < |fields| ==> fields[i].0 != key
    ensures r.Shows? ==> Get(fields, key) == Some(r.v)
  {
    match Get(fields, key)
    case Some(v) => Shows(v)
    case None => NA
  }

  /** The intent a command document carries: the value of its first field, when that is an integer `intent`. */
  function IntentOf(doc: Json): Option<int> {
    if doc.JObject? && |doc.fields| > 0 && doc.fields[0].0 == "intent" && doc.fields[0].1.JInt?
    then Some(doc.fields[0].1.i)
    else None
  }
}

=== FILE: kml.dfy ===
/**
 * The KML coordinate tokenizer (`parsekml.parse`), from the file's text
 * onward: select a `<coordinates>` block, split its content on runs of
 * whitespace and commas, and keep the tokens that parse as floats.
 */
module Kml {
  import opened Wrappers
  import opened Text
  import opened JsonData

  const LineOpen: string := "<LineString>"
  const LineClose: string := "</LineString>"
  const CoordOpen: string := "<coordinates>"
  const CoordClose: string := "</coordinates>"

  /** The `ValueError` raised when no block is found. */
  datatype KmlError = NoCoordinatesBlock

  /**
   * Positions of one match of `<LineString>.*?<coordinates>(.*?)</coordinates>.*?</LineString>`
   * (letter case ignored, `.` matching newlines): the four tags start at `i`, `j`, `k`, `l`.
   */
  ghost predicate LineMatch(text: string, i: int, j: int, k: int, l: int) {
    && MatchesAt(text, LineOpen, i)
    && i + |LineOpen| <= j && MatchesAt(text, CoordOpen, j)
    && j + |CoordOpen| <= k && MatchesAt(text, CoordClose, k)
    && k + |CoordClose| <= l && MatchesAt(text, LineClose, l)
  }

  /** Positions of one match of `<coordinates>(.*?)</coordinates>`. */
  ghost predicate BareMatch(text: string, j: int, k: int) {
    MatchesAt(text, CoordOpen, j) && j + |CoordOpen| <= k && MatchesAt(text, CoordClose, k)
  }

  /** The order in which a backtracking search with lazy quantifiers tries matches. */
  predicate LexLeq4(a: (int, int, int, int), b: (int, int, int, int)) {
    a.0 < b.0 || (a.0 == b.0 && (a.1 < b.1 || (a.1 == b.1 && (a.2 < b.2 || (a.2 == b.2 && a.3 <= b.3)))))
  }

  predicate LexLeq2(a: (int, int), b: (int, int)) {
    a.0 < b.0 || (a.0 == b.0 && a.1 <= b.1)
  }

  /** What `re.search` returns for the LineString pattern: the first match in search order, if any. */
  function LineStringMatch(text: string): Option<(nat, nat, nat, nat)> {
    FoldedLineStringMatch(Fold(text))
  }

  /** The search on the case-folded text; the tags are folded too. */
  function FoldedLineStringMatch(ft: string): Option<(nat, nat, nat, nat)> {
    match FindExact(ft, Fold(LineOpen), 0)
    case None => None
    case Some(i) =>
      match FindExact(ft, Fold(CoordOpen), i + |LineOpen|)
      case None => None
      case Some(j) =>
        match FindExact(ft, Fold(CoordClose), j + |CoordOpen|)
        case None => None
        case Some(k) =>
          match FindExact(ft, Fold(LineClose), k + |CoordClose|)
          case None => None
          case Some(l) => Some((i, j, k, l))
  }

  /** `LineStringMatch` is the regex's match: a match, the first one in search order, and absent only when there is none. */
  lemma LineStringMatchIsSearch(text: string)
    ensures var m := LineStringMatch(text);
      && (m.Some? ==> LineMatch(text, m.value.0, m.value.1, m.value.2, m.value.3))
      && (m.Some? ==> forall i, j, k, l :: LineMatch(text, i, j, k, l) ==> LexLeq4(m.value, (i, j, k, l)))
      && (m.None? ==> forall i, j, k, l :: !LineMatch(text, i, j, k, l))
  {
  }

  /** What `re.search` returns for the bare `<coordinates>` pattern. */
  function BareBlockMatch(text: string): (m: Option<(nat, nat)>)
    ensures m.Some? ==> BareMatch(text, m.value.0, m.value.1)
    ensures m.Some? ==> forall j, k :: BareMatch(text, j, k) ==> LexLeq2(m.value, (j, k))
    ensures m.None? ==> forall j, k :: !BareMatch(text, j, k)
  {
    FoldedBareBlockMatch(Fold(text))
  }

  function FoldedBareBlockMatch(ft: string): Option<(nat, nat)> {
    match FindExact(ft, Fold(CoordOpen), 0)
    case None => None
    case Some(j) =>
      match FindExact(ft, Fold(CoordClose), j + |CoordOpen|)
      case None => None
      case Some(k) => Some((j, k))
  }

  /**
   * The block whose content is tokenized, as the span `[start, end)` of the text:
   * the LineString-wrapped block when that pattern matches, otherwise the first bare block.
   */
  function BlockSpan(text: string): (r: Option<(nat, nat)>)
    ensures r.None? <==> LineStringMatch(text).None? && BareBlockMatch(text).None?
    ensures r.Some? ==> r.value.0 <= r.value.1 <= |text|
  {
    LineStringMatchIsSearch(text);
    match LineStringMatch(text)
    case Some(m) => Some((m.1 + |CoordOpen|, m.2))
    case None =>
      match BareBlockMatch(text)
      case Some(b) => Some((b.0 + |CoordOpen|, b.1))
      case None => None
  }

  /**
   * The LineString-wrapped block wins: when that pattern matches, the span is
   * the content of its `<coordinates>` block; otherwise it is the content of
   * the first bare block.
   */
  lemma BlockSpanChoice(text: string)
    ensures LineStringMatch(text).Some? ==>
              BlockSpan(text) == Some((LineStringMatch(text).value.1 + |CoordOpen|, LineStringMatch(text).value.2))
    ensures LineStringMatch(text).None? && BareBlockMatch(text).Some? ==>
              BlockSpan(text) == Some((BareBlockMatch(text).value.0 + |CoordOpen|, BareBlockMatch(text).value.1))
  {
  }

  /** A span is selected exactly when the text holds some `<coordinates>...</coordinates>` block. */
  lemma BlockSpanFound(text: string)
    ensures BlockSpan(text).None? <==> forall j, k :: !BareMatch(text, j, k)
  {
    LineStringMatchIsSearch(text);
    var m := LineStringMatch(text);
    if m.Some? {
      assert BareMatch(text, m.value.1, m.value.2);
    }
  }

  /** The selected content holds no closing tag: the lazy group stops at the first `</coordinates>`. */
  lemma BlockSpanContent(text: string)
    ensures var r := BlockSpan(text);
      r.Some? ==> forall p :: r.value.0 <= p < r.value.1 ==> !MatchesAt(text, CoordClose, p)
  {
  }

  /** A separator of `re.split(r"[\s,]+", ...)`. */
  predicate IsSep(c: char) {
    IsSpace(c) || c == ','
  }

  ghost predicate NoSep(s: string) {
    forall k :: 0 <= k < |s| ==> !IsSep(s[k])
  }

  /** Drops the leading run of separators. */
  function DropSeps(s: string): (r: string)
    ensures |r| <= |s| && r == s[|s| - |r|..]
    ensures forall k :: 0 <= k < |s| - |r| ==> IsSep(s[k])
    ensures r == [] || !IsSep(r[0])
  {
    if s == [] || !IsSep(s[0]) then s else DropSeps(s[1..])
  }

  /** `re.split(r"[\s,]+", s)`: the pieces between maximal separator runs, empty pieces included. */
  function Split(s: string): (parts: seq<string>)
    ensures |parts| >= 1
    decreases |s|
  {
    if s == [] then [[]]
    else if IsSep(s[0]) then [[]] + Split(DropSeps(s))
    else
      var rest := Split(s[1..]);
      [[s[0]] + rest[0]] + rest[1..]
  }

  /** `[p for p in parts if p != ""]` */
  function NonEmpty(parts: seq<string>): (r: seq<string>)
    ensures |r| <= |parts|
    ensures forall t :: t in r ==> t != [] && t in parts
  {
    if parts == [] then []
    else if parts[0] == [] then NonEmpty(parts[1..])
    else [parts[0]] + NonEmpty(parts[1..])
  }

  /** The tokens of a block's content: split the stripped content and discard empty pieces. */
  function Tokens(content: string): seq<string> {
    NonEmpty(Split(Strip(content)))
  }

  /** The floats the tokens parse to, in order; a token that does not parse is skipped. */
  function Numbers(tokens: seq<string>, parseFloat: string -> Option<Float>): (r: seq<Float>)
    ensures |r| <= |tokens|
    ensures forall x :: x in r ==> exists t :: t in tokens && parseFloat(t) == Some(x)
  {
    if tokens == [] then []
    else
      var rest := Numbers(tokens[1..], parseFloat);
      assert forall t :: t in tokens[1..] ==> t in tokens;
      match parseFloat(tokens[0])
      case Some(x) => [x] + rest
      case None => rest
  }

  /** `parsekml.parse` applied to the file's text. */
  function Parse(text: string, parseFloat: string -> Option<Float>): (r: Result<seq<Float>, KmlError>)
    ensures r.Err? <==> forall j, k :: !BareMatch(text, j, k)
    ensures r.Ok? ==> |r.value| <= |Tokens(text[BlockSpan(text).value.0..BlockSpan(text).value.1])|
    ensures r.Ok? ==> r.value == Numbers(Tokens(text[BlockSpan(text).value.0..BlockSpan(text).value.1]), parseFloat)
  {
    BlockSpanFound(text);
    match BlockSpan(text)
    case None => Err(NoCoordinatesBlock)
    case Some(span) => Ok(Numbers(Tokens(text[span.0..span.1]), parseFloat))
  }
}

=== FILE: kml_lemmas.dfy ===
/** Properties of the KML tokenizer: what tokens look like, what they keep, and case-insensitive block selection. */
module KmlLemmas {
  import opened Wrappers
  import opened Text
  import opened JsonData
  import opened Kml

  /** All characters of `s` that are not separators, in order. */
  function Keep(s: string): (r: string)
    ensures NoSep(r)
  {
    if s == [] then []
    else if IsSep(s[0]) then Keep(s[1..])
    else [s[0]] + Keep(s[1..])
  }

  function Flatten(parts: seq<string>): string {
    if parts == [] then [] else parts[0] + Flatten(parts[1..])
  }

  /** Tokens joined back with one separator between neighbours. */
  function Join(ts: seq<string>, sep: char): string {
    if ts == [] then []
    else if |ts| == 1 then ts[0]
    else ts[0] + [sep] + Join(ts[1..], sep)
  }

  lemma {:induction false} KeepAppend(a: string, b: string)
    ensures Keep(a + b) == Keep(a) + Keep(b)
    decreases |a|
  {
    if a != [] {
      assert (a + b)[1..] == a[1..] + b;
      KeepAppend(a[1..], b);
    } else {
      assert a + b == b;
    }
  }

  lemma {:induction false} KeepOfSeps(s: string)
    requires forall k :: 0 <= k < |s| ==> IsSep(s[k])
    ensures Keep(s) == []
    decreases |s|
  {
    if s != [] {
      KeepOfSeps(s[1..]);
    }
  }

  lemma {:induction false} KeepDropSeps(s: string)
    ensures Keep(DropSeps(s)) == Keep(s)
    decreases |s|
  {
    if s != [] && IsSep(s[0]) {
      KeepDropSeps(s[1..]);
    }
  }

  lemma {:induction false} KeepStrip(s: string)
    ensures Keep(Strip(s)) == Keep(s)
    decreases |s|
  {
    if s != [] && IsSpace(s[0]) {
      KeepStrip(s[1..]);
    } else {
      KeepTrimRight(s);
    }
  }

  lemma {:induction false} KeepTrimRight(s: string)
    ensures Keep(TrimRight(s)) == Keep(s)
    decreases |s|
  {
    if s != [] && IsSpace(s[|s| - 1]) {
      var init := s[..|s| - 1];
      KeepTrimRight(init);
      assert s == init + [s[|s| - 1]];
      KeepAppend(init, [s[|s| - 1]]);
      assert Keep([s[|s| - 1]]) == [];
    }
  }

  lemma {:induction false} FlattenSplit(s: string)
    ensures Flatten(Split(s)) == Keep(s)
    decreases |s|
  {
    if s == [] {
    } else if IsSep(s[0]) {
      var d := DropSeps(s);
      FlattenSplit(d);
      KeepDropSeps(s);
      assert Flatten(Split(s)) == [] + Flatten(Split(d));
    } else {
      var rest := Split(s[1..]);
      FlattenSplit(s[1..]);
      assert Split(s)[1..] == rest[1..];
      assert Flatten(rest) == rest[0] + Flatten(rest[1..]);
      assert Flatten(Split(s)) == [s[0]] + rest[0] + Flatten(rest[1..]);
    }
  }

  lemma {:induction false} FlattenNonEmpty(parts: seq<string>)
    ensures Flatten(NonEmpty(parts)) == Flatten(parts)
    decreases |parts|
  {
    if parts != [] {
      var rest := NonEmpty(parts[1..]);
      FlattenNonEmpty(parts[1..]);
      assert Flatten(parts) == parts[0] + Flatten(parts[1..]);
      if parts[0] == [] {
        assert NonEmpty(parts) == rest;
        assert parts[0] + Flatten(parts[1..]) == Flatten(parts[1..]);
      } else {
        assert NonEmpty(parts) == [parts[0]] + rest;
        assert ([parts[0]] + rest)[1..] == rest;
      }
    }
  }

  lemma {:induction false} SplitPiecesHaveNoSep(s: string)
    ensures forall i :: 0 <= i < |Split(s)| ==> NoSep(Split(s)[i])
    decreases |s|
  {
    if s == [] {
    } else if IsSep(s[0]) {
      SplitPiecesHaveNoSep(DropSeps(s));
      assert forall i :: 1 <= i < |Split(s)| ==> Split(s)[i] == Split(DropSeps(s))[i - 1];
    } else {
      SplitPiecesHaveNoSep(s[1..]);
      var rest := Split(s[1..]);
      assert NoSep(rest[0]);
      assert forall i :: 1 <= i < |Split(s)| ==> Split(s)[i] == rest[i];
    }
  }

  /** Every token is non-empty and holds no whitespace or comma. */
  lemma TokensAreWords(content: string)
    ensures forall t :: t in Tokens(content) ==> t != [] && NoSep(t)
  {
    SplitPiecesHaveNoSep(Strip(content));
  }

  /** Concatenated, the tokens are exactly the content's non-separator characters: nothing lost, nothing reordered. */
  lemma TokensKeepContent(content: string)
    ensures Flatten(Tokens(content)) == Keep(content)
  {
    FlattenNonEmpty(Split(Strip(content)));
    FlattenSplit(Strip(content));
    KeepStrip(content);
  }

  lemma StripIdentity(s: string)
    requires s == [] || (!IsSpace(s[0]) && !IsSpace(s[|s| - 1]))
    ensures Strip(s) == s
  {
    assert TrimRight(s) == s;
  }

  /** A non-separator in front of a text joins its first piece. */
  lemma SplitCons(c: char, t: string)
    requires !IsSep(c)
    ensures Split([c] + t) == [[c] + Split(t)[0]] + Split(t)[1..]
  {
    assert ([c] + t)[1..] == t;
  }

  lemma {:induction false} SplitWordPrefix(w: string, z: string)
    requires NoSep(w)
    ensures Split(w + z) == [w + Split(z)[0]] + Split(z)[1..]
    decreases |w|
  {
    if w == [] {
      assert w + z == z;
      assert Split(z) == [Split(z)[0]] + Split(z)[1..];
      assert w + Split(z)[0] == Split(z)[0];
    } else {
      assert w + z == [w[0]] + (w[1..] + z);
      SplitCons(w[0], w[1..] + z);
      SplitWordPrefix(w[1..], z);
      assert [w[0]] + (w[1..] + Split(z)[0]) == w + Split(z)[0];
    }
  }

  lemma {:induction false} SplitJoin(ts: seq<string>, sep: char)
    requires IsSep(sep)
    requires forall i :: 0 <= i < |ts| ==> ts[i] != [] && NoSep(ts[i])
    requires ts != []
    ensures Split(Join(ts, sep)) == ts
    decreases |ts|
  {
    if |ts| == 1 {
      SplitWordPrefix(ts[0], []);
      assert ts[0] + [] == ts[0];
    } else {
      var j := Join(ts[1..], sep);
      SplitJoin(ts[1..], sep);
      assert ts[1] != [] && !IsSep(ts[1][0]);
      JoinStartsWith(ts[1..], sep);
      assert DropSeps([sep] + j) == j;
      assert Split([sep] + j) == [[]] + ts[1..];
      assert ts[0] + [sep] + j == ts[0] + ([sep] + j);
      SplitWordPrefix(ts[0], [sep] + j);
      assert ts[0] + [] == ts[0];
    }
  }

  lemma {:induction false} JoinStartsWith(ts: seq<string>, sep: char)
    requires ts != [] && ts[0] != []
    ensures Join(ts, sep) != [] && Join(ts, sep)[0] == ts[0][0]
  {
  }

  lemma {:induction false} JoinEndsWith(ts: seq<string>, sep: char)
    requires ts != [] && ts[|ts| - 1] != []
    ensures Join(ts, sep) != [] && Join(ts, sep)[|Join(ts, sep)| - 1] == ts[|ts| - 1][|ts[|ts| - 1]| - 1]
    decreases |ts|
  {
    if |ts| > 1 {
      JoinEndsWith(ts[1..], sep);
    }
  }

  lemma {:induction false} NonEmptyOfNonEmpty(parts: seq<string>)
    requires forall i :: 0 <= i < |parts| ==> parts[i] != []
    ensures NonEmpty(parts) == parts
    decreases |parts|
  {
    if parts != [] {
      NonEmptyOfNonEmpty(parts[1..]);
    }
  }

  /** Round trip: joining well-formed tokens with any separator and tokenizing gives the tokens back. */
  lemma TokensOfJoin(ts: seq<string>, sep: char)
    requires IsSep(sep)
    requires forall i :: 0 <= i < |ts| ==> ts[i] != [] && NoSep(ts[i])
    ensures Tokens(Join(ts, sep)) == ts
  {
    if ts == [] {
    } else {
      JoinStartsWith(ts, sep);
      JoinEndsWith(ts, sep);
      StripIdentity(Join(ts, sep));
      SplitJoin(ts, sep);
      NonEmptyOfNonEmpty(ts);
    }
  }

  /** Parsed values keep the order of their tokens: the numbers of a concatenation are the concatenation of the numbers. */
  lemma {:induction false} NumbersAppend(a: seq<string>, b: seq<string>, parseFloat: string -> Option<Float>)
    ensures Numbers(a + b, parseFloat) == Numbers(a, parseFloat) + Numbers(b, parseFloat)
    decreases |a|
  {
    if a == [] {
      assert a + b == b;
    } else {
      assert (a + b)[1..] == a[1..] + b;
      NumbersAppend(a[1..], b, parseFloat);
    }
  }

  /** When every token parses, the output is the tokens' values one for one: no scaling, grouping or loss. */
  lemma {:induction false} NumbersAllParse(tokens: seq<string>, parseFloat: string -> Option<Float>)
    requires forall i :: 0 <= i < |tokens| ==> parseFloat(tokens[i]).Some?
    ensures |Numbers(tokens, parseFloat)| == |tokens|
    ensures forall i :: 0 <= i < |tokens| ==> Numbers(tokens, parseFloat)[i] == parseFloat(tokens[i]).value
    decreases |tokens|
  {
    if tokens != [] {
      NumbersAllParse(tokens[1..], parseFloat);
      var r := Numbers(tokens, parseFloat);
      assert r == [parseFloat(tokens[0]).value] + Numbers(tokens[1..], parseFloat);
      forall i | 1 <= i < |tokens|
        ensures r[i] == parseFloat(tokens[i]).value
      {
        assert tokens[1..][i - 1] == tokens[i];
      }
    }
  }

  /** A token that does not parse contributes nothing. */
  lemma {:induction false} NumbersSkipUnparsable(tokens: seq<string>, parseFloat: string -> Option<Float>)
    requires forall i :: 0 <= i < |tokens| ==> parseFloat(tokens[i]).None?
    ensures Numbers(tokens, parseFloat) == []
    decreases |tokens|
  {
    if tokens != [] {
      NumbersSkipUnparsable(tokens[1..], parseFloat);
    }
  }

  /**
   * A coordinates block holding well-formed numbers joined by one separator
   * parses to exactly those numbers, one for one and in order.
   */
  lemma ParseReadsEveryWord(text: string, ws: seq<string>, sep: char, parseFloat: string -> Option<Float>)
    requires IsSep(sep)
    requires forall i :: 0 <= i < |ws| ==> ws[i] != [] && NoSep(ws[i]) && parseFloat(ws[i]).Some?
    requires BlockSpan(text).Some? && text[BlockSpan(text).value.0..BlockSpan(text).value.1] == Join(ws, sep)
    ensures Parse(text, parseFloat).Ok?
    ensures |Parse(text, parseFloat).value| == |ws|
    ensures forall i :: 0 <= i < |ws| ==> Parse(text, parseFloat).value[i] == parseFloat(ws[i]).value
  {
    BlockSpanFound(text);
    TokensOfJoin(ws, sep);
    NumbersAllParse(ws, parseFloat);
  }

  /** Two texts that agree up to ASCII letter case. */
  ghost predicate SameUpToCase(t1: string, t2: string) {
    Fold(t1) == Fold(t2)
  }

  /** Tag matching ignores letter case: texts differing only in case select the same block span. */
  lemma BlockSpanIgnoresCase(t1: string, t2: string)
    requires SameUpToCase(t1, t2)
    ensures BlockSpan(t1) == BlockSpan(t2)
  {
    assert LineStringMatch(t1) == LineStringMatch(t2);
    assert BareBlockMatch(t1) == BareBlockMatch(t2);
  }
}

=== FILE: motors.dfy ===
/**
 * motorSet.cpp: a signed speed becomes a servo pulse on one of two PWM
 * channels. Pulses are modelled in microseconds, before the division by the
 * duty-cycle step `uSecPWM` that `ledcWrite` receives.
 */
module Motors {
  import opened Config

  function Abs(x: int): (r: nat)
    ensures r == x || r == -x
  {
    if x < 0 then -x else x
  }

  /**
   * The pulse as motorSet.cpp writes it. For a negative speed it adds the
   * magnitude and subtracts the deadband, so a reverse command lands just
   * below the centre for small magnitudes and above it (on the forward side)
   * for magnitudes over the deadband.
   */
  function PulseAsWritten(speed: int): (p: int)
    ensures speed >= 0 ==> p == PwmCenter + (if speed == 0 then 0 else speed + PwmDeadband)
    ensures speed < 0 ==> p == PwmCenter + Abs(speed) - PwmDeadband
  {
    if speed > 0 then PwmCenter + speed + PwmDeadband
    else if speed < 0 then PwmCenter - speed - PwmDeadband
    else PwmCenter
  }

  /**
   * A reverse command sits a fixed 100 µs below the forward command of the
   * same magnitude, so past a magnitude of 50 it is on the forward side of
   * the centre; reverse commands are not monotone: -1 is below the centre,
   * -100 above it.
   */
  lemma ReverseGoesForwardAsWritten(s: int)
    requires s > 0
    ensures PulseAsWritten(-s) == PulseAsWritten(s) - 2 * PwmDeadband
    ensures PulseAsWritten(-s) > PwmCenter <==> s > PwmDeadband
    ensures PulseAsWritten(-1) < PwmCenter < PulseAsWritten(-100)
  {
  }

  /** The calibration spin's reverse wheel stays inside the deadband as written. */
  lemma CalibrationReverseInsideDeadbandAsWritten()
    ensures PwmCenter - PwmDeadband < PulseAsWritten(-MagCalibrationSpeed) < PwmCenter
  {
  }

  /**
   * The pulse with the reverse branch mirrored about the centre: forward
   * speeds start past the upper edge of the deadband, reverse speeds past the
   * lower edge, and zero is the centre.
   */
  function Pulse(speed: int): (p: int)
    ensures speed == 0 <==> p == PwmCenter
    ensures speed > 0 ==> p == PwmCenter + PwmDeadband + Abs(speed)
    ensures speed < 0 ==> p == PwmCenter - PwmDeadband - Abs(speed)
  {
    if speed > 0 then PwmCenter + speed + PwmDeadband
    else if speed < 0 then PwmCenter + speed - PwmDeadband
    else PwmCenter
  }

  /** The mapping is strictly increasing over all speeds, and a sign change mirrors the pulse. */
  lemma PulseMonotone(a: int, b: int)
    requires a < b
    ensures Pulse(a) < Pulse(b)
    ensures Pulse(-a) - PwmCenter == PwmCenter - Pulse(a)
  {
  }

  /** On non-negative speeds, the only ones the steering loop produces, the two mappings agree. */
  lemma PulseAgreesOnForward(speed: int)
    requires speed >= 0
    ensures Pulse(speed) == PulseAsWritten(speed)
  {
  }

  /**
   * No clamp: `pwmMin`/`pwmMax` are unused, so a large speed drives the pulse
   * past the servo range. As written this happens above 350 forward and
   * below -450 in reverse; with the mirrored reverse branch, past a
   * magnitude of 350 either way.
   */
  lemma PulseNotClamped(speed: int)
    ensures PwmMax <= PulseAsWritten(speed) <= PwmMin <==> -450 <= speed <= 350
    ensures PwmMax <= Pulse(speed) <= PwmMin <==> -350 <= speed <= 350
  {
  }

  /** The two PWM outputs, in microseconds. */
  datatype Outputs = Outputs(ch0: int, ch1: int)

  /** Both channels at the centre: stopped. */
  const Centered: Outputs := Outputs(PwmCenter, PwmCenter)

  /** `motorSetup`: both channels at the centre pulse. */
  function MotorSetup(): (o: Outputs)
    ensures o == Centered
  {
    Outputs(PwmCenter, PwmCenter)
  }

  /**
   * `setMotorL` drives channel 0 (`pwmChMotor1`) with the pulse as written
   * and leaves channel 1 alone. A reverse speed equal to the deadband lands
   * on the centre, so it stops the wheel as zero does.
   */
  function SetMotorL(o: Outputs, speed: int): (r: Outputs)
    ensures r.ch1 == o.ch1
    ensures r.ch0 == PulseAsWritten(speed)
    ensures r.ch0 == PwmCenter <==> speed == 0 || speed == -PwmDeadband
  {
    o.(ch0 := PulseAsWritten(speed))
  }

  /** `setMotorR` drives channel 1 (`pwmChMotor2`) the same way and leaves channel 0 alone. */
  function SetMotorR(o: Outputs, speed: int): (r: Outputs)
    ensures r.ch0 == o.ch0
    ensures r.ch1 == PulseAsWritten(speed)
    ensures r.ch1 == PwmCenter <==> speed == 0 || speed == -PwmDeadband
  {
    o.(ch1 := PulseAsWritten(speed))
  }

  /** Both wheels at the given speeds; for forward speeds these are the mirrored mapping's pulses too. */
  function SetMotors(o: Outputs, left: int, right: int): (r: Outputs)
    ensures r == Outputs(PulseAsWritten(left), PulseAsWritten(right))
    ensures left >= 0 && right >= 0 ==> r == Outputs(Pulse(left), Pulse(right))
  {
    SetMotorR(SetMotorL(o, left), right)
  }

  /** The left and right setters compute the same pulse; only the channel differs. */
  lemma SettersAgree(o: Outputs, speed: int)
    ensures SetMotorL(o, speed).ch0 == SetMotorR(o, speed).ch1
  {
  }

  /** Zero on both wheels is the state `motorSetup` and the emergency stop leave. */
  lemma StoppedIsCentered(o: Outputs)
    ensures SetMotors(o, 0, 0) == MotorSetup()
  {
  }

  /** endMotorTask.cpp: both wheels to zero and the busy flag cleared; the task then deletes itself. */
  function EndMotorTask(o: Outputs): (r: (Outputs, bool))
    ensures r.0 == MotorSetup() && !r.1
  {
    StoppedIsCentered(o);
    (SetMotors(o, 0, 0), false)
  }
}

=== FILE: poll.dfy ===
/**
 * Polling loops that log magnetometer samples: intent9.py `process` and
 * helper_cli.py `intent_9_log_mag_data` (helper_gui.py's logging thread is in
 * the `Gui` module). A loop that runs until Ctrl-C becomes a finite sequence of
 * completed iterations, one read outcome each; the interrupt ends it, either
 * between iterations or after an iteration's request was written but before
 * its reply was used.
 */
module Poll {
  import opened Wrappers
  import opened Text
  import opened JsonData
  import opened Extract
  import opened Reads

  /** The values `keep` accepts from each outcome, appended in arrival order. */
  function Collect<A>(xs: seq<A>, keep: A -> Option<Json>): (r: seq<Json>)
    ensures |r| <= |xs|
  {
    if xs == [] then []
    else
      var init := Collect(xs[..|xs| - 1], keep);
      match keep(xs[|xs| - 1])
      case Some(v) => init + [v]
      case None => init
  }

  /** An outcome's value as a list of at most one element. */
  function Listed(o: Option<Json>): (r: seq<Json>)
    ensures |r| <= 1 && (r == [] <==> o.None?)
    ensures o.Some? ==> r[0] == o.value
  {
    if o.Some? then [o.value] else []
  }

  /** One more outcome appends at most its own value to what was collected before. */
  lemma CollectSnoc<A>(xs: seq<A>, x: A, keep: A -> Option<Json>)
    ensures Collect(xs + [x], keep) == Collect(xs, keep) + Listed(keep(x))
  {
    assert (xs + [x])[..|xs + [x]| - 1] == xs;
  }

  /** Records are never removed: the samples of a longer run extend those of any of its prefixes. */
  lemma {:induction false} CollectAppend<A>(xs: seq<A>, ys: seq<A>, keep: A -> Option<Json>)
    ensures Collect(xs + ys, keep) == Collect(xs, keep) + Collect(ys, keep)
    decreases |ys|
  {
    if ys == [] {
      assert xs + ys == xs;
    } else {
      var init := ys[..|ys| - 1];
      var last := ys[|ys| - 1];
      assert ys == init + [last];
      assert xs + ys == (xs + init) + [last];
      CollectAppend(xs, init, keep);
      CollectSnoc(xs + init, last, keep);
      CollectSnoc(init, last, keep);
    }
  }

  /** A value is collected exactly when some outcome yields it. */
  lemma {:induction false} CollectMembers<A>(xs: seq<A>, keep: A -> Option<Json>, v: Json)
    ensures v in Collect(xs, keep) <==> exists i :: 0 <= i < |xs| && keep(xs[i]) == Some(v)
    decreases |xs|
  {
    if xs != [] {
      var init := xs[..|xs| - 1];
      assert xs == init + [xs[|xs| - 1]];
      CollectSnoc(init, xs[|xs| - 1], keep);
      CollectMembers(init, keep, v);
      assert forall i :: 0 <= i < |init| ==> init[i] == xs[i];
    }
  }

  /** The number of records is the number of outcomes that yield one. */
  lemma {:induction false} CollectCount<A>(xs: seq<A>, keep: A -> Option<Json>)
    ensures |Collect(xs, keep)| == |set i | 0 <= i < |xs| && keep(xs[i]).Some?|
    decreases |xs|
  {
    if xs != [] {
      var n := |xs| - 1;
      var init := xs[..n];
      assert xs == init + [xs[n]];
      CollectSnoc(init, xs[n], keep);
      CollectCount(init, keep);
      var before := set i | 0 <= i < |init| && keep(init[i]).Some?;
      var now := set i | 0 <= i < |xs| && keep(xs[i]).Some?;
      assert forall i :: 0 <= i < n ==> init[i] == xs[i];
      if keep(xs[n]).Some? {
        assert now == before + {n};
      } else {
        assert now == before;
      }
    }
  }

  /** When every outcome yields a value, every outcome is recorded, in order. */
  lemma {:induction false} CollectAllAccepted<A>(xs: seq<A>, keep: A -> Option<Json>)
    requires forall i :: 0 <= i < |xs| ==> keep(xs[i]).Some?
    ensures |Collect(xs, keep)| == |xs|
    ensures forall i :: 0 <= i < |xs| ==> Collect(xs, keep)[i] == keep(xs[i]).value
    decreases |xs|
  {
    if xs != [] {
      var n := |xs| - 1;
      var init := xs[..n];
      assert xs == init + [xs[n]];
      CollectSnoc(init, xs[n], keep);
      CollectAllAccepted(init, keep);
    }
  }

  /**
   * The logging loop written as the program writes it: a list that starts
   * empty and gets each accepted value appended.
   */
  method Accumulate<A>(xs: seq<A>, keep: A -> Option<Json>) returns (data: seq<Json>)
    ensures data == Collect(xs, keep)
  {
    data := [];
    var i := 0;
    while i < |xs|
      invariant 0 <= i <= |xs|
      invariant data == Collect(xs[..i], keep)
    {
      CollectSnoc(xs[..i], xs[i], keep);
      assert xs[..i + 1] == xs[..i] + [xs[i]];
      match keep(xs[i]) {
        case Some(v) => data := data + [v];
        case None =>
      }
      i := i + 1;
    }
    assert xs[..|xs|] == xs;
  }

  /** The request every logging iteration writes. */
  const MagRequest: Json := Command(9, [])

  /** intent9.py: the output name, `maglog_<stamp>.json` when none or a blank one is given. */
  function LogFileName(filename: Option<string>, stamp: string): (r: string)
    ensures filename.Some? && Strip(filename.value) != [] ==> r == filename.value
    ensures filename.None? || Strip(filename.value) == [] ==> r == "maglog_" + stamp + ".json"
  {
    if filename.None? || Strip(filename.value) == [] then "maglog_" + stamp + ".json" else filename.value
  }

  /**
   * What one intent9 iteration keeps: nothing for an empty read; otherwise the
   * bytes decoded with replacement and stripped, then extracted brace-first.
   * A failed extraction or a document reading `null` (both Python `None`) is skipped.
   */
  function Intent9Sample(a: Arrival, loads: string -> Option<Json>): (r: Option<Json>)
    ensures r.Some? <==> !a.Idle? && BraceFirst(Strip(ReplacedText(a).value), loads).Some? &&
                         BraceFirst(Strip(ReplacedText(a).value), loads).value != JNull
    ensures r.Some? ==> r == BraceFirst(Strip(ReplacedText(a).value), loads)
  {
    match ReplacedText(a)
    case None => None
    case Some(raw) =>
      var obj := BraceFirst(Strip(raw), loads);
      if obj.Some? && obj.value != JNull then obj else None
  }

  function Intent9Keep(loads: string -> Option<Json>): Arrival -> Option<Json> {
    a => Intent9Sample(a, loads)
  }

  /**
   * One logging run. `writes` are the requests in the order written, `records`
   * the list held when the loop stops, `saved` what the single `json.dump`
   * persists (`None` when the file cannot be opened), `reported` the count the
   * success message prints.
   */
  datatype LogRun = LogRun(file: string, writes: seq<Json>, records: seq<Json>, saved: Option<seq<Json>>, reported: Option<nat>)

  /**
   * intent9.py `process`: one request per iteration, one `readline` per
   * request; an interrupt after the last write but before its read adds a
   * request with no record; the list is persisted once, after the loop.
   */
  function Intent9Process(filename: Option<string>, stamp: string, arrivals: seq<Arrival>, interruptedAfterWrite: bool,
                          canWrite: bool, loads: string -> Option<Json>): (r: LogRun)
    ensures r.file == LogFileName(filename, stamp)
    ensures |r.writes| == |arrivals| + (if interruptedAfterWrite then 1 else 0)
    ensures forall i :: 0 <= i < |r.writes| ==> r.writes[i] == MagRequest
    ensures forall i :: 0 <= i < |r.records| ==> r.records[i] != JNull
    ensures |r.records| <= |arrivals|
    ensures r.saved.Some? <==> canWrite
    ensures r.saved.Some? ==> r.saved.value == r.records && r.reported == Some(|r.records|)
    ensures r.saved.None? ==> r.reported.None?
  {
    var writes := seq(|arrivals| + (if interruptedAfterWrite then 1 else 0), _ => MagRequest);
    var records := Collect(arrivals, Intent9Keep(loads));
    CollectNoNull(arrivals, loads);
    LogRun(LogFileName(filename, stamp), writes, records,
           if canWrite then Some(records) else None,
           if canWrite then Some(|records|) else None)
  }

  lemma CollectNoNull(arrivals: seq<Arrival>, loads: string -> Option<Json>)
    ensures forall i :: 0 <= i < |Collect(arrivals, Intent9Keep(loads))| ==> Collect(arrivals, Intent9Keep(loads))[i] != JNull
  {
    var c := Collect(arrivals, Intent9Keep(loads));
    forall i | 0 <= i < |c|
      ensures c[i] != JNull
    {
      CollectMembers(arrivals, Intent9Keep(loads), c[i]);
    }
  }

  /**
   * intent9 keeps a record exactly for the reads that are non-empty and whose
   * extraction is not `None`, in arrival order.
   */
  lemma Intent9RecordsAreTheAcceptedReads(filename: Option<string>, stamp: string, arrivals: seq<Arrival>,
                                          interruptedAfterWrite: bool, canWrite: bool, loads: string -> Option<Json>, v: Json)
    ensures var r := Intent9Process(filename, stamp, arrivals, interruptedAfterWrite, canWrite, loads);
      v in r.records <==> exists i :: 0 <= i < |arrivals| && !arrivals[i].Idle? &&
                                     BraceFirst(Strip(ReplacedText(arrivals[i]).value), loads) == Some(v) && v != JNull
  {
    CollectMembers(arrivals, Intent9Keep(loads), v);
  }

  /** Logging further only appends: the records of a run extend the records of each of its prefixes. */
  lemma Intent9RecordsOnlyGrow(filename: Option<string>, stamp: string, arrivals: seq<Arrival>, more: seq<Arrival>,
                               canWrite: bool, loads: string -> Option<Json>)
    ensures var r1 := Intent9Process(filename, stamp, arrivals, false, canWrite, loads);
            var r2 := Intent9Process(filename, stamp, arrivals + more, false, canWrite, loads);
      r1.records <= r2.records
  {
    CollectAppend(arrivals, more, Intent9Keep(loads));
  }

  /**
   * helper_cli.py `intent_9_log_mag_data`: one request, then `read_json` with
   * a one-second window; a truthy response is appended (so `{}`, `[]`, `0`
   * and `null` are dropped). The name is used as typed, with no default.
   */
  function CliLogSample(window: seq<Arrival>, loads: string -> Option<Json>): (r: Option<Json>)
    ensures r.Some? <==> HelperReadJson(window, loads).Some? && Truthy(HelperReadJson(window, loads).value)
    ensures r.Some? ==> r == HelperReadJson(window, loads)
  {
    var response := HelperReadJson(window, loads);
    if response.Some? && Truthy(response.value) then response else None
  }

  function CliKeep(loads: string -> Option<Json>): seq<Arrival> -> Option<Json> {
    w => CliLogSample(w, loads)
  }

  /**
   * A response the CLI cannot print: after appending a truthy response it
   * calls `response.get(...)`, which only an object has. The AttributeError is
   * not the KeyboardInterrupt the loop catches, so the function ends there,
   * without saving, and the menu loop prints the error.
   */
  predicate Crashes(window: seq<Arrival>, loads: string -> Option<Json>) {
    CliLogSample(window, loads).Some? && !CliLogSample(window, loads).value.JObject?
  }

  /** The position of the first element satisfying `p`, if any. */
  function FirstWhere<A>(xs: seq<A>, p: A -> bool): (r: Option<nat>)
    ensures r.Some? ==> r.value < |xs| && p(xs[r.value])
    ensures r.Some? ==> forall j :: 0 <= j < r.value ==> !p(xs[j])
    ensures r.None? ==> forall j :: 0 <= j < |xs| ==> !p(xs[j])
  {
    if xs == [] then None
    else if p(xs[0]) then Some(0)
    else
      var rest := FirstWhere(xs[1..], p);
      assert forall j :: 1 <= j < |xs| ==> xs[1..][j - 1] == xs[j];
      if rest.Some? then Some(rest.value + 1) else None
  }

  /** The first window whose response crashes the CLI logger, if any. */
  function FirstCrash(windows: seq<seq<Arrival>>, loads: string -> Option<Json>): (r: Option<nat>)
    ensures r.Some? ==> r.value < |windows| && Crashes(windows[r.value], loads)
    ensures r.Some? ==> forall j :: 0 <= j < r.value ==> !Crashes(windows[j], loads)
    ensures r.None? ==> forall j :: 0 <= j < |windows| ==> !Crashes(windows[j], loads)
  {
    FirstWhere(windows, w => Crashes(w, loads))
  }

  /**
   * helper_cli.py `intent_9_log_mag_data` over the windows it gets to read:
   * all of them when every truthy response is an object, and otherwise up to
   * and including the first that is not, where the run ends unsaved.
   */
  function CliLogMagData(fileName: string, windows: seq<seq<Arrival>>, interruptedAfterWrite: bool, canWrite: bool,
                         loads: string -> Option<Json>): (r: LogRun)
    ensures r.file == fileName
    ensures FirstCrash(windows, loads).None? ==>
      |r.writes| == |windows| + (if interruptedAfterWrite then 1 else 0)
    ensures FirstCrash(windows, loads).Some? ==>
      && |r.writes| == FirstCrash(windows, loads).value + 1
      && r.records != []
      && r.records[|r.records| - 1] == CliLogSample(windows[FirstCrash(windows, loads).value], loads).value
    ensures forall i :: 0 <= i < |r.writes| ==> r.writes[i] == MagRequest
    ensures forall i :: 0 <= i < |r.records| ==> Truthy(r.records[i])
    ensures |r.records| <= |r.writes|
    ensures r.saved.Some? <==> canWrite && FirstCrash(windows, loads).None?
    ensures r.saved.Some? ==> r.saved.value == r.records
    ensures r.reported.None?
  {
    var crash := FirstCrash(windows, loads);
    var read := if crash.Some? then windows[..crash.value + 1] else windows;
    var records := Collect(read, CliKeep(loads));
    CliRecordsTruthy(read, loads);
    if crash.Some? then
      CrashIsLastRecord(windows, crash.value, loads);
      LogRun(fileName, seq(|read|, _ => MagRequest), records, None, None)
    else
      LogRun(fileName, seq(|windows| + (if interruptedAfterWrite then 1 else 0), _ => MagRequest), records,
             if canWrite then Some(records) else None, None)
  }

  lemma CliRecordsTruthy(windows: seq<seq<Arrival>>, loads: string -> Option<Json>)
    ensures forall i :: 0 <= i < |Collect(windows, CliKeep(loads))| ==> Truthy(Collect(windows, CliKeep(loads))[i])
  {
    var records := Collect(windows, CliKeep(loads));
    forall i | 0 <= i < |records|
      ensures Truthy(records[i])
    {
      CollectMembers(windows, CliKeep(loads), records[i]);
    }
  }

  /** The crashing response is appended before the print fails, so it is the last record. */
  lemma CrashIsLastRecord(windows: seq<seq<Arrival>>, k: nat, loads: string -> Option<Json>)
    requires k < |windows| && Crashes(windows[k], loads)
    ensures var records := Collect(windows[..k + 1], CliKeep(loads));
      records != [] && records[|records| - 1] == CliLogSample(windows[k], loads).value
  {
    assert windows[..k + 1] == windows[..k] + [windows[k]];
    CollectSnoc(windows[..k], windows[k], CliKeep(loads));
  }

  /**
   * The CLI records exactly the truthy responses of the windows it reads:
   * every window when no response crashes it, and otherwise those up to and
   * including the first crash.
   */
  lemma CliRecordsAreTheTruthyResponses(fileName: string, windows: seq<seq<Arrival>>, canWrite: bool,
                                        loads: string -> Option<Json>, v: Json)
    ensures v in CliLogMagData(fileName, windows, false, canWrite, loads).records <==>
            exists i :: 0 <= i < |windows| && HelperReadJson(windows[i], loads) == Some(v) && Truthy(v) &&
                        (FirstCrash(windows, loads).None? || i <= FirstCrash(windows, loads).value)
  {
    var crash := FirstCrash(windows, loads);
    var read := if crash.Some? then windows[..crash.value + 1] else windows;
    CollectMembers(read, CliKeep(loads), v);
    assert forall i :: 0 <= i < |read| ==> read[i] == windows[i];
    if v in CliLogMagData(fileName, windows, false, canWrite, loads).records {
      var i :| 0 <= i < |read| && CliKeep(loads)(read[i]) == Some(v);
      assert HelperReadJson(windows[i], loads) == Some(v) && Truthy(v);
    }
    if exists i :: 0 <= i < |windows| && HelperReadJson(windows[i], loads) == Some(v) && Truthy(v) &&
                   (crash.None? || i <= crash.value) {
      var i :| 0 <= i < |windows| && HelperReadJson(windows[i], loads) == Some(v) && Truthy(v) &&
               (crash.None? || i <= crash.value);
      assert CliKeep(loads)(read[i]) == Some(v);
    }
  }

  /**
   * A truthy non-object response in any window loses the whole log: nothing
   * is saved, and no window after it is requested.
   */
  lemma CliCrashLosesTheLog(fileName: string, windows: seq<seq<Arrival>>, interruptedAfterWrite: bool, canWrite: bool,
                            loads: string -> Option<Json>, k: nat)
    requires k < |windows| && Crashes(windows[k], loads)
    ensures var r := CliLogMagData(fileName, windows, interruptedAfterWrite, canWrite, loads);
      r.saved.None? && |r.writes| <= k + 1
  {
    var crash := FirstCrash(windows, loads);
    assert crash.Some? && crash.value <= k;
  }

  /** A single outcome is recorded exactly when it yields a value. */
  lemma CollectOne<A>(x: A, keep: A -> Option<Json>)
    ensures Collect([x], keep) == Listed(keep(x))
  {
    CollectSnoc([], x, keep);
    assert [] + [x] == [x];
  }

  /** Collecting a sequence with one more element in front. */
  lemma CollectFront<A>(xs: seq<A>, keep: A -> Option<Json>)
    requires xs != []
    ensures Collect(xs, keep) == Listed(keep(xs[0])) + Collect(xs[1..], keep)
  {
    assert xs == [xs[0]] + xs[1..];
    CollectAppend([xs[0]], xs[1..], keep);
    CollectOne(xs[0], keep);
  }

  /**
   * The two tools disagree on what a logged sample is: a line that is a
   * document with noise around it is logged by intent9 and dropped by the CLI.
   */
  lemma NoisySampleLoggedOnlyByIntent9(pre: string, doc: string, post: string, loads: string -> Option<Json>)
    requires '{' !in pre && '}' !in post && |doc| >= 2 && doc[0] == '{' && doc[|doc| - 1] == '}'
    requires Strip(pre + doc + post) == pre + doc + post
    requires loads(doc).Some? && Truthy(loads(doc).value) && loads(pre + doc + post).None?
    ensures Intent9Process(None, "", [Line(pre + doc + post)], false, true, loads).records == [loads(doc).value]
    ensures CliLogMagData("log.json", [[Line(pre + doc + post)]], false, true, loads).records == []
  {
    var t := pre + doc + post;
    NoisyLineIntent9(pre, doc, post, loads);
    CollectOne(Line(t), Intent9Keep(loads));
    NoisyLineCli(t, loads);
    CollectOne([Line(t)], CliKeep(loads));
  }

  lemma NoisyLineIntent9(pre: string, doc: string, post: string, loads: string -> Option<Json>)
    requires '{' !in pre && '}' !in post && |doc| >= 2 && doc[0] == '{' && doc[|doc| - 1] == '}'
    requires Strip(pre + doc + post) == pre + doc + post
    requires loads(doc).Some? && loads(doc).value != JNull
    ensures Intent9Sample(Line(pre + doc + post), loads) == loads(doc)
  {
    var t := pre + doc + post;
    BraceSpanOfFramed(pre, doc, post);
    assert ReplacedText(Line(t)) == Some(t);
    assert BraceFirst(t, loads) == loads(doc);
  }

  lemma NoisyLineCli(t: string, loads: string -> Option<Json>)
    requires Strip(t) == t && loads(t).None?
    ensures CliLogSample([Line(t)], loads).None?
  {
    var w := [Line(t)];
    assert HelperLineValue(w[0], loads).None?;
    assert HelperReadJson(w, loads).None?;
  }
}

=== FILE: reads.dfy ===
/**
 * Reading responses from the port. A read window (what arrives before the
 * timeout) is a finite sequence of `Arrival`s, one per `readline` call; the
 * end of the sequence stands for the timeout.
 */
module Reads {
  import opened Wrappers
  import opened Text
  import opened JsonData
  import opened Extract

  /**
   * One `readline`: nothing (`Idle`: no byte waiting or an empty read), a line
   * that is valid UTF-8, or bytes that are not; `replaced` is what
   * `decode('utf-8', errors='replace')` makes of them.
   */
  datatype Arrival = Idle | Line(text: string) | Undecodable(replaced: string)

  /** The value of the first element `f` yields one for; `None` when it yields none. */
  function FirstSome<A>(xs: seq<A>, f: A -> Option<Json>): (r: Option<Json>)
    ensures r.Some? ==> exists i :: 0 <= i < |xs| && f(xs[i]) == r && forall j :: 0 <= j < i ==> f(xs[j]).None?
    ensures r.None? <==> forall i :: 0 <= i < |xs| ==> f(xs[i]).None?
  {
    if xs == [] then None
    else match f(xs[0])
      case Some(v) => Some(v)
      case None =>
        var r := FirstSome(xs[1..], f);
        assert forall i :: 1 <= i < |xs| ==> xs[i] == xs[1..][i - 1];
        if r.Some? then
          var i :| 0 <= i < |xs| - 1 && f(xs[1..][i]) == r && forall j :: 0 <= j < i ==> f(xs[1..][j]).None?;
          assert f(xs[i + 1]) == r;
          r
        else r
  }

  /**
   * What `read_json` of helper_gui / helper_cli makes of one arrival: strict
   * decoding (undecodable bytes are a read error and skipped), blank lines
   * skipped, and a whole-line parse whose failure is logged and skipped.
   */
  function HelperLineValue(a: Arrival, loads: string -> Option<Json>): (r: Option<Json>)
    ensures r.Some? <==> a.Line? && Strip(a.text) != [] && WholeLine(Strip(a.text), loads).Some?
    ensures r.Some? ==> r == loads(Strip(a.text))
  {
    match a
    case Line(t) => if Strip(t) != [] then WholeLine(Strip(t), loads) else None
    case _ => None
  }

  /** `read_json` of helper_cli (and of helper_gui once connected): the first accepted line's value, `None` at timeout. */
  function HelperReadJson(window: seq<Arrival>, loads: string -> Option<Json>): (r: Option<Json>)
    ensures r.Some? ==> exists i :: 0 <= i < |window| && HelperLineValue(window[i], loads) == r &&
                                   forall j :: 0 <= j < i ==> HelperLineValue(window[j], loads).None?
    ensures r.None? <==> forall i :: 0 <= i < |window| ==> HelperLineValue(window[i], loads).None?
  {
    FirstSome(window, a => HelperLineValue(a, loads))
  }

  /** The text a reader decoding with `errors='replace'` gets; `None` for an empty read. */
  function ReplacedText(a: Arrival): Option<string> {
    match a
    case Idle => None
    case Line(t) => Some(t)
    case Undecodable(r) => Some(r)
  }

  /**
   * What intent6's read loop makes of one arrival: empty reads and blank lines
   * are skipped, and a value counts only when it is not Python's `None`
   * (a line reading `null` is skipped too).
   */
  function Intent6ArrivalValue(a: Arrival, loads: string -> Option<Json>): (r: Option<Json>)
    ensures r.Some? ==> r.value != JNull
    ensures r.Some? <==> ReplacedText(a).Some? && Strip(ReplacedText(a).value) != [] &&
                         WholeFirst(Strip(ReplacedText(a).value), loads).Some? &&
                         WholeFirst(Strip(ReplacedText(a).value), loads).value != JNull
    ensures r.Some? ==> r == WholeFirst(Strip(ReplacedText(a).value), loads)
  {
    match ReplacedText(a)
    case None => None
    case Some(raw) =>
      var text := Strip(raw);
      if text == [] then None
      else
        var obj := WholeFirst(text, loads);
        if obj.Some? && obj.value != JNull then obj else None
  }

  /** intent6 calls `_read_json_from_lines` on a one-line list, which is the one-line decoder. */
  lemma OneLine(text: string, loads: string -> Option<Json>)
    ensures ReadJsonFromLines([text], loads) == WholeFirst(text, loads)
  {
    assert [text][1..] == [];
  }

  /** The request intent6 writes at the start of every round. */
  const StatusRequest: Json := Command(6, [])

  /** A single-shot intent-6 exchange: exactly one request written, and the first decoded object, or `None` when the window ends. */
  datatype Exchange = Exchange(writes: seq<Json>, response: Option<Json>)

  function Intent6SingleShot(window: seq<Arrival>, loads: string -> Option<Json>): (r: Exchange)
    ensures r.writes == [StatusRequest]
    ensures r.response.Some? ==> exists i :: 0 <= i < |window| && Intent6ArrivalValue(window[i], loads) == r.response &&
                                            forall j :: 0 <= j < i ==> Intent6ArrivalValue(window[j], loads).None?
    ensures r.response.None? <==> forall i :: 0 <= i < |window| ==> Intent6ArrivalValue(window[i], loads).None?
  {
    Exchange([StatusRequest], FirstSome(window, a => Intent6ArrivalValue(a, loads)))
  }

  /** An answer that ends the interactive intent-6 session. */
  predicate IsReturnChoice(answer: string) {
    var c := Fold(Strip(answer));
    c == "r" || c == "return" || c == "q" || c == "exit"
  }

  /** One interactive round: the read window of the request, then the user's answer. */
  datatype Round = Round(window: seq<Arrival>, answer: string)

  datatype Session = Session(writes: seq<Json>, shown: seq<Json>, returned: bool)

  /** What one interactive round displays: the object its window decodes, if any. */
  function RoundShown(round: Round, loads: string -> Option<Json>): (r: seq<Json>)
    ensures |r| <= 1
  {
    var v := Intent6SingleShot(round.window, loads).response;
    if v.Some? then [v.value] else []
  }

  /** The index of the first round whose answer ends the session; `|rounds|` when none does. */
  function FirstReturn(rounds: seq<Round>): (n: nat)
    ensures n <= |rounds|
    ensures forall i :: 0 <= i < n ==> !IsReturnChoice(rounds[i].answer)
    ensures n < |rounds| ==> IsReturnChoice(rounds[n].answer)
  {
    if rounds == [] then 0
    else if IsReturnChoice(rounds[0].answer) then 0
    else
      var n := FirstReturn(rounds[1..]);
      assert forall i :: 1 <= i < |rounds| ==> rounds[i] == rounds[1..][i - 1];
      n + 1
  }

  /** What the rounds display, in order. */
  function ShownOf(rounds: seq<Round>, loads: string -> Option<Json>): (r: seq<Json>)
    ensures |r| <= |rounds|
  {
    if rounds == [] then [] else RoundShown(rounds[0], loads) + ShownOf(rounds[1..], loads)
  }

  /**
   * Interactive intent 6: each round writes one request and shows the object
   * it decodes, if any; the session returns at the first answer that is
   * `r`/`return`/`q`/`exit` and keeps requesting otherwise.
   */
  function Intent6Interactive(rounds: seq<Round>, loads: string -> Option<Json>): (r: Session)
    ensures |r.writes| <= |rounds| && |r.shown| <= |r.writes|
    ensures forall i :: 0 <= i < |r.writes| ==> r.writes[i] == StatusRequest
    ensures forall i :: 0 <= i < |r.writes| - 1 ==> !IsReturnChoice(rounds[i].answer)
    ensures !r.returned ==> forall i :: 0 <= i < |rounds| ==> !IsReturnChoice(rounds[i].answer)
    ensures r.returned ==> |r.writes| > 0 && IsReturnChoice(rounds[|r.writes| - 1].answer)
    ensures !r.returned ==> |r.writes| == |rounds|
  {
    var n := FirstReturn(rounds);
    var k := if n < |rounds| then n + 1 else |rounds|;
    Session(seq(k, _ => StatusRequest), ShownOf(rounds[..k], loads), n < |rounds|)
  }

  /**
   * intent6 gets a response whenever the helpers' `read_json` gets one that is
   * not `null`: it accepts every line they accept, decodes undecodable bytes
   * instead of skipping them, and falls back to the brace span.
   */
  lemma Intent6AcceptsWhatHelperAccepts(window: seq<Arrival>, loads: string -> Option<Json>)
    requires HelperReadJson(window, loads).Some? && HelperReadJson(window, loads).value != JNull
    ensures Intent6SingleShot(window, loads).response.Some?
  {
    var r := HelperReadJson(window, loads);
    var i :| 0 <= i < |window| && HelperLineValue(window[i], loads) == r;
    ArrivalAccepted(window[i], loads);
  }

  lemma ArrivalAccepted(a: Arrival, loads: string -> Option<Json>)
    requires HelperLineValue(a, loads).Some? && HelperLineValue(a, loads).value != JNull
    ensures Intent6ArrivalValue(a, loads) == HelperLineValue(a, loads)
  {
    var t := Strip(a.text);
    assert a == Line(a.text);
    assert HelperLineValue(a, loads) == loads(t);
    assert WholeFirst(t, loads) == loads(t);
    assert ReplacedText(a) == Some(a.text);
  }
}

=== FILE: steering.dfy ===
/**
 * goTo.cpp: drive towards a target with tank steering. GPS readings, the
 * distance to the target and the course to it come from TinyGPSPlus and are
 * inputs here; doubles are modelled as reals.
 */
module Steering {
  import opened Config
  import opened Motors

  /** C's conversion of a double to `int`: toward zero. */
  function Trunc(x: real): (r: int)
    ensures x >= 0.0 ==> r >= 0 && r as real <= x < r as real + 1.0
    ensures x < 0.0 ==> r <= 0 && r as real - 1.0 < x <= r as real
  {
    if x >= 0.0 then x.Floor else -((-x).Floor)
  }

  function RealAbs(x: real): (r: real)
    ensures r >= 0.0 && (r == x || r == -x)
  {
    if x < 0.0 then -x else x
  }

  /**
   * The course error folded into [-180, 180]: one subtraction of 360 when
   * above 180, then one addition of 360 when below -180. Any difference of two
   * courses in [0, 360) lies in the range it folds.
   */
  function Normalise(err: real): (r: real)
    ensures r == err || r == err - 360.0 || r == err + 360.0
    ensures -540.0 < err <= 540.0 ==> -180.0 <= r <= 180.0
    ensures -180.0 <= err <= 180.0 ==> r == err
  {
    var e := if err > 180.0 then err - 360.0 else err;
    if e < -180.0 then e + 360.0 else e
  }

  /** The course error between two courses given in [0, 360). */
  lemma CourseErrorBounded(target: real, course: real)
    requires 0.0 <= target < 360.0 && 0.0 <= course < 360.0
    ensures -180.0 <= Normalise(target - course) <= 180.0
  {
  }

  /** How much the inner wheel is slowed: `(int)(abs(err) / 180.0 * speed / 2)`. */
  function Reduction(err: real, speed: int): int {
    Trunc(RealAbs(err) / 180.0 * speed as real / 2.0)
  }

  /** With a non-negative speed and a folded error, the inner wheel loses at most half the speed. */
  lemma ReductionBounded(err: real, speed: int)
    requires speed >= 0 && -180.0 <= err <= 180.0
    ensures 0 <= Reduction(err, speed) <= speed / 2
  {
    var a := RealAbs(err) / 180.0;
    assert 0.0 <= a <= 1.0;
    var x := a * speed as real / 2.0;
    assert 0.0 <= a * speed as real <= speed as real by {
      assert a * speed as real <= 1.0 * speed as real;
    }
    assert 0.0 <= x <= speed as real / 2.0;
    var red := Reduction(err, speed);
    assert red as real <= x;
    assert 2 * red <= speed;
  }

  /** The wheel commands before the clamp: the wheel on the side to turn towards is slowed. */
  function Steer(err: real, speed: int): (r: (int, int))
    ensures err > 0.0 ==> r.0 == speed && r.0 - r.1 == Reduction(err, speed)
    ensures err < 0.0 ==> r.1 == speed && r.1 - r.0 == Reduction(err, speed)
    ensures err == 0.0 ==> r == (speed, speed)
  {
    if err > 0.0 then (speed, speed - Reduction(err, speed))
    else if err < 0.0 then (speed - Reduction(err, speed), speed)
    else (speed, speed)
  }

  /** `constrain(x, 0, 100)`. */
  function Clamp(x: int): (r: int)
    ensures 0 <= r <= 100
    ensures 0 <= x <= 100 ==> r == x
    ensures x < 0 ==> r == 0
    ensures x > 100 ==> r == 100
  {
    if x < 0 then 0 else if x > 100 then 100 else x
  }

  /**
   * For a speed in [0, 100] and a folded error, the outer wheel runs at the
   * speed, the inner one at no less than half of it, and the clamp changes
   * nothing.
   */
  lemma SteerWithinRange(err: real, speed: int)
    requires 0 <= speed <= 100 && -180.0 <= err <= 180.0
    ensures var (l, r) := Steer(err, speed);
      && Clamp(l) == l && Clamp(r) == r
      && (err >= 0.0 ==> r <= l == speed && speed - r <= speed / 2)
      && (err <= 0.0 ==> l <= r == speed && speed - l <= speed / 2)
  {
    ReductionBounded(err, speed);
  }

  /** One GPS reading: no valid location and course, or the distance to the target and both courses. */
  datatype Fix = NoFix | Fix(distance: real, courseToTarget: real, course: real)

  /** What one pass of the loop body decides: stop and return, or drive on. */
  datatype Decision = Stop | Drive(left: int, right: int)

  /**
   * One loop pass: without a valid fix, or once within `range` of the
   * target, both wheels stop and `goTo` returns; otherwise the clamped
   * steering of the folded error is applied.
   */
  function GoToStep(fix: Fix, speed: int, range: real): (d: Decision)
    ensures d == Stop <==> fix.NoFix? || fix.distance <= range
    ensures d.Drive? ==> 0 <= d.left <= 100 && 0 <= d.right <= 100
    ensures d.Drive? ==> var (l, r) := Steer(Normalise(fix.courseToTarget - fix.course), speed);
                         d.left == Clamp(l) && d.right == Clamp(r)
  {
    if fix.NoFix? || fix.distance <= range then Stop
    else
      var (l, r) := Steer(Normalise(fix.courseToTarget - fix.course), speed);
      Drive(Clamp(l), Clamp(r))
  }

  /**
   * With GPS courses in [0, 360) and a speed in [0, 100] the clamp never
   * bites: the applied commands are the steering rule's, the outer wheel at
   * the speed and the inner one slowed by the reduction.
   */
  lemma GoToStepUnclamped(fix: Fix, speed: int, range: real)
    requires fix.Fix? && fix.distance > range && 0 <= speed <= 100
    requires 0.0 <= fix.courseToTarget < 360.0 && 0.0 <= fix.course < 360.0
    ensures var err := Normalise(fix.courseToTarget - fix.course);
      GoToStep(fix, speed, range) == Drive(Steer(err, speed).0, Steer(err, speed).1)
  {
    var err := Normalise(fix.courseToTarget - fix.course);
    CourseErrorBounded(fix.courseToTarget, fix.course);
    SteerWithinRange(err, speed);
  }

  /** What the loop sees at the top of a pass: the busy flag cleared by another task, or a reading. */
  datatype Tick = Cleared | Reading(fix: Fix)

  /** How `goTo` ended: still running when the ticks ran out, the flag was cleared, or it returned. */
  datatype Exit = Running | FlagCleared | Returned

  datatype GoToRun = GoToRun(outputs: Outputs, applied: seq<(int, int)>, exit: Exit)

  /**
   * `goTo`: passes run while the flag stays set; each one either stops the
   * wheels and returns, or applies the next clamped wheel commands.
   */
  function GoTo(o: Outputs, ticks: seq<Tick>, speed: int, range: real): (r: GoToRun)
    ensures |r.applied| <= |ticks|
    ensures forall i :: 0 <= i < |r.applied| ==> 0 <= r.applied[i].0 <= 100 && 0 <= r.applied[i].1 <= 100
    ensures r.exit == Returned ==> r.outputs == Centered
    ensures r.exit == Running ==> |r.applied| == |ticks|
    ensures r.exit != Returned && r.applied != [] ==>
              r.outputs == SetMotors(o, r.applied[|r.applied| - 1].0, r.applied[|r.applied| - 1].1)
    ensures r.exit != Returned && r.applied == [] ==> r.outputs == o
    decreases |ticks|
  {
    if ticks == [] then GoToRun(o, [], Running)
    else match ticks[0]
      case Cleared => GoToRun(o, [], FlagCleared)
      case Reading(fix) =>
        match GoToStep(fix, speed, range)
        case Stop =>
          StoppedIsCentered(o);
          GoToRun(SetMotors(o, 0, 0), [], Returned)
        case Drive(l, rt) =>
          var rest := GoTo(SetMotors(o, l, rt), ticks[1..], speed, range);
          GoToRun(rest.outputs, [(l, rt)] + rest.applied, rest.exit)
  }

  /** Every reading the loop applied was a valid fix outside the range; the wheels only move while the target is not reached. */
  lemma {:induction false} GoToDrivesOnlyOutsideRange(o: Outputs, ticks: seq<Tick>, speed: int, range: real)
    ensures var r := GoTo(o, ticks, speed, range);
      forall i :: 0 <= i < |r.applied| ==> ticks[i].Reading? && ticks[i].fix.Fix? && ticks[i].fix.distance > range
    decreases |ticks|
  {
    if ticks != [] && ticks[0].Reading? && GoToStep(ticks[0].fix, speed, range).Drive? {
      var d := GoToStep(ticks[0].fix, speed, range);
      GoToDrivesOnlyOutsideRange(SetMotors(o, d.left, d.right), ticks[1..], speed, range);
      var rest := GoTo(SetMotors(o, d.left, d.right), ticks[1..], speed, range);
      var r := GoTo(o, ticks, speed, range);
      assert r.applied == [(d.left, d.right)] + rest.applied;
      forall i | 1 <= i < |r.applied|
        ensures ticks[i].Reading? && ticks[i].fix.Fix? && ticks[i].fix.distance > range
      {
        assert r.applied[i] == rest.applied[i - 1];
        assert ticks[1..][i - 1] == ticks[i];
      }
    }
  }

  /** The task's state after `executePlainGoTo`: the outputs, the busy flag, what was applied and whether it ended. */
  datatype TaskRun = TaskRun(outputs: Outputs, motorHandled: bool, applied: seq<(int, int)>, finished: bool)

  /**
   * `executePlainGoTo`: the flag is set, the speed parameter is truncated to
   * `int`, `goTo` runs, and `endMotorTask` zeroes both wheels and clears the
   * flag. The target's latitude and longitude only reach the GPS distance and
   * course, which are inputs here.
   */
  function ExecutePlainGoTo(o: Outputs, params: seq<real>, ticks: seq<Tick>): (r: TaskRun)
    requires |params| >= 4
    ensures r.finished ==> r.outputs == Centered && !r.motorHandled
    ensures !r.finished ==> r.motorHandled && |r.applied| == |ticks|
    ensures r.applied == GoTo(o, ticks, Trunc(params[2]), params[3]).applied
    ensures forall i :: 0 <= i < |r.applied| ==> 0 <= r.applied[i].0 <= 100 && 0 <= r.applied[i].1 <= 100
  {
    var speed := Trunc(params[2]);
    var run := GoTo(o, ticks, speed, params[3]);
    if run.exit == Running then TaskRun(run.outputs, true, run.applied, false)
    else
      var (stopped, handled) := EndMotorTask(run.outputs);
      TaskRun(stopped, handled, run.applied, true)
  }
}

=== FILE: text.dfy ===
/**
 * Character-level helpers shared by the host tools: Python's notion of
 * whitespace, `str.strip()`, ASCII case folding, `str.find` / `str.rfind`
 * on one character, and exact search for a fixed tag.
 */
module Text {
  import opened Wrappers

  /** `str.isspace()` for one character (the characters CPython treats as whitespace). */
  predicate IsSpace(c: char) {
    || c == ' '
    || ('\t' <= c <= '\r')
    || ('\U{1c}' <= c <= '\U{1f}')
    || c == '\U{85}' || c == '\U{a0}' || c == '\U{1680}'
    || ('\U{2000}' <= c <= '\U{200a}')
    || c == '\U{2028}' || c == '\U{2029}' || c == '\U{202f}' || c == '\U{205f}' || c == '\U{3000}'
  }

  ghost predicate AllSpace(s: string) {
    forall k :: 0 <= k < |s| ==> IsSpace(s[k])
  }

  /** Drops leading whitespace. */
  function TrimLeft(s: string): (r: string)
    ensures |r| <= |s| && r == s[|s| - |r|..]
    ensures forall k :: 0 <= k < |s| - |r| ==> IsSpace(s[k])
    ensures r == [] || !IsSpace(r[0])
  {
    if s == [] || !IsSpace(s[0]) then s
    else
      var r := TrimLeft(s[1..]);
      assert forall k :: 1 <= k < |s| ==> s[k] == s[1..][k - 1];
      r
  }

  /** Drops trailing whitespace. */
  function TrimRight(s: string): (r: string)
    ensures |r| <= |s| && r == s[..|r|]
    ensures forall k :: |r| <= k < |s| ==> IsSpace(s[k])
    ensures r == [] || !IsSpace(r[|r| - 1])
  {
    if s == [] || !IsSpace(s[|s| - 1]) then s
    else
      var r := TrimRight(s[..|s| - 1]);
      assert forall k :: 0 <= k < |s| - 1 ==> s[k] == s[..|s| - 1][k];
      r
  }

  /** `str.strip()`: the longest infix that neither starts nor ends with whitespace, whitespace only around it. */
  function Strip(s: string): (r: string)
    ensures |r| <= |s|
    ensures r == [] || (!IsSpace(r[0]) && !IsSpace(r[|r| - 1]))
  {
    if s != [] && IsSpace(s[0]) then Strip(s[1..]) else TrimRight(s)
  }

  /** Stripping is trimming the left end, then the right end. */
  lemma {:induction false} StripIsTrim(s: string)
    ensures Strip(s) == TrimRight(TrimLeft(s))
  {
    if s != [] && IsSpace(s[0]) {
      StripIsTrim(s[1..]);
    }
  }

  lemma {:induction false} StripOfSpaces(s: string)
    requires AllSpace(s)
    ensures Strip(s) == []
    decreases |s|
  {
    if s != [] {
      StripOfSpaces(s[1..]);
    }
  }

  lemma {:induction false} TrimRightOfPadded(c: string, post: string)
    requires c != [] && !IsSpace(c[|c| - 1]) && AllSpace(post)
    ensures TrimRight(c + post) == c
    decreases |post|
  {
    if post == [] {
      assert c + post == c;
    } else {
      var s := c + post;
      assert s[|s| - 1] == post[|post| - 1];
      assert s[..|s| - 1] == c + post[..|post| - 1];
      TrimRightOfPadded(c, post[..|post| - 1]);
    }
  }

  /** Whitespace around a text that neither starts nor ends with whitespace is exactly what `Strip` removes. */
  lemma {:induction false} StripOfPadded(pre: string, c: string, post: string)
    requires AllSpace(pre) && AllSpace(post)
    requires c == [] || (!IsSpace(c[0]) && !IsSpace(c[|c| - 1]))
    ensures Strip(pre + c + post) == c
    decreases |pre|
  {
    var s := pre + c + post;
    if pre != [] {
      assert s[0] == pre[0];
      assert s[1..] == pre[1..] + c + post;
      StripOfPadded(pre[1..], c, post);
    } else if c == [] {
      assert s == post;
      StripOfSpaces(post);
    } else {
      assert s == c + post && s[0] == c[0];
      TrimRightOfPadded(c, post);
    }
  }

  /** ASCII upper-case letters folded to lower case; every other character unchanged. */
  function Lower(c: char): (d: char)
    ensures 'A' <= c <= 'Z' ==> d as int == c as int + 32
    ensures !('A' <= c <= 'Z') ==> d == c
  {
    if 'A' <= c <= 'Z' then (c as int + 32) as char else c
  }

  /** `s` with every ASCII letter folded to lower case. */
  function Fold(s: string): (r: string)
    ensures |r| == |s| && forall k :: 0 <= k < |s| ==> r[k] == Lower(s[k])
  {
    seq(|s|, k requires 0 <= k < |s| => Lower(s[k]))
  }

  /** `pat` occurs at position `p` of `text`, character for character. */
  predicate ExactAt(text: string, pat: string, p: int) {
    0 <= p && p + |pat| <= |text| && text[p..p + |pat|] == pat
  }

  /** `pat` occurs at position `p` of `text`, ignoring letter case. */
  predicate MatchesAt(text: string, pat: string, p: int) {
    ExactAt(Fold(text), Fold(pat), p)
  }

  /** The first exact occurrence of `pat` at or after `from`. */
  function FindExact(text: string, pat: string, from: nat): (r: Option<nat>)
    ensures r.Some? ==> from <= r.value && ExactAt(text, pat, r.value)
    ensures r.Some? ==> forall p :: from <= p < r.value ==> !ExactAt(text, pat, p)
    ensures r.None? ==> forall p :: from <= p ==> !ExactAt(text, pat, p)
    decreases |text| - from
  {
    if from + |pat| > |text| then None
    else if text[from..from + |pat|] == pat then Some(from)
    else FindExact(text, pat, from + 1)
  }

  /** `s.find(c)`: the first index of `c`, or -1. */
  function IndexOf(s: string, c: char): (r: int)
    ensures r == -1 <==> c !in s
    ensures r != -1 ==> 0 <= r < |s| && s[r] == c && c !in s[..r]
  {
    if s == [] then -1
    else if s[0] == c then 0
    else
      var r := IndexOf(s[1..], c);
      assert s == [s[0]] + s[1..];
      if r == -1 then -1
      else
        assert s[..r + 1] == [s[0]] + s[1..][..r];
        r + 1
  }

  /** `s.rfind(c)`: the last index of `c`, or -1. */
  function LastIndexOf(s: string, c: char): (r: int)
    ensures r == -1 <==> c !in s
    ensures r != -1 ==> 0 <= r < |s| && s[r] == c && c !in s[r + 1..]
  {
    if s == [] then -1
    else if s[|s| - 1] == c then |s| - 1
    else
      var r := LastIndexOf(s[..|s| - 1], c);
      assert s == s[..|s| - 1] + [s[|s| - 1]];
      if r == -1 then -1
      else
        assert s[r + 1..] == s[..|s| - 1][r + 1..] + [s[|s| - 1]];
        r
  }
}

=== FILE: waypoints.dfy ===
/**
 * The host-side waypoint uploads: the documents built from a KML file's
 * parsed floats by `intent0.process`, `intent5.process`, the GUI's
 * `upload_kml` and the CLI's `intent_5_upload_coordinates`. They differ only
 * in the header they put in front of the coordinates.
 */
module Waypoints {
  import opened Wrappers
  import opened Text
  import opened JsonData
  import opened Kml

  /** The parsed floats as JSON array items, one for one. */
  function FloatItems(xs: seq<Float>): (r: seq<Json>)
    ensures |r| == |xs|
    ensures forall i :: 0 <= i < |xs| ==> r[i] == JFloat(xs[i])
  {
    seq(|xs|, i requires 0 <= i < |xs| => JFloat(xs[i]))
  }

  /** `{"intent": k, "coordinates": items}` */
  function CoordinatesCommand(intent: int, items: seq<Json>): Json {
    Command(intent, [("coordinates", JArray(items))])
  }

  /** The array of intent 0: the count of parsed floats (not of pairs), then the floats. */
  function Intent0Items(parsed: seq<Float>): seq<Json> {
    [JInt(|parsed|)] + FloatItems(parsed)
  }

  /** The array of an intent-5 upload: a header, the speed, the range, then the floats. */
  function UploadItems(header: Json, speed: Float, range: Float, parsed: seq<Float>): seq<Json> {
    [header, JFloat(speed), JFloat(range)] + FloatItems(parsed)
  }

  /** The header `len(coords) // 2` of intent5.py and the GUI: an integer, rounded down. */
  function FloorHalfHeader(parsed: seq<Float>): Json {
    JInt(|parsed| / 2)
  }

  /** The header `len(kml_array) / 2` of the CLI: true division, so always a float. */
  function TrueHalfHeader(parsed: seq<Float>): Json {
    JFloat(Finite(|parsed| as real / 2.0))
  }

  /** The fields of an upload array, read back the way the controller is meant to read them. */
  datatype Upload = Upload(header: Json, speed: Float, range: Float, coords: seq<Float>)

  /** Reads an upload array: three header slots followed by floats; `None` for any other shape. */
  function ReadUpload(items: seq<Json>): (r: Option<Upload>)
    ensures r.Some? ==> |items| == |r.value.coords| + 3
    ensures r.Some? ==> items[0] == r.value.header
    ensures r.None? ==> |items| < 3 || !items[1].JFloat? || !items[2].JFloat? ||
                        exists i :: 3 <= i < |items| && !items[i].JFloat?
  {
    if |items| < 3 || !items[1].JFloat? || !items[2].JFloat? then None
    else if forall i :: 3 <= i < |items| ==> items[i].JFloat? then
      Some(Upload(items[0], items[1].f, items[2].f, seq(|items| - 3, i requires 0 <= i < |items| - 3 => items[i + 3].f)))
    else None
  }

  /** Round trip: every upload array gives back its header, speed, range and the coordinates unchanged and in order. */
  lemma ReadUploadItems(header: Json, speed: Float, range: Float, parsed: seq<Float>)
    ensures ReadUpload(UploadItems(header, speed, range, parsed)) == Some(Upload(header, speed, range, parsed))
  {
    var items := UploadItems(header, speed, range, parsed);
    assert forall i :: 3 <= i < |items| ==> items[i] == JFloat(parsed[i - 3]);
    var r := ReadUpload(items);
    assert r.value.coords == parsed;
  }

  /** The first answer that `read` accepts, with the number of answers consumed up to and including it. */
  function FirstAccepted(answers: seq<string>, read: string -> Option<Float>): (r: Option<(Float, nat)>)
    ensures r.Some? ==> 0 < r.value.1 <= |answers| && read(answers[r.value.1 - 1]) == Some(r.value.0)
    ensures r.Some? ==> forall i :: 0 <= i < r.value.1 - 1 ==> read(answers[i]).None?
    ensures r.None? ==> forall i :: 0 <= i < |answers| ==> read(answers[i]).None?
  {
    if answers == [] then None
    else match read(answers[0])
      case Some(v) => Some((v, 1))
      case None =>
        match FirstAccepted(answers[1..], read)
        case None => None
        case Some(p) => Some((p.0, p.1 + 1))
  }

  /**
   * A value that is either supplied or asked for: a supplied value is used
   * without prompting; otherwise answers are read (stripped) until one parses.
   * The result is the value and the number of answers consumed; `None` when
   * the answers run out first.
   */
  function ResolveParameter(given: Option<Float>, answers: seq<string>, parseFloat: string -> Option<Float>)
    : (r: Option<(Float, nat)>)
    ensures given.Some? ==> r == Some((given.value, 0))
    ensures given.None? && r.Some? ==>
              0 < r.value.1 <= |answers| && parseFloat(Strip(answers[r.value.1 - 1])) == Some(r.value.0) &&
              forall i :: 0 <= i < r.value.1 - 1 ==> parseFloat(Strip(answers[i])).None?
    ensures given.None? && r.None? ==> forall i :: 0 <= i < |answers| ==> parseFloat(Strip(answers[i])).None?
  {
    if given.Some? then Some((given.value, 0))
    else FirstAccepted(answers, a => parseFloat(Strip(a)))
  }

  /** `intent0.process` from the file's text: a parse error writes nothing; otherwise exactly one intent-0 document. */
  function Intent0Process(text: string, parseFloat: string -> Option<Float>): (r: Result<seq<Json>, KmlError>)
    ensures r.Err? <==> Parse(text, parseFloat).Err?
    ensures r.Ok? ==> |r.value| == 1 && IntentOf(r.value[0]) == Some(0)
    ensures r.Ok? ==> r.value[0] == CoordinatesCommand(0, Intent0Items(Parse(text, parseFloat).value))
  {
    match Parse(text, parseFloat)
    case Err(e) => Err(e)
    case Ok(parsed) => Ok([CoordinatesCommand(0, Intent0Items(parsed))])
  }

  /**
   * `intent5.process` from the file's text: a parse error writes nothing; an
   * empty parse writes nothing; otherwise, once speed and range are known,
   * exactly one intent-5 document with the header `len // 2`.
   */
  function Intent5Process(text: string, speed: Option<Float>, range: Option<Float>, answers: seq<string>,
                          parseFloat: string -> Option<Float>): (r: Result<seq<Json>, KmlError>)
    ensures r.Err? <==> Parse(text, parseFloat).Err?
    ensures r.Ok? && Parse(text, parseFloat).value == [] ==> r.value == []
    ensures r.Ok? ==> |r.value| <= 1
    ensures r.Ok? && |r.value| == 1 ==> IntentOf(r.value[0]) == Some(5)
    ensures r.Ok? && speed.Some? && range.Some? && Parse(text, parseFloat).value != [] ==>
              var parsed := Parse(text, parseFloat).value;
              r.value == [CoordinatesCommand(5, UploadItems(FloorHalfHeader(parsed), speed.value, range.value, parsed))]
    ensures r.Ok? && Parse(text, parseFloat).value != [] ==>
              var s := ResolveParameter(speed, answers, parseFloat);
              && (r.value != [] <==> s.Some? && ResolveParameter(range, answers[s.value.1..], parseFloat).Some?)
              && (r.value != [] ==>
                    var parsed := Parse(text, parseFloat).value;
                    var g := ResolveParameter(range, answers[s.value.1..], parseFloat);
                    r.value == [CoordinatesCommand(5, UploadItems(FloorHalfHeader(parsed), s.value.0, g.value.0, parsed))])
  {
    match Parse(text, parseFloat)
    case Err(e) => Err(e)
    case Ok(parsed) =>
      if parsed == [] then Ok([])
      else
        match ResolveParameter(speed, answers, parseFloat)
        case None => Ok([])
        case Some(s) =>
          match ResolveParameter(range, answers[s.1..], parseFloat)
          case None => Ok([])
          case Some(g) => Ok([CoordinatesCommand(5, UploadItems(FloorHalfHeader(parsed), s.0, g.0, parsed))])
  }

  /** A rejected answer at the speed prompt is asked again: dropping it changes nothing. */
  lemma Intent5SkipsRejectedSpeed(text: string, range: Option<Float>, bad: string, answers: seq<string>,
                                  parseFloat: string -> Option<Float>)
    requires parseFloat(Strip(bad)).None?
    ensures Intent5Process(text, None, range, [bad] + answers, parseFloat) ==
            Intent5Process(text, None, range, answers, parseFloat)
  {
    var all := [bad] + answers;
    assert all[1..] == answers;
    var s := ResolveParameter(None, all, parseFloat);
    if s.Some? {
      assert all[s.value.1..] == answers[s.value.1 - 1..];
    }
  }

  /** Answering both prompts with numbers uploads what passing those numbers as arguments uploads. */
  lemma Intent5PromptedAgreesWithGiven(text: string, a: string, b: string, x: Float, y: Float,
                                       parseFloat: string -> Option<Float>)
    requires parseFloat(Strip(a)) == Some(x) && parseFloat(Strip(b)) == Some(y)
    ensures Intent5Process(text, None, None, [a, b], parseFloat) == Intent5Process(text, Some(x), Some(y), [], parseFloat)
  {
    assert [a, b][1..] == [b];
  }

  /**
   * The document the GUI's `upload_kml` hands to `send_json`: none when the file
   * is missing, the parse fails or a speed/range entry cannot be read; an empty
   * parse is still uploaded.
   */
  function GuiUploadDocument(fileExists: bool, text: string, speed: Option<Float>, range: Option<Float>,
                             parseFloat: string -> Option<Float>): (r: Option<Json>)
    ensures r.Some? <==> fileExists && Parse(text, parseFloat).Ok? && speed.Some? && range.Some?
    ensures r.Some? ==> r.value == CoordinatesCommand(5, UploadItems(FloorHalfHeader(Parse(text, parseFloat).value),
                                                                     speed.value, range.value, Parse(text, parseFloat).value))
  {
    if !fileExists then None
    else match Parse(text, parseFloat)
      case Err(_) => None
      case Ok(parsed) =>
        if speed.None? || range.None? then None
        else Some(CoordinatesCommand(5, UploadItems(FloorHalfHeader(parsed), speed.value, range.value, parsed)))
  }

  /**
   * The document the CLI's `intent_5_upload_coordinates` sends: none when the
   * file is missing, the parse fails, or the speed or range answer is not a float.
   */
  function CliUploadDocument(fileExists: bool, text: string, speedAnswer: string, rangeAnswer: string,
                             parseFloat: string -> Option<Float>): (r: Option<Json>)
    ensures r.Some? <==> fileExists && Parse(text, parseFloat).Ok? &&
                         parseFloat(speedAnswer).Some? && parseFloat(rangeAnswer).Some?
    ensures r.Some? ==> r.value == CoordinatesCommand(5, UploadItems(TrueHalfHeader(Parse(text, parseFloat).value),
                                                                     parseFloat(speedAnswer).value, parseFloat(rangeAnswer).value,
                                                                     Parse(text, parseFloat).value))
  {
    if !fileExists then None
    else match Parse(text, parseFloat)
      case Err(_) => None
      case Ok(parsed) =>
        match parseFloat(speedAnswer)
        case None => None
        case Some(speed) =>
          match parseFloat(rangeAnswer)
          case None => None
          case Some(range) => Some(CoordinatesCommand(5, UploadItems(TrueHalfHeader(parsed), speed, range, parsed)))
  }

  /** For a flat list of pairs the floor header counts the pairs, and the true-division header has the same value as a float. */
  lemma {:induction false} HeaderOfPairs(parsed: seq<Float>, pairs: nat)
    requires |parsed| == 2 * pairs
    ensures FloorHalfHeader(parsed) == JInt(pairs)
    ensures TrueHalfHeader(parsed) == JFloat(Finite(pairs as real))
  {
  }

  /** For an odd number of floats the CLI header is fractional while intent5 and the GUI round down. */
  lemma {:induction false} HeaderOfOddLength(parsed: seq<Float>)
    requires |parsed| % 2 == 1
    ensures TrueHalfHeader(parsed) == JFloat(Finite((|parsed| / 2) as real + 0.5))
    ensures FloorHalfHeader(parsed) == JInt((|parsed| - 1) / 2)
  {
    var h := |parsed| / 2;
    assert |parsed| == 2 * h + 1;
    assert |parsed| as real / 2.0 == h as real + 0.5;
  }

  /**
   * With the `lon,lat,alt` triples a KML file carries, the floor header equals
   * the number of waypoints only for zero or one waypoint.
   */
  lemma {:induction false} HeaderOfTriples(parsed: seq<Float>, points: nat)
    requires |parsed| == 3 * points
    ensures FloorHalfHeader(parsed) == JInt(points) <==> points <= 1
  {
    if points >= 2 {
      assert |parsed| / 2 >= points + 1;
    }
  }

  /** The intent-0 header equals the intent-5 header only for an empty parse. */
  lemma {:induction false} Intent0HeaderDiffers(parsed: seq<Float>)
    ensures Intent0Items(parsed)[0] == FloorHalfHeader(parsed) <==> parsed == []
  {
  }
}

=== FILE: wrappers.dfy ===
/** Failure-compatible helper datatypes used throughout the model. */
module Wrappers {

  /** A value that may be absent: Python's `None` result, a failed parse, a timed-out read. */
  datatype Option<+T> = None | Some(value: T) {

    /** The wrapped value, or `default` when absent. */
    function GetOr(default: T): T {
      match this
      case Some(v) => v
      case None => default
    }
  }

  /** The outcome of an operation that can raise: `Ok` with a value or `Err` with a reason. */
  datatype Result<+R, +E> = Ok(value: R) | Err(error: E)
}
